=== FILE: README.md ===
# Ninis bot core, modelled in Dafny

This project models the rules inside the command handlers of the Ninis
Discord bot, a Python bot built on discord.py. Each handler is written as a
pure transition on abstract state: maps, sets and sequences of ids and names.
The chat platform's effects (sending, embeds, role and channel creation,
purges, bans, timeouts) become updates of that state, or they are left out.
Whether a platform call succeeds is a boolean or `Option` parameter.
The clock is an integer parameter. Randomness is a pick index chosen by the
caller: `random.choice`, `random.sample` and `random.choices` select
`list[pick % |list|]`.

One module per source file:

- `Levels` covers `levels.py`: the XP curve, its exact integer inverse, tier roles, the XP-award guard, rank, leaderboard, dashboard and `reset_xp`.
- `AntiLink` covers `main/antilink.py`: the link detector, the warning counter with its ban threshold, and exempt channels.
- `ReactionRoles` covers `main/roles.py`: exclusive one-role-per-category reaction menus and their message-id bookkeeping.
- `Invites` covers `main/invites.py`: invite-use diffing that credits an inviter, the invite cache, and invite counters.
- `DailyQuestion` covers `menu/daily_question.py`: question rotation with a five-question window, and channel resolution.
- `Giveaway` covers `menu/giveaway.py`: duration parsing, winner sampling, ending a giveaway and rerolling.
- `Music` covers `main/music.py`: query normalisation, the track record, and the FIFO queue with its current track, listing and volume.
- `TikTok` covers `tiktok.py`: the account registry, the simulated checks and the choice of notification channel.
- `ServerLog` covers `logging.py`: field truncation, skip rules, the log-channel cache, role diffs and duration splits.
- `Moderation` covers `moderation.py`: `clear` bounds, the role-hierarchy guard, the default reason and the mute length.
- `Emoji` covers `menu/emoji.py`: boost-tier limits, argument checks, slot arithmetic, the download retry policy and grouping.
- `GuildUtils` covers `main/utils.py`: the statistics-channel classifier and registry, the admin guard, and the welcome channel.
- `Setup` covers `setup.py`: role creation, channel-name normalisation, the rules-acceptance reaction, the emoji menu and the confirmation dialogues.
- `BotMain` covers `main.py`: command-error dispatch, the gated help menu, and the restart loop.
- `KeepAlive` covers `main/keep_alive.py`: the uptime split, the bounded restart history, the health-check switch and the public URL.
- `ChatGpt` covers `chatgpt.py`: the empty-question guard, answer and title truncation, and error classification.

Shared helpers live in their own modules:

- `Wrappers` holds `Option`.
- `Text` holds substring search, `str.lower`, decimal rendering and parsing, and the truncation rule.
- `OrderedDict` models Python dictionaries whose iteration order matters, as sequences of pairs.
- `Ranking` holds the descending sort used by every ranking command.

Where the description of a handler and its code disagree, the model follows the code. Four cases:

- After every question has been asked, `get_next_question` first cuts the used list to its last five entries (menu/daily_question.py:153-154). When no question is left outside that window, the random fallback returns the list as it was cut, not as it was before.
- `calculate_level` is computed exactly: `isqrt((xp + 25) div 5) - 5` for `xp >= -25`, and 0 below that. This agrees with the floor of the float formula for every xp.
- `create_stats_channels` never finds existing counters, because of how it calls `discord.utils.get` (main/utils.py:170-172). `GuildUtils.CreateStatsAsWritten` models that code; `GuildUtils.CreateStats` models the evident intent. The "## Findings" section gives the details.
- `reset_server` is described, in its docstring and in its warning embed, as deleting every channel and role (setup.py:1322, 1330-1331). Its code only runs the confirmation dialogue and returns after every answer, a correct code included, without deleting anything (setup.py:1345-1363). `Setup.ResetServer` models the code: the channels and roles are unchanged whatever the answer.

## Model

| member | source | states |
|---|---|---|
| Levels.XpForLevel | levels.py:26-28 | The XP of level L is 5(L+5)² − 25, i.e. 5L² + 50L + 100 |
| Levels.CalculateLevel | levels.py:30-39 | Below −25 XP the level is 0; otherwise it is a level L ≥ −5 with XpForLevel(L) ≤ xp < XpForLevel(L+1) |
| Levels.XpStep | levels.py:26-28 | Going from level L to L+1 costs 10L + 55 XP |
| Levels.XpForLevelIncreasing | levels.py:26-28 | The curve strictly increases from level −5 on |
| Levels.CalculateLevelUnique | levels.py:30-39 | Any level ≥ −5 whose XP bracket holds xp is the computed level, so the inverse is unique |
| Levels.LevelReachedIff | levels.py:30-39 | For xp ≥ −25, level L is reached exactly when xp ≥ XpForLevel(L) |
| Levels.CalculateLevelMonotone | levels.py:30-39 | From −25 XP on, more XP never means a lower level |
| Levels.NegativeDiscriminantBreaksMonotony | levels.py:34-36 | −26 XP gives level 0 while −25 XP gives level −5, so the negative-discriminant branch breaks monotony |
| Levels.LevelCurveLandmarks | levels.py:26-39 | Levels are negative exactly below 100 XP, 0 XP is level −3, level 1 starts at exactly 155 XP, level 10 costs 1100 XP and level 5 costs 475 XP, and 425 XP is level 4 |
| Levels.TierRoleNamesDistinct | levels.py:18-24 | The five tier roles have pairwise distinct names |
| Levels.TierFor | levels.py:137-140 | The tier is the largest of 1, 5, 10, 20, 30 not above the level, or none below level 1 |
| Levels.NextTier | levels.py:340 | The next tier is the smallest tier above the level; there is none from level 30 on |
| Levels.UpdateLevelRole | levels.py:134-173 | Below level 1 or without the target role nothing changes; otherwise the member holds the target tier role and no other tier role, and every non-tier role is untouched |
| Levels.OnMessage | levels.py:76-132 | Bot, prefixed and non-guild messages change nothing. Within 60 s of the last award only that cooldown is reported. Otherwise the member alone gains 15–25 XP, the stamp is set, and the stored level moves only when the computed level rises |
| Levels.Grant | levels.py:110-127 | XP grows by the gain, and a level-up is reported exactly when the computed level strictly rises, with the new level stored |
| Levels.CooldownBlocksSecondAward | levels.py:97-103 | A second eligible message within 60 s of an award gets no XP |
| Levels.AwardRaisesLevelByAtMostOne | levels.py:105-121 | One award of 15–25 XP from non-negative XP raises the level by 0 or 1 |
| Levels.RankProgress | levels.py:278-286 | The required XP is 10L + 55 > 0, the progress is in [0, required), and the level's XP plus the progress gives back the total |
| Levels.Ranked | levels.py:299-300 | The ranking holds the same records, ordered by XP, highest first |
| Levels.UserRank | levels.py:298-301 | Rank 0 means no record; otherwise the rank is the member's 1-based position in XP order, with no one below them holding more XP |
| Levels.KeepPresent | levels.py:403-407 | The lines kept are exactly those of members still in the guild |
| Levels.KeepPresentIncreasing | levels.py:401-416 | Filtering out departed members keeps positions increasing |
| Levels.TopLines | levels.py:385-416 | At most 10 lines, positions increasing, each line shows its record at its true rank, and every present member of the first ten appears |
| Levels.Leaderboard | levels.py:377-419 | A guild with no records gets no board; otherwise the board is the top lines |
| Levels.Dashboard | levels.py:598-632 | An unknown guild gets no dashboard; otherwise the dashboard is the top lines |
| Levels.TopTenIsBest | levels.py:386-390 | Every listed member has at least the XP of anyone ranked below the tenth place |
| Levels.ResetXp | levels.py:442-476 | A missing member or a missing record changes nothing; otherwise that record alone becomes 0 XP and level 0, and the member loses every tier role |
| Levels.HelpExampleDisagreesWithCurve | levels.py:682-683 | The help text's 425 XP for level 5 is level 4 on the curve, which puts level 5 at 475 XP; its level-10 example is right |
| Levels.CorrectedHelpExampleXp | levels.py:682-683 | The corrected example XP reaches its level, and one XP less does not |
| AntiLink.SearchFrom | main/antilink.py:21 | The scan from a position finds a link exactly when a marker starts at that position or later |
| AntiLink.ContainsLink | main/antilink.py:21 | The scan finds a link exactly when the text holds a marker (http://, https://, www., discord.gg/ or discord.com/invite/) followed by a non-space character |
| AntiLink.MarkerExamples | main/antilink.py:21 | "https://x" and "www.b" count as links, even inside other text |
| AntiLink.SpacedMarkerIsNoLink | main/antilink.py:21 | A marker followed by a space is not a link |
| AntiLink.UpperCaseIsNoLink | main/antilink.py:21 | Matching is case sensitive: "HTTPS://X" is not a link |
| AntiLink.AddOne | main/antilink.py:69-74 | The user's count grows by exactly one and exactly one reason is appended; other users are untouched and count = number of reasons is kept |
| AntiLink.OnMessage | main/antilink.py:48-122 | Exempt messages (bots, administrators, exempt channels) and link-free messages change nothing, and neither does a failed deletion. Otherwise one warning is added, and a ban is attempted whenever the new count is at least 5 |
| AntiLink.AddWarning | main/antilink.py:192-222 | One warning with the given reason or "Aucune raison spécifiée"; a ban is attempted exactly when the count reaches 5 or more |
| AntiLink.CountAfterWarnings | main/antilink.py:71-93 | After n warnings a fresh user's count is n, and a ban is attempted exactly from the fifth warning on |
| AntiLink.ClearWarnings | main/antilink.py:175-181 | The user's whole record goes, others stay, and an unknown user changes nothing |
| AntiLink.ExemptChannel | main/antilink.py:265 | The channel is exempt afterwards and nothing else changes |
| AntiLink.UnexemptChannel | main/antilink.py:279-283 | Removal reports whether the channel was exempt and removes only it |
| AntiLink.ExemptRoundTrip | main/antilink.py:265-283 | Exempting a channel that was not exempt, then un-exempting it, gives back the original set |
| ReactionRoles.CategoryNamed | main/roles.py:17-26 | A category is found by name exactly when the configuration holds one with that name |
| ReactionRoles.OptionFor | main/roles.py:92-94 | An emoji maps to a role of the category exactly when the category lists it |
| ReactionRoles.FindCategory | main/roles.py:65-72 | The category found is one whose stored message id equals the reaction's id as a string; none is found when no stored id matches |
| ReactionRoles.StoreMessageId | main/roles.py:258-260 | The category's stored id becomes the new id as a string, and every other category keeps its id |
| ReactionRoles.StoredIdsDistinct | main/roles.py:65-70 | Distinct message ids are stored as distinct strings |
| ReactionRoles.StoredMenuIsFound | main/roles.py:258-260 | A menu id just stored is found again by the reaction lookup |
| ReactionRoles.SetupCategory | main/roles.py:238-261 | After setup the category has a non-empty stored id, and other categories keep theirs |
| ReactionRoles.SetupMenus | main/roles.py:222-261 | Every configured category ends with a non-empty stored id, and unconfigured ones are untouched |
| ReactionRoles.StoredId | main/roles.py:239 | A stored id comes from an entry of that category |
| ReactionRoles.EnsureRoles | main/roles.py:205-217 | Existing roles keep their ids and every option's role exists afterwards |
| ReactionRoles.Choose | main/roles.py:108-123 | A held choice changes nothing; otherwise the member holds the chosen role and none other of the category, and roles outside it are untouched |
| ReactionRoles.OnReactionAdd | main/roles.py:58-139 | The bot's reactions, unknown menus, unknown emojis and missing members change no roles; a mapped emoji applies the exclusive choice, creating the role if needed |
| ReactionRoles.OnReactionRemove | main/roles.py:142-145 | Removing a reaction never changes roles |
| ReactionRoles.ReactionIdempotent | main/roles.py:108-110 | Reacting twice gives the same roles as reacting once |
| ReactionRoles.ChoiceIsExclusive | main/roles.py:112-122 | With at most one category role before, the member holds exactly the chosen one after |
| Invites.InviterKey | main/invites.py:179 | The counter key is "unknown" exactly when the invite has no inviter |
| Invites.Snapshot | main/invites.py:169 | The snapshot's codes are exactly the fetched codes |
| Invites.FirstUsed | main/invites.py:172-174 | The first fetched invite that is new or whose uses grew, and none is found only when no invite qualifies |
| Invites.Credit | main/invites.py:176-184 | Exactly one counter grows by one, starting from 0 when absent |
| Invites.FindUsedInvite | main/invites.py:141-198 | Before initialisation nothing changes. Otherwise the guild's cache becomes the snapshot; a used invite credits its inviter and reports the new count, and otherwise the counters are unchanged |
| Invites.SnapshotHoldsUses | main/invites.py:169 | With distinct codes, the snapshot holds each invite's use count |
| Invites.SecondLookupFindsNothing | main/invites.py:162-194 | Right after a lookup, the same invites show no new use |
| Invites.NoUseChangesOnlyTheCache | main/invites.py:169-194 | When no invite was used, only the cache is refreshed |
| Invites.CreditTouchesOneCounter | main/invites.py:176-184 | Crediting one inviter leaves every other counter of every guild unchanged |
| Invites.OnInviteCreate | main/invites.py:118-125 | Only the new code's use count is recorded |
| Invites.OnInviteDelete | main/invites.py:131-136 | Only the deleted code leaves the cache, and an unknown code changes nothing |
| Invites.OnGuildRemove | main/invites.py:103-110 | Both the cache and the counters of the guild are dropped, and nothing else |
| Invites.OnGuildJoin | main/invites.py:89-96 | The guild's cache is its snapshot, or empty when the fetch fails |
| Invites.ZeroCounters | main/invites.py:44-49 | Every inviter gets a counter, and existing counters keep their values while new ones start at 0 |
| Invites.InitGuild | main/invites.py:36-49 | One guild's cache is filled and existing counters are kept |
| Invites.Initialize | main/invites.py:30-56 | After start-up the module is ready. Each listed guild's cache is its fetched snapshot (empty when the listing fails; a guild listed twice keeps its last listing), and unlisted guilds keep theirs. Every inviter found has a counter, and no existing counter changes |
| Invites.InvitesOf | main/invites.py:207-220 | A member with a zero or missing counter has not invited anyone yet; otherwise their count is reported |
| Invites.TopInvites | main/invites.py:223-237 | No ranking for an empty guild; otherwise at most 10 counters, highest first, all from the guild, none beaten by an unlisted one |
| Ranking.SortDesc | levels.py:300 | The sort is a permutation of its input, ordered by score, highest first |
| Ranking.InsertSorted | levels.py:300 | Inserting into a ranking keeps it ordered |
| Ranking.SortKeepsItems | levels.py:300 | Sorting neither adds nor loses items |
| Ranking.Top | main/invites.py:230-237 | The first n entries of the ranking, ordered, each at least as high as every entry left out |
| OrderedDict.Get | main/invites.py:214 | A lookup finds a value stored under the key, and finds none exactly when the key is absent |
| OrderedDict.Put | main/invites.py:181-184 | The key maps to the new value, other keys keep theirs, a present key keeps its place and a new key is appended |
| OrderedDict.PutDistinct | main/invites.py:181-184 | Assignment keeps keys distinct |
| OrderedDict.Remove | tiktok.py:99 | The key is gone, other keys keep their values, and an absent key changes nothing |
| DailyQuestion.Available | menu/daily_question.py:148 | The unasked questions are exactly the questions absent from the used list |
| DailyQuestion.Trim | menu/daily_question.py:153-154 | The window keeps the last five used questions, or all of them when there are at most five |
| DailyQuestion.Choose | menu/daily_question.py:161 | The pick is an element of the list |
| DailyQuestion.NextQuestion | menu/daily_question.py:146-164 | An unasked question is taken and recorded. Once all were asked, the window is trimmed first and a question outside it is taken and recorded. With none outside, any question is returned and nothing is recorded |
| DailyQuestion.NextQuestionFromList | menu/daily_question.py:158-161 | The question always comes from the list, and there is one exactly when the list is non-empty |
| DailyQuestion.UsedStaysWithoutRepeats | menu/daily_question.py:148-162 | The used list never records a question twice |
| DailyQuestion.EnoughQuestionsAlwaysRotate | menu/daily_question.py:151-162 | With more than five distinct questions, the question is always new to the list it is recorded in |
| DailyQuestion.FirstQuestionChannel | menu/daily_question.py:186-198 | The first text channel whose lower-cased name holds "question" and "jour", or "daily" and "question"; none is found when no channel qualifies |
| DailyQuestion.ResolveChannel | menu/daily_question.py:168-201 | The order is the configured channel, then the predefined id, then the first matching name; whatever is found is remembered for the guild |
| DailyQuestion.ResolutionIsRemembered | menu/daily_question.py:169-174 | A resolved channel is used directly the next time |
| DailyQuestion.SendDailyQuestion | menu/daily_question.py:166-234 | No channel means false and no change; success needs a channel, a question and a posted message |
| Giveaway.UnitSeconds | menu/giveaway.py:29-34 | Only s, m, h and d are units |
| Giveaway.ParseDuration | menu/giveaway.py:22-38 | A non-integer prefix is rejected; otherwise the duration is the number times the unit of the lower-cased last character, and a zero result is rejected |
| Giveaway.DurationExamples | menu/giveaway.py:22-38 | "10m" is 600 s, "2H" is 7200 s and "-5m" is −300 s; "5x" and "0d" are refused, and so is "m" |
| Giveaway.Start | menu/giveaway.py:18-60 | A valid duration records the giveaway with its end time; otherwise nothing is recorded |
| Giveaway.Humans | menu/giveaway.py:78 | The participants are exactly the non-bot reactors |
| Giveaway.Sample | menu/giveaway.py:83 | Exactly k winners, drawn without replacement from the pool |
| Giveaway.FullSampleIsPermutation | menu/giveaway.py:83 | Drawing everybody yields a permutation of the pool |
| Giveaway.End | menu/giveaway.py:66-90 | The record is always removed. An unknown id and a vanished channel give their own outcome, and so does a negative winner count, which `random.sample` rejects. An empty draw means not enough participants. Otherwise the winners are drawn without replacement from the human participants: all of them when there are too few, else exactly the requested number |
| Giveaway.EndIsOnce | menu/giveaway.py:67-70 | Ending the same giveaway again finds nothing |
| Giveaway.Reroll | menu/giveaway.py:94-107 | A reroll picks one non-bot participant, or reports that there is none |
| Music.NormalizeQuery | main/music.py:228-229 | URLs pass unchanged and anything else becomes a "ytsearch:" query |
| Music.CreateSource | main/music.py:72-107 | No result or an empty playlist gives no track; otherwise the first entry becomes the track. Each field is the entry's value, or its default when missing: "Titre inconnu", "Inconnu", duration 0, and the query for a missing or empty page URL. The requester is attached |
| Music.Play | main/music.py:221-279 | Outside voice or without a track nothing changes. While busy the track joins the tail at position = new queue length; otherwise it plays at once with the queue unchanged |
| Music.SongFinished | main/music.py:474-486 | The head of the queue becomes current and leaves the queue; an empty queue clears the current track |
| Music.QueueIsFifo | main/music.py:481-482 | Tracks come out of the queue in the order they were appended |
| Music.Stop | main/music.py:318-325 | While connected, stop and leave both empty the queue and clear the current track |
| Music.Volume | main/music.py:373-388 | A level is accepted exactly in 0..100, and it is the level set |
| Music.FormatDuration | main/music.py:263-268 | Minutes, a colon, then seconds zero-padded to two digits, reading back as the duration |
| Music.EntryLines | main/music.py:356-357 | One numbered line per queued track, in order |
| Music.QueueListing | main/music.py:353-362 | Lines are added until one pushes the text past 900 characters; with tracks left, the count of the rest follows |
| Music.ShowQueue | main/music.py:334-371 | An idle empty player shows nothing; otherwise the current track and, when the queue is non-empty, the listing |
| TikTok.CheckAccount | tiktok.py:212-244 | The first check stores the time as baseline and later ones never touch it. A new-video notice needs verbose mode and a baseline equal to now. The live demo fires once, in verbose mode, and leaves the flag false |
| TikTok.QuietChecksNeverNotify | tiktok.py:230-243 | Checks outside verbose mode never notify |
| TikTok.LiveDemoOnce | tiktok.py:241-244 | The live demo never fires twice for one account |
| TikTok.NewVideoNeedsSameSecond | tiktok.py:223-234 | The first check never announces a video, and the second does only within the same second |
| TikTok.SetTikTok | tiktok.py:69-90 | The member is recorded with "yannlln" whatever was asked, nobody else changes, and the account is checked at once |
| TikTok.RemoveTikTok | tiktok.py:94-115 | The member leaves all three maps; an unregistered member changes nothing |
| TikTok.SetInterval | tiktok.py:160-173 | Under one minute is refused; otherwise the interval is minutes × 60 |
| TikTok.CheckAll | tiktok.py:186-207 | A sweep keeps every baseline and gives each checked member one |
| TikTok.PeriodicCheckSetsBaselines | tiktok.py:198-200 | After a sweep every registered member has a baseline |
| TikTok.NotificationTarget | tiktok.py:259-274 | The channel with the exact name, else the first containing "notif" or "tiktok"; none only when no channel qualifies |
| TikTok.NotifiedGuilds | tiktok.py:253-274 | Notices go to exactly the guilds that hold the member and a qualifying channel |
| ServerLog.LogField | logging.py:325-326 | Text over 1024 characters becomes its first 1021 plus "...", 1024 in all; shorter text is unchanged |
| ServerLog.LogFieldIdempotent | logging.py:380-388 | Truncating twice is truncating once |
| ServerLog.ContentField | logging.py:322-327 | Empty content gives no field; otherwise the truncated content |
| ServerLog.LogsChannel | logging.py:116-130 | The cached channel while it exists, else the channel named "logs-serveur", which is then cached, else none |
| ServerLog.LogsChannelIsCached | logging.py:119-128 | A channel found by name is taken from the cache afterwards |
| ServerLog.ChannelEventLogged | logging.py:399-437 | A channel creation or deletion is logged exactly when a log channel exists and the channel is not that log channel |
| ServerLog.DeletionLogged | logging.py:292-308 | A deletion is logged exactly when the author is not a bot, it happened in a guild, and a channel event there would be logged |
| ServerLog.EditLogged | logging.py:342-364 | An edit is logged exactly when the content changed and a deletion there would be logged |
| ServerLog.LogChannelIsNeverLogged | logging.py:307-308 | Deletions, edits and channel events in the log channel itself are never logged |
| ServerLog.Without | logging.py:532-535 | The kept roles are exactly those of the first list absent from the second |
| ServerLog.WithoutKeepsOrder | logging.py:532-535 | The filter keeps order: it distributes over concatenation |
| ServerLog.RoleDiff | logging.py:530-537 | Added = after minus before and removed = before minus after, disjoint; an entry is made exactly when the two role sets differ |
| ServerLog.RoleDiffIsComplete | logging.py:530-537 | Applying the diff to the roles before gives the roles after |
| ServerLog.MemberUpdateEntries | logging.py:517-563 | Bots and guilds without a log channel get nothing; otherwise the role entry and the nickname entry are independent |
| ServerLog.AccountAgeDays | logging.py:155 | The age in whole days, rounded down as a time delta's `days` is |
| ServerLog.RecentAccount | logging.py:155-160 | An account is flagged exactly when it is younger than seven days in seconds |
| ServerLog.PreviousNames | logging.py:184-187 | At most the first ten previous names, and none when there are none |
| ServerLog.StayDuration | logging.py:233-239 | Days, hours < 24 and minutes < 60 add up to the stay, to the minute |
| Moderation.Clear | moderation.py:19-28 | Amounts outside 1..100 are refused; otherwise up to amount + 1 messages are purged and one fewer is reported |
| Moderation.DefaultClear | moderation.py:19 | A bare `clear` (amount 5) is accepted, purges up to six messages and reports up to five |
| Moderation.Guard | moderation.py:36-46 | Refused unless the bot ranks strictly above the target, then unless the author does or owns the guild; a missing reason becomes the default |
| Moderation.NoActionUpward | moderation.py:36-43 | Nobody acts on a member at or above the bot, and a non-owner never acts on an equal |
| Moderation.Apply | moderation.py:178-198 | A sanction happens exactly when the guard allows it, and a mute always lasts 60 minutes |
| Moderation.Lift | moderation.py:222-229 | Unmute and unban check no hierarchy; only the reason is defaulted |
| Emoji.Limit | menu/emoji.py:97-111 | 50, 100 and 150 for boost tiers 0, 1 and 2, and 250 otherwise |
| Emoji.LimitMonotone | menu/emoji.py:104-111 | A higher tier never lowers the limit |
| Emoji.CheckRequest | menu/emoji.py:122-129 | The type must be anime, basic or all in any case, checked first; then the count must be in 1..50 |
| Emoji.PlanAdditions | menu/emoji.py:136-179 | No free slot of either kind stops the command; each selected kind with free slots adds min(count, 25, free) and stays within the limit |
| Emoji.FreeSlotMeansProgress | menu/emoji.py:152-176 | A free slot of a selected kind always leads to an addition |
| Emoji.Policy | menu/emoji.py:196-244 | At most four attempts. The image arrives exactly when some attempt is fetched, and it ends the loop. An error is recorded exactly when nothing is fetched and the fourth attempt fails other than by a rate limit. Each rate limit waits between 6 and 15 seconds |
| Emoji.DownloadWithRetries | menu/emoji.py:196-248 | The retry loop does exactly what the retry policy prescribes |
| Emoji.RateLimitedFourTimes | menu/emoji.py:205-211 | Four rate limits wait 6, 9, 12 and 15 s and skip the emoji without recording an error |
| Emoji.FourFailuresRecordOneError | menu/emoji.py:212-244 | Four other failures record exactly one error |
| Emoji.ChunksFlatten | menu/emoji.py:286 | Grouping loses and reorders nothing |
| Emoji.ErrorSummary | menu/emoji.py:295-298 | The first 10 errors, or 15 when nothing was added, then the count of the rest |
| Emoji.ListKind | menu/emoji.py:362-378 | At most two groups of 15 shown, in order, with a note counting the emojis beyond 30 exactly when there are more |
| GuildUtils.Candidates | main/utils.py:42-49 | The candidates are exactly the voice channels whose name fits a statistics slot |
| GuildUtils.FirstFittingCandidate | main/utils.py:42-71 | Searching the filtered candidates finds the first channel of the whole list that is a candidate and fits the slot |
| GuildUtils.SlotChannel | main/utils.py:53-72 | A slot is filled exactly when some candidate fits it, and then by the first candidate channel that fits it |
| GuildUtils.FirstFitIdUnique | main/utils.py:54-57 | The first fitting channel is unique, so a slot names one channel |
| GuildUtils.DetectStats | main/utils.py:51-79 | Fewer than three candidates give nothing; otherwise detection succeeds exactly when all three slots can be filled, each by the first candidate channel that fits it |
| GuildUtils.RegisterDetected | main/utils.py:74-84 | A complete detection is registered; an incomplete one changes nothing |
| GuildUtils.UpdateGuildStats | main/utils.py:249-265 | Success exactly when the guild is registered and its three channels exist; a missing channel unregisters the guild |
| GuildUtils.UpdateLeavesLiveEntries | main/utils.py:257-265 | After an update the registry names only existing channels for the guild |
| GuildUtils.DeleteStats | main/utils.py:103-151 | Refused without admin or ownership, and reported when the guild is unregistered. Otherwise the entry is always dropped, and the count is the number of its three channels that still exist: zero exactly when none does |
| GuildUtils.CreateStatsAsWritten | main/utils.py:162-226 | The code as written: created and registered exactly for an admin or owner; the "already exist" answer never comes |
| GuildUtils.CreateStats | main/utils.py:169-176 | As intended: created exactly for an admin or owner when some counter is missing, and then registered; skipped exactly when all three counters exist |
| GuildUtils.CounterNamesPresent | main/utils.py:192-218 | The names of the created channels carry the three markers the duplicate check looks for |
| GuildUtils.SecondCreateDuplicates | main/utils.py:169-176 | Running the command again once the first trio exists: the intended check skips, the code as written registers a second trio |
| GuildUtils.VoiceCount | main/utils.py:215 | The count of members in voice: zero exactly when none is, all exactly when all are |
| GuildUtils.WelcomeChannel | main/utils.py:420-443 | The fixed id, then "hello-toujours-coquette", then "📌・bienvenue", then the first welcome-like name; none only when nothing qualifies |
| GuildUtils.InvitationLine | main/utils.py:478-486 | Shown exactly when an inviter is known, with "s" exactly for more than one invitation |
| Setup.RolePermissions | setup.py:172-186 | Ordinary roles get nothing; staff roles get the moderation set; channel management and administrator go only to the queen role |
| Setup.CreateRoles | setup.py:159-193 | Exactly the configured roles missing from the server are created, each with its permissions |
| Setup.SetupIsIdempotent | setup.py:162-169 | A second run creates nothing |
| Setup.NothingLeftToCreate | setup.py:164-169 | A server holding every configured role gets none created |
| Setup.Normalize | setup.py:270 | Every "・" becomes "-" and nothing else changes |
| Setup.NormalizeIsIdempotent | setup.py:270 | Normalising twice is normalising once |
| Setup.ChannelExists | setup.py:266-275 | A channel is skipped exactly when its normalised name is in the category |
| Setup.DottedNameIsNeverFoundVerbatim | setup.py:268-271 | A name containing "・" is looked up under a different spelling |
| Setup.MenuRole | setup.py:504-539 | Only 🌸 ✨ ☁ ⋆ map to roles |
| Setup.MenuRolesAreDistinct | setup.py:504-509 | Different menu emojis give different roles |
| Setup.OnReactionAdd | setup.py:412-539 | The bot and unknown members change nothing. A ✅ in the rules channel swaps "Non vérifié" for "Membre", creating it if needed. Elsewhere a menu emoji grants its existing role on any message |
| Setup.OnReactionRemove | setup.py:542-594 | Withdrawing the rules ✅ changes nothing, and a menu emoji revokes its role |
| Setup.AcceptanceIsNotRevoked | setup.py:562-563 | Accepting the rules and withdrawing the ✅ keeps "Membre" |
| Setup.MenuReactionRoundTrip | setup.py:504-594 | Adding then removing a menu reaction gives back the member's roles when they did not already hold that menu role |
| Setup.FirstDecisive | setup.py:91-95 | The first reply that is "oui" or "non" in any case |
| Setup.Confirm | setup.py:86-99 | No such reply times out; the setup proceeds exactly when the first such reply is "oui" |
| Setup.ResetCode | setup.py:1326 | Six characters from A–Z and 0–9 |
| Setup.FirstResetDecisive | setup.py:1345-1349 | The first reply that is the exact code or "annuler" in any case; none exactly when no reply is |
| Setup.ResetDialogue | setup.py:1345-1363 | The first reply that is the code or "annuler" decides: cancelled exactly when it lower-cases to "annuler", confirmed exactly when it is the code and not "annuler"; with none the dialogue times out |
| Setup.ResetServer | setup.py:1320-1363 | Whatever the answer, no channel and no role is deleted |
| BotMain.Seconds2 | main.py:85 | The wait is written with two decimals |
| BotMain.Seconds2RoundTrip | main.py:85 | The written wait reads back as the number of hundredths |
| BotMain.OnCommandError | main.py:75-94 | Unknown commands are ignored. Missing permissions, a cooldown with its wait to two decimals and a missing argument each get their own reply. Only errors of no known kind are logged, with the generic reply |
| BotMain.GenericReplyMarksUnknownErrors | main.py:92-94 | No specific reply starts like the generic one |
| BotMain.HelpOptions | main.py:189-206 | Moderation is offered exactly to manage_messages holders and Administration exactly to administrators, besides the five public categories |
| BotMain.Select | main.py:306-312 | A gated category shows nothing to a member without the right |
| BotMain.SelectMatchesOptions | main.py:204-205 | A page opens exactly for the categories the menu offers |
| BotMain.Interval | main.py:536 | The wait lies between 60 and 900 seconds |
| BotMain.IntervalDoubles | main.py:536 | Each wait doubles the previous one, up to 900 |
| BotMain.RestartLoop | main.py:504-536 | A clean end stops the loop, the fifth crash ends it, and every other crash waits the current interval |
| BotMain.WaitsNeverReachTheCap | main.py:524-536 | The loop waits at most four times, 60, 120, 240 and 480 s, so the 900 s cap is never slept |
| KeepAlive.SplitUptime | main/keep_alive.py:197-200 | Hours < 24, minutes < 60, seconds < 60, and days = uptime div 86400 |
| KeepAlive.UptimeRoundTrip | main/keep_alive.py:42-45 | The parts add back to the uptime |
| KeepAlive.SplitIsUnique | main/keep_alive.py:198-200 | A normalised split is the split of its total |
| KeepAlive.UptimeText | main/keep_alive.py:196-202 | The "{d}j {h}h {m}m {s}s" text reads back as the uptime in seconds |
| KeepAlive.ReadUptimeWords | main/keep_alive.py:202 | The text of a split uptime reads back as its total |
| KeepAlive.UptimeTextInjective | main/keep_alive.py:196-202 | Different uptimes are never shown alike |
| KeepAlive.RecordRestart | main/keep_alive.py:323-341 | One more restart, stamped now, with exactly one "health_check" entry appended and the history cut to its last ten |
| KeepAlive.Latest | main/keep_alive.py:340-341 | Keeps min(length, 10) entries |
| KeepAlive.RecordRestartKeepsLatest | main/keep_alive.py:339-341 | The new history is the last ten of the old history plus the new entry |
| KeepAlive.HistoryKeepsLatest | main/keep_alive.py:333-341 | After any non-empty run of restarts, from a history of any length, the history is the last ten of the whole record, in order; the total counts every restart |
| KeepAlive.StartHealthCheck | main/keep_alive.py:397-401 | Starting activates the check and starts a thread only when none runs |
| KeepAlive.StopHealthCheck | main/keep_alive.py:403-410 | Stopping clears the flag |
| KeepAlive.StartIsIdempotent | main/keep_alive.py:397-401 | Starting twice is starting once |
| KeepAlive.SplitComma | main/keep_alive.py:438 | The pieces are never empty as a list and hold no comma |
| KeepAlive.SplitJoin | main/keep_alive.py:438 | Joining the pieces gives the string back |
| KeepAlive.ReplitUrl | main/keep_alive.py:436-445 | "https://" plus the first REPLIT_DOMAINS entry; else the repl.co address when both REPL_ID and REPL_SLUG are set; else none |
| KeepAlive.FirstDomainIsPrefix | main/keep_alive.py:438-440 | The first domain is everything up to the first comma |
| ChatGpt.Strip | chatgpt.py:66 | The text between the outer runs of whitespace |
| ChatGpt.StripIsIdempotent | chatgpt.py:66 | Stripping twice is stripping once |
| ChatGpt.PostedAnswer | chatgpt.py:69-71 | Over 2000 characters the answer becomes its first 1997 plus "...", 2000 in all; otherwise it is unchanged |
| ChatGpt.PostedAnswerIsIdempotent | chatgpt.py:69-71 | Truncating twice is truncating once |
| ChatGpt.Title | chatgpt.py:75 | The question, cut to 100 characters plus "..." when longer |
| ChatGpt.Classify | chatgpt.py:99-106 | Quota first, then rate limit, then context length, then generic |
| ChatGpt.DescribeError | chatgpt.py:97-120 | Each kind has its own description: the quota, rate-limit and too-long texts, and the generic text with the message's first 100 characters and "...". The Solution field appears exactly for an exhausted quota |
| ChatGpt.DescriptionStart | chatgpt.py:99-106 | Each kind's description starts with its own two characters |
| ChatGpt.DescriptionShowsKind | chatgpt.py:99-106 | Errors of different kinds never get the same description |
| ChatGpt.QuotaWinsOverRateLimit | chatgpt.py:99-101 | A message naming both is read as a quota |
| ChatGpt.Ask | chatgpt.py:33-122 | A missing or empty question is refused; otherwise the answer is posted stripped and cut to 2000, or the error described |
| ChatGpt.EmptyQuestionNeverCallsApi | chatgpt.py:40-47 | A refused question's outcome does not depend on the API |
| Text.Ellipsize | logging.py:325-326 | Text over the limit keeps its first characters and ends with "..."; shorter text is unchanged |
| Text.OrElse | moderation.py:46 | A missing or empty value falls back to the default |
| Text.PluralS | main/utils.py:480 | "s" exactly for counts above one |
| Text.Lower | main/utils.py:44-46 | `str.lower` keeps the length and lowers each character |
| Text.ParseInt | menu/giveaway.py:24 | `int()` succeeds exactly on an optional sign followed by decimal digits; a "-" never gives a positive value, and no sign never gives a negative one |
| Text.LeadingDigits | main/keep_alive.py:202 | The run of digits a text starts with, stopped by the first non-digit |
| Text.ReadNumberOf | main/keep_alive.py:202 | A rendered number followed by its unit reads back as the number and the rest of the text |

## Left out

- Platform effects: sending messages, embeds and their text and colours, DMs, creating and deleting roles and channels, purges, bans, kicks, timeouts and reactions. Where success matters it is a parameter.
- JSON persistence: every load and save, the random one-in-ten save of levels.py, and the integer-versus-string key mismatch after reloading daily_question.py's channels.
- Floating point: the float square root (replaced by the exact integer root), rank's percentage and progress bar, the online estimate `int(n*0.3)` of the statistics channels, latency, and volume fractions.
- Audio, voice transport, yt-dlp and FFmpeg, the thread pool, `tasks.loop` scheduling and every `asyncio.sleep`, including the giveaway's wait for its end time.
- The OpenAI client, aiohttp downloads (only the retry counting is kept) and the profile request of logging.py.
- Flask routes, psutil metrics, subprocess restarts, threads and signals of main/keep_alive.py. main/app.py, restart_bot.py, main_flask.py, tickets.py and config.py are not part of this model; config.py's names appear as constants.
- Dead code: the first `setup_basic_roles` of setup.py, the unregistered `select_callback` of main.py, and the no-op Unicode fix of main/roles.py.
- Commands that only display state: `warnings` of main/antilink.py, `list_tiktok` and `check_tiktok_now` of tiktok.py, `skip`, `pause` and `resume` of main/music.py, and the remaining setup.py commands (`setup_verification`, `update_rules`, `add_role_menu`).
- Permission gates: the `@commands.has_permissions` decorators of moderation.py, main/antilink.py, main/utils.py and setup.py run before the command body. Each command member models the body that runs once the gate is passed; the refusal reply is modelled only in BotMain.OnCommandError, as its MissingPermissions case.
- Exceptions raised by the platform (Forbidden, HTTPException). Each handler's error branch is modelled only where it changes state.
- Randomness: the gain in 15..25, the question pick, the giveaway sample and the reset code are chosen by the caller as pick indices, not by a random generator.
- Levels.OnMessage: the gain is a parameter the caller keeps within 15..25, not `random.randint` itself.
- Giveaway.Sample: `random.sample` is modelled by successive pick indices; the contract states a draw without replacement, not a uniform distribution.
- Giveaway.End: the `AttributeError` raised when the 🎉 reaction is missing from the message is not modelled.
- Setup.ResetCode: picks are reduced modulo 36, so only the alphabet of the code is stated, not its distribution.
- BotMain.Seconds2: the cooldown's float `retry_after` is taken as a whole number of hundredths, so `.2f` rounding is not modelled.
- BotMain.RestartLoop: only the waits of the loop are modelled, not the reconnection between attempts.
- ChatGpt.Strip: only ASCII whitespace is stripped; Unicode spaces that Python's `str.strip` also removes are not.
- Text.LowerChar: `str.lower` is modelled for ASCII and Latin-1 capitals only.
- Text.ParseInt: Python's `int()` also accepts surrounding whitespace, underscores between digits and non-ASCII Unicode decimal digits (Arabic-Indic, fullwidth and the like); this model rejects them. A leading "+" or "-" is accepted, as in Python.
- Ranking.SortDesc: the sort is stable by construction, but its contract states only order and permutation.
- Emoji.Policy: its own contract gives the number of waits and the range of each, not their exact sequence. The exact waits are stated through Emoji.DownloadWithRetries and the two example lemmas.
- Music.CreateSource: `Info` uses `None` for a missing key only. yt-dlp can also return a key whose value is None (a live stream's `duration`, sometimes a `title`); then `data.get('title', 'Titre inconnu')` (main/music.py:99) yields None where the model yields the default title. For the duration the two agree downstream, since None and 0 are both falsy at main/music.py:262 and 403.
- DailyQuestion.NextQuestion: on an empty question list Python's `random.choice` raises; the model returns no question instead.

## Findings

| source | as written | input that shows it | evidently intended | confidence | as-written member | corrected member |
|---|---|---|---|---|---|---|
| levels.py:683 | The help text says "Niveau 5 = 425 XP" | level 5: `xp_for_level(5)` is 475, and 425 XP computes to level 4 | "Niveau 5 = 475 XP", the first XP of level 5 on the curve | not executed | Levels.HelpExampleDisagreesWithCurve | Levels.CorrectedHelpExampleXp |
| main/utils.py:170-176 | The "already exist" lookups call `discord.utils.get(ctx.guild.channels, name=lambda n: ...)`, which compares each channel's name to the lambda by equality. No name equals a function, so all three lookups give `None` and the "⚠️ already exist" branch is dead | an administrator runs `create_stats_channels` twice; after the first run the server holds "👥・membres: 12", "👤・en ligne: ~3" and "🔊・en vocal: 0", yet the second run creates a second trio and registers it over the first | skip when a channel whose name contains each marker exists, e.g. `discord.utils.find(lambda c: "👥・membres:" in c.name, ...)` | not executed | GuildUtils.SecondCreateDuplicates | GuildUtils.CreateStats |

=== FILE: antilink.dfy ===
/** The anti-link guard of main/antilink.py: the link detector, the per-user
    warning record, the five-warning ban rule and the exempt-channel set. */
module AntiLink {
  import opened Wrappers
  import opened Text

  type UserId = nat
  type ChannelId = nat

  /** Warnings that make the bot attempt a ban. */
  const BanThreshold: int := 5
  const LinkReason: string := "Envoi de lien non autorisé"

  // ---------------------------------------------------------------------
  // The link pattern  https?://\S+ | www\.\S+ | discord\.(gg|com/invite)/\S+
  // ---------------------------------------------------------------------

  /** The literal part of each alternative of the pattern. */
  const LinkMarkers: seq<string> := ["http://", "https://", "www.", "discord.gg/", "discord.com/invite/"]

  /** The characters Python's `\S` does not match: those `str.isspace` accepts. */
  predicate IsSpace(c: char)
  {
    c == ' ' || '\t' <= c <= '\r' || '\U{1c}' <= c <= '\U{1f}' || c == '\U{85}' || c == '\U{a0}'
    || c == '\U{1680}' || '\U{2000}' <= c <= '\U{200a}' || c == '\U{2028}' || c == '\U{2029}'
    || c == '\U{202f}' || c == '\U{205f}' || c == '\U{3000}'
  }

  /** Marker `m` starts at `i` and is followed by at least one non-space. */
  predicate MarkerMatchesAt(s: string, m: string, i: nat)
  {
    OccursAt(s, m, i) && i + |m| < |s| && !IsSpace(s[i + |m|])
  }

  /** Some alternative of the pattern matches at position `i`. */
  predicate LinkAt(s: string, i: nat)
  {
    exists k :: 0 <= k < |LinkMarkers| && MarkerMatchesAt(s, LinkMarkers[k], i)
  }

  /** What `link_pattern.search(content)` decides: some alternative matches
      somewhere. Matching is case-sensitive. */
  predicate IsLink(s: string)
  {
    exists i: nat :: i <= |s| && LinkAt(s, i)
  }

  /** Scans the positions from `i` on for a match. */
  function SearchFrom(s: string, i: nat): (found: bool)
    requires i <= |s|
    ensures found <==> exists j: nat :: i <= j <= |s| && LinkAt(s, j)
    decreases |s| - i
  {
    if LinkAt(s, i) then true
    else if i == |s| then false
    else SearchFrom(s, i + 1)
  }

  /** The detector agrees with the pattern's meaning. */
  function ContainsLink(s: string): (found: bool)
    ensures found <==> IsLink(s)
  {
    SearchFrom(s, 0)
  }

  /** A marker immediately followed by a non-space is a link, wherever it
      appears in the message. */
  lemma MarkerExamples()
    ensures IsLink("see https://x")
    ensures IsLink("awww.b")
  {
    assert LinkAt("see https://x", 4) by {
      assert MarkerMatchesAt("see https://x", LinkMarkers[1], 4);
    }
    assert LinkAt("awww.b", 1) by {
      assert MarkerMatchesAt("awww.b", LinkMarkers[2], 1);
    }
  }

  /** A marker followed by a space is not a link on its own. */
  lemma SpacedMarkerIsNoLink()
    ensures !IsLink("www. x")
  {
    forall i: nat | i <= |"www. x"| ensures !LinkAt("www. x", i) {
      forall k | 0 <= k < |LinkMarkers| ensures !MarkerMatchesAt("www. x", LinkMarkers[k], i) {
        if OccursAt("www. x", LinkMarkers[k], i) {
          assert "www. x"[i] == LinkMarkers[k][0];
          assert k == 2;
          assert "www. x"[i..i + 4] == "www.";
          assert "www. x"[i + 3] == "www. x"[i..i + 4][3] == '.';
          assert i == 0 by {
            assert i <= 2;
            assert "www. x"[4] == ' ' && "www. x"[5] == 'x';
          }
        }
      }
    }
  }

  /** Matching is case-sensitive: an upper-case scheme is no link. */
  lemma UpperCaseIsNoLink()
    ensures !IsLink("HTTPS://X")
  {
    forall i: nat | i <= |"HTTPS://X"| ensures !LinkAt("HTTPS://X", i) {
      forall k | 0 <= k < |LinkMarkers| ensures !MarkerMatchesAt("HTTPS://X", LinkMarkers[k], i) {
        if OccursAt("HTTPS://X", LinkMarkers[k], i) {
          assert "HTTPS://X"[i] == LinkMarkers[k][0];
        }
      }
    }
  }

  // ---------------------------------------------------------------------
  // Warning records
  // ---------------------------------------------------------------------

  /** `{"count": int, "reasons": [str]}`. */
  datatype Warnings = Warnings(count: int, reasons: seq<string>)

  /** Every record counts exactly its reasons. */
  predicate CountsMatch(w: map<UserId, Warnings>)
  {
    forall u :: u in w ==> w[u].count == |w[u].reasons|
  }

  /** Adds one warning with `reason` to `u`'s record, creating an empty
      record first when `u` has none. */
  function AddOne(w: map<UserId, Warnings>, u: UserId, reason: string): (r: map<UserId, Warnings>)
    ensures r.Keys == w.Keys + {u}
    ensures u in w ==> r[u] == Warnings(w[u].count + 1, w[u].reasons + [reason])
    ensures u !in w ==> r[u] == Warnings(1, [reason])
    ensures forall v :: v in w && v != u ==> r[v] == w[v]
    ensures CountsMatch(w) ==> CountsMatch(r)
  {
    var prev := if u in w then w[u] else Warnings(0, []);
    w[u := Warnings(prev.count + 1, prev.reasons + [reason])]
  }

  datatype LinkMessage = LinkMessage(
    author: UserId,
    authorIsBot: bool,
    inGuild: bool,
    authorIsAdmin: bool,
    channel: ChannelId,
    content: string)

  datatype GuardState = GuardState(warnings: map<UserId, Warnings>, exempt: set<ChannelId>)

  datatype LinkOutcome =
    | Skipped
    | NoLink
    | DeleteFailed
    | Warned(count: int, banAttempted: bool)

  /** Messages the guard never looks at: from bots, from administrators in a
      guild, or in an exempt channel. */
  predicate Exempted(st: GuardState, msg: LinkMessage)
  {
    msg.authorIsBot || (msg.inGuild && msg.authorIsAdmin) || msg.channel in st.exempt
  }

  /** `on_message` of the guard. `deleted` says whether deleting the message
      succeeded and `warningSent` whether the warning embed was sent; an
      exception in either ends the handler. */
  function OnMessage(st: GuardState, msg: LinkMessage, deleted: bool, warningSent: bool): (r: (GuardState, LinkOutcome))
    ensures Exempted(st, msg) ==> r == (st, Skipped)
    ensures !Exempted(st, msg) && !IsLink(msg.content) ==> r == (st, NoLink)
    ensures !Exempted(st, msg) && IsLink(msg.content) && !deleted ==> r == (st, DeleteFailed)
    ensures !Exempted(st, msg) && IsLink(msg.content) && deleted ==>
              var u := msg.author;
              var prev := if u in st.warnings then st.warnings[u].count else 0;
              r.0 == GuardState(AddOne(st.warnings, u, LinkReason), st.exempt)
              && r.1 == Warned(prev + 1, warningSent && prev + 1 >= BanThreshold)
    ensures CountsMatch(st.warnings) ==> CountsMatch(r.0.warnings)
  {
    if Exempted(st, msg) then (st, Skipped)
    else if !ContainsLink(msg.content) then (st, NoLink)
    else if !deleted then (st, DeleteFailed)
    else
      var w := AddOne(st.warnings, msg.author, LinkReason);
      var count := w[msg.author].count;
      (GuardState(w, st.exempt), Warned(count, warningSent && count >= BanThreshold))
  }

  /** `addwarning`: an empty or missing reason is recorded as the default
      reason; the ban is attempted from the fifth warning on. */
  function AddWarning(w: map<UserId, Warnings>, u: UserId, reason: Option<string>): (r: (map<UserId, Warnings>, bool))
    ensures var recorded := OrElse(reason, DefaultReason);
            r.0 == AddOne(w, u, recorded)
    ensures r.1 <==> r.0[u].count >= BanThreshold
    ensures CountsMatch(w) ==> CountsMatch(r.0)
  {
    var recorded := OrElse(reason, DefaultReason);
    var w' := AddOne(w, u, recorded);
    (w', w'[u].count >= BanThreshold)
  }

  /** Adds `n` link warnings in a row to `u`. */
  function WarnTimes(w: map<UserId, Warnings>, u: UserId, n: nat): map<UserId, Warnings>
    decreases n
  {
    if n == 0 then w else AddOne(WarnTimes(w, u, n - 1), u, LinkReason)
  }

  /** Starting without a record, the n-th warning leaves the count at n, so
      warnings 1 to 4 never ban and the 5th and every later one does. */
  lemma {:induction false} CountAfterWarnings(w: map<UserId, Warnings>, u: UserId, n: nat)
    requires u !in w && n >= 1
    ensures u in WarnTimes(w, u, n)
    ensures WarnTimes(w, u, n)[u].count == n
    ensures (WarnTimes(w, u, n)[u].count >= BanThreshold) <==> n >= 5
    decreases n
  {
    if n > 1 {
      CountAfterWarnings(w, u, n - 1);
    }
  }

  /** `clearwarnings`: removes the whole record; `false` when there was none. */
  function ClearWarnings(w: map<UserId, Warnings>, u: UserId): (r: (map<UserId, Warnings>, bool))
    ensures r.1 <==> u in w
    ensures u !in r.0
    ensures forall v :: v != u ==> (v in r.0 <==> v in w) && (v in w ==> r.0[v] == w[v])
    ensures u !in w ==> r.0 == w
  {
    if u in w then (w - {u}, true) else (w, false)
  }

  /** `exempt_channel`: adding a channel is idempotent. */
  function ExemptChannel(exempt: set<ChannelId>, c: ChannelId): (r: set<ChannelId>)
    ensures c in r && exempt <= r && r - {c} == exempt - {c}
  {
    exempt + {c}
  }

  /** `unexempt_channel`: removes the channel, reporting whether it was exempt. */
  function UnexemptChannel(exempt: set<ChannelId>, c: ChannelId): (r: (set<ChannelId>, bool))
    ensures r.1 <==> c in exempt
    ensures c !in r.0 && r.0 + (if r.1 then {c} else {}) == exempt
  {
    if c in exempt then (exempt - {c}, true) else (exempt, false)
  }

  /** Exempting then un-exempting restores a channel set that did not hold it. */
  lemma ExemptRoundTrip(exempt: set<ChannelId>, c: ChannelId)
    requires c !in exempt
    ensures UnexemptChannel(ExemptChannel(exempt, c), c) == (exempt, true)
  {
  }
}

=== FILE: bot_main.dfy ===
/** The entry point of main.py: the global command-error handler, the
    permission-gated help menu, and the crash-restart loop around the bot. */
module BotMain {
  import opened Wrappers
  import opened Text

  // ---------------------------------------------------------------------
  // Command errors
  // ---------------------------------------------------------------------

  /** A command failure. A cooldown carries its remaining wait in
      hundredths of a second, which is what the reply shows. */
  datatype CommandError =
    | CommandNotFound
    | MissingPermissions
    | CommandOnCooldown(retryAfterCentis: nat)
    | MissingRequiredArgument(param: string)
    | Other(message: string)

  /** The handler's effect: the reply it sends (if any) and whether it logs. */
  datatype Handled = Handled(reply: Option<string>, logged: bool)

  /** A wait in hundredths of a second written with two decimals. */
  function Seconds2(centis: nat): (r: string)
    ensures exists k :: 0 < k < |r| - 2 && r[k] == '.' && r[..k] == NatToString(centis / 100)
                        && r[k + 1..] == Pad2(centis % 100) && k == |r| - 3
  {
    var whole := NatToString(centis / 100);
    var r := whole + "." + Pad2(centis % 100);
    assert r[..|whole|] == whole && r[|whole| + 1..] == Pad2(centis % 100);
    r
  }

  /** The written wait reads back as the number of hundredths. */
  lemma Seconds2RoundTrip(centis: nat)
    ensures var r := Seconds2(centis);
            DigitsValue(r[..|r| - 3]) * 100 + DigitsValue(r[|r| - 2..]) == centis
  {
    var r := Seconds2(centis);
    var k :| 0 < k < |r| - 2 && r[k] == '.' && r[..k] == NatToString(centis / 100)
             && r[k + 1..] == Pad2(centis % 100) && k == |r| - 3;
    NatToStringRoundTrip(centis / 100);
  }

  /** The replies of `on_command_error`; each is split after its first word
      so that the verifier sees the characters that tell them apart. */
  const UnknownErrorPrefix: string := "❌ Une" + " erreur est survenue: "
  const NoPermissionReply: string := "❌ Tu" + " n'as pas les permissions requises pour cette commande."
  const CooldownPrefix: string := "⏳ Cette" + " commande est en cooldown. Réessaie dans "
  const MissingArgumentPrefix: string := "❓ Argument" + " manquant: "

  /** `on_command_error`. */
  function OnCommandError(e: CommandError): (r: Handled)
    ensures r.reply.None? <==> e.CommandNotFound?
    ensures r.logged <==> e.Other?
    ensures e.Other? ==> r.reply == Some(UnknownErrorPrefix + e.message)
    ensures e.MissingRequiredArgument? ==> r.reply == Some(MissingArgumentPrefix + e.param)
    ensures e.MissingPermissions? ==> r.reply == Some(NoPermissionReply)
    ensures e.CommandOnCooldown? ==> r.reply == Some(CooldownPrefix + Seconds2(e.retryAfterCentis) + " secondes.")
  {
    match e
    case CommandNotFound => Handled(None, false)
    case MissingPermissions => Handled(Some(NoPermissionReply), false)
    case CommandOnCooldown(c) => Handled(Some(CooldownPrefix + Seconds2(c) + " secondes."), false)
    case MissingRequiredArgument(p) => Handled(Some(MissingArgumentPrefix + p), false)
    case Other(m) => Handled(Some(UnknownErrorPrefix + m), true)
  }


  /** The generic reply's prefix singles out the errors that are logged:
      no specific reply starts with it. */
  lemma GenericReplyMarksUnknownErrors(e: CommandError)
    requires !e.CommandNotFound?
    ensures StartsWith(OnCommandError(e).reply.value, UnknownErrorPrefix) <==> e.Other?
  {
    var r := OnCommandError(e).reply.value;
    if e.Other? {
      assert r[..|UnknownErrorPrefix|] == UnknownErrorPrefix;
    } else if e.MissingPermissions? {
      assert r[2] == 'T' && UnknownErrorPrefix[2] == 'U';
    } else if e.MissingRequiredArgument? {
      assert r[0] == '❓' && UnknownErrorPrefix[0] == '❌';
    } else {
      assert r[0] == '⏳' && UnknownErrorPrefix[0] == '❌';
    }
  }

  // ---------------------------------------------------------------------
  // Help menu
  // ---------------------------------------------------------------------

  datatype Category = General | Music | TikTok | Events | Utils | Moderation | Administration

  /** The categories the select menu offers, in order: the five public ones,
      then Modération for `manage_messages` holders and Administration for
      administrators. */
  function HelpOptions(isAdmin: bool, isMod: bool): (r: seq<Category>)
    ensures Moderation in r <==> isMod
    ensures Administration in r <==> isAdmin
    ensures General in r && Music in r && TikTok in r && Events in r && Utils in r
    ensures forall i, j :: 0 <= i < j < |r| ==> r[i] != r[j]
  {
    [General, Music, TikTok, Events, Utils]
    + (if isMod then [Moderation] else [])
    + (if isAdmin then [Administration] else [])
  }

  /** Choosing a category: the page is shown only when its embed exists,
      that is for a public category or a gated one the author may see. */
  function Select(isAdmin: bool, isMod: bool, c: Category): (shown: Option<Category>)
    ensures shown.Some? ==> shown.value == c
    ensures c == Moderation && !isMod ==> shown.None?
    ensures c == Administration && !isAdmin ==> shown.None?
  {
    match c
    case Moderation => if isMod then Some(c) else None
    case Administration => if isAdmin then Some(c) else None
    case _ => Some(c)
  }

  /** A page opens exactly for the categories the menu offers. */
  lemma SelectMatchesOptions(isAdmin: bool, isMod: bool, c: Category)
    ensures Select(isAdmin, isMod, c).Some? <==> c in HelpOptions(isAdmin, isMod)
  {
  }

  // ---------------------------------------------------------------------
  // Restart loop
  // ---------------------------------------------------------------------

  const MaxRestarts: nat := 5
  const FirstInterval: nat := 60
  const MaxInterval: nat := 900

  /** How one `bot.run` ended. */
  datatype Run = CleanExit | Crash

  datatype Stop = Stopped | TooManyRestarts | StillRunning

  function Pow2(n: nat): (r: nat)
    ensures r >= 1
  {
    if n == 0 then 1 else 2 * Pow2(n - 1)
  }

  /** The wait before restart number `n + 1`: 60 s doubled `n` times, capped
      at 900 s. */
  function Interval(n: nat): (r: nat)
    ensures FirstInterval <= r <= MaxInterval
  {
    if FirstInterval * Pow2(n) < MaxInterval then FirstInterval * Pow2(n) else MaxInterval
  }

  lemma IntervalDoubles(n: nat)
    ensures Interval(n + 1) == if 2 * Interval(n) < MaxInterval then 2 * Interval(n) else MaxInterval
  {
  }

  /** The `__main__` loop over the successive ends of `bot.run`: a clean end
      leaves the loop, the fifth crash ends it, and every other crash waits
      the current interval, which then doubles up to its cap. `runs` are the
      ends the bot would meet; running out of them leaves it running. */
  method RestartLoop(runs: seq<Run>) returns (attempts: nat, sleeps: seq<nat>, stop: Stop)
    ensures attempts <= |runs| && attempts <= MaxRestarts
    ensures forall i :: 0 <= i < attempts - 1 ==> runs[i] == Crash
    ensures stop == Stopped <==> attempts > 0 && runs[attempts - 1] == CleanExit
    ensures stop == TooManyRestarts <==> attempts == MaxRestarts && runs[attempts - 1] == Crash
    ensures stop == StillRunning <==> attempts == |runs| < MaxRestarts && forall i :: 0 <= i < |runs| ==> runs[i] == Crash
    ensures |sleeps| == (if stop == StillRunning then attempts else attempts - 1)
    ensures forall i :: 0 <= i < |sleeps| ==> sleeps[i] == Interval(i)
  {
    var restartCount := 0;
    var retryInterval := FirstInterval;
    attempts := 0;
    sleeps := [];
    while true
      invariant attempts == restartCount == |sleeps| <= |runs|
      invariant restartCount < MaxRestarts
      invariant forall i :: 0 <= i < attempts ==> runs[i] == Crash
      invariant forall i :: 0 <= i < |sleeps| ==> sleeps[i] == Interval(i)
      invariant retryInterval == Interval(restartCount)
      decreases MaxRestarts - restartCount
    {
      if attempts == |runs| {
        stop := StillRunning;
        return;
      }
      attempts := attempts + 1;
      if runs[attempts - 1] == CleanExit {
        stop := Stopped;
        return;
      }
      restartCount := restartCount + 1;
      if restartCount >= MaxRestarts {
        stop := TooManyRestarts;
        return;
      }
      sleeps := sleeps + [retryInterval];
      IntervalDoubles(restartCount - 1);
      retryInterval := if retryInterval * 2 < MaxInterval then retryInterval * 2 else MaxInterval;
    }
  }

  /** The waits the loop can ever take: at most four, 60, 120, 240 and 480
      seconds, so the 900-second cap is never slept. */
  lemma WaitsNeverReachTheCap(n: nat)
    requires n < MaxRestarts - 1
    ensures Interval(n) == FirstInterval * Pow2(n) && Interval(n) < MaxInterval
  {
  }
}

=== FILE: chatgpt.dfy ===
/** The `ask` command of chatgpt.py: the guard against an empty question,
    the cuts that keep a reply within Discord's limits, and the reading of
    an API failure into a user-facing explanation. The API call itself is a
    parameter: either the answer text or the error's message. */
module ChatGpt {
  import opened Wrappers
  import opened Text

  const AnswerLimit: nat := 2000
  const AnswerKeep: nat := 1997
  const TitleLimit: nat := 100
  const ErrorExcerpt: nat := 100
  const TitlePrefix: string := "📝 Réponse à: "

  /** The whitespace `str.strip` removes, restricted to ASCII. */
  predicate IsSpace(c: char)
  {
    c == ' ' || c == '\t' || c == '\n' || c == '\r' || c == '\U{B}' || c == '\U{C}'
  }

  /** The length of the leading run of whitespace. */
  function Leading(s: string): (n: nat)
    ensures n <= |s|
    ensures forall i :: 0 <= i < n ==> IsSpace(s[i])
    ensures n < |s| ==> !IsSpace(s[n])
  {
    if |s| > 0 && IsSpace(s[0]) then
      assert forall i :: 1 <= i < |s| ==> s[i] == s[1..][i - 1];
      1 + Leading(s[1..])
    else 0
  }

  /** The length of the trailing run of whitespace. */
  function Trailing(s: string): (n: nat)
    ensures n <= |s|
    ensures forall i :: |s| - n <= i < |s| ==> IsSpace(s[i])
    ensures n < |s| ==> !IsSpace(s[|s| - n - 1])
  {
    if |s| > 0 && IsSpace(s[|s| - 1]) then
      assert forall i :: 0 <= i < |s| - 1 ==> s[i] == s[..|s| - 1][i];
      1 + Trailing(s[..|s| - 1])
    else 0
  }

  /** `str.strip`: the text between the outer runs of whitespace. */
  function Strip(s: string): (r: string)
    ensures |r| <= |s|
    ensures |r| > 0 ==> !IsSpace(r[0]) && !IsSpace(r[|r| - 1])
    ensures SpacedAround(s, r, Leading(s))
  {
    var a := Leading(s);
    var b := Trailing(s[a..]);
    var r := s[a..|s| - b];
    assert |r| > 0 ==> r[0] == s[a] && r[|r| - 1] == s[a..][|s| - a - b - 1];
    assert forall i :: |s| - b <= i < |s| ==> s[i] == s[a..][i - a];
    r
  }

  /** `r` sits at `k` in `s` with only whitespace around it. */
  predicate SpacedAround(s: string, r: string, k: nat)
  {
    k + |r| <= |s| && r == s[k..k + |r|]
    && (forall i :: 0 <= i < k ==> IsSpace(s[i]))
    && (forall i :: k + |r| <= i < |s| ==> IsSpace(s[i]))
  }

  lemma StripIsIdempotent(s: string)
    ensures Strip(Strip(s)) == Strip(s)
  {
  }

  /** The answer as posted: over 2000 characters it becomes its first 1997
      plus "...", exactly 2000 in all. */
  function PostedAnswer(answer: string): (r: string)
    ensures |r| <= AnswerLimit
    ensures |answer| <= AnswerLimit ==> r == answer
    ensures |answer| > AnswerLimit ==> |r| == AnswerLimit && r[..AnswerKeep] == answer[..AnswerKeep] && r[AnswerKeep..] == "..."
  {
    Ellipsize(answer, AnswerLimit, AnswerKeep)
  }

  lemma PostedAnswerIsIdempotent(answer: string)
    ensures PostedAnswer(PostedAnswer(answer)) == PostedAnswer(answer)
  {
  }

  /** The embed title: the question, cut to 100 characters plus "..." when
      it is longer. */
  function Title(question: string): (r: string)
    ensures StartsWith(r, TitlePrefix)
    ensures |question| <= TitleLimit ==> r[|TitlePrefix|..] == question
    ensures |question| > TitleLimit ==> r[|TitlePrefix|..] == question[..TitleLimit] + "..."
  {
    var r := TitlePrefix + Ellipsize(question, TitleLimit, TitleLimit);
    assert r[..|TitlePrefix|] == TitlePrefix;
    r
  }

  // ---------------------------------------------------------------------
  // Failures
  // ---------------------------------------------------------------------

  datatype ErrorKind = Quota | RateLimit | TooLong | Generic

  /** The checks in the order the handler makes them. */
  function Classify(message: string): (k: ErrorKind)
    ensures k == Quota <==> Contains(message, "insufficient_quota")
    ensures k == RateLimit <==> !Contains(message, "insufficient_quota") && Contains(message, "rate_limit_exceeded")
    ensures k == TooLong <==> !Contains(message, "insufficient_quota") && !Contains(message, "rate_limit_exceeded")
                              && (Contains(message, "maximum context length") || Contains(message, "max_tokens"))
  {
    if Contains(message, "insufficient_quota") then Quota
    else if Contains(message, "rate_limit_exceeded") then RateLimit
    else if Contains(message, "maximum context length") || Contains(message, "max_tokens") then TooLong
    else Generic
  }

  const QuotaText: string := "Le" + " quota d'utilisation de l'API OpenAI est épuisé. Contactez l'administrateur du bot pour recharger les crédits."
  const RateLimitText: string := "Trop" + " de demandes ont été envoyées à OpenAI. Veuillez réessayer dans quelques minutes."
  const TooLongText: string := "La" + " question est trop longue. Essayez de la reformuler plus brièvement."
  const GenericText: string := "Je" + " n'ai pas pu obtenir une réponse de ChatGPT.\nErreur: "
  const SolutionText: string := "L'administrateur doit vérifier le compte OpenAI pour recharger les crédits ou mettre à jour le plan de facturation."

  datatype ErrorReply = ErrorReply(kind: ErrorKind, description: string, solution: Option<string>)

  // Each text is split after its first word so that the verifier sees the
  // characters that tell them apart.

  /** The error embed: a description by kind (the generic one quotes at
      most the first 100 characters of the message, always followed by
      "...") and a Solution field only for an exhausted quota. */
  function DescribeError(message: string): (r: ErrorReply)
    ensures r.kind == Classify(message)
    ensures r.solution.Some? <==> Contains(message, "insufficient_quota")
    ensures r.kind == Generic ==>
              r.description == GenericText + message[..if |message| < ErrorExcerpt then |message| else ErrorExcerpt] + "..."
    ensures r.kind == Quota ==> r.description == QuotaText
    ensures r.kind == RateLimit ==> r.description == RateLimitText
    ensures r.kind == TooLong ==> r.description == TooLongText
    ensures r.solution.Some? ==> r.solution.value == SolutionText
  {
    var k := Classify(message);
    var excerpt := message[..if |message| < ErrorExcerpt then |message| else ErrorExcerpt];
    var d := match k
      case Quota => QuotaText
      case RateLimit => RateLimitText
      case TooLong => TooLongText
      case Generic => GenericText + excerpt + "...";
    ErrorReply(k, d, if k == Quota then Some(SolutionText) else None)
  }

  /** The first two characters of each kind's description. */
  function Mark(k: ErrorKind): string
  {
    match k
    case Quota => "Le"
    case RateLimit => "Tr"
    case TooLong => "La"
    case Generic => "Je"
  }

  lemma DescriptionStart(m: string)
    ensures var r := DescribeError(m);
            |r.description| >= 2 && r.description[..2] == Mark(r.kind)
  {
    var r := DescribeError(m);
    var excerpt := m[..if |m| < ErrorExcerpt then |m| else ErrorExcerpt];
    match r.kind
    case Quota => assert QuotaText == "Le" + QuotaText[2..];
    case RateLimit => assert RateLimitText == "Tr" + RateLimitText[2..];
    case TooLong => assert TooLongText == "La" + TooLongText[2..];
    case Generic =>
      assert r.description == "Je" + (GenericText[2..] + excerpt + "...");
  }

  /** The description tells the kinds apart: two errors of different kinds
      never read the same. */
  lemma DescriptionShowsKind(m1: string, m2: string)
    requires DescribeError(m1).kind != DescribeError(m2).kind
    ensures DescribeError(m1).description != DescribeError(m2).description
  {
    DescriptionStart(m1);
    DescriptionStart(m2);
  }

  /** A message naming both a quota and a rate limit is read as a quota. */
  lemma QuotaWinsOverRateLimit(message: string)
    requires Contains(message, "insufficient_quota") && Contains(message, "rate_limit_exceeded")
    ensures DescribeError(message).kind == Quota && DescribeError(message).solution.Some?
  {
  }

  // ---------------------------------------------------------------------
  // The command
  // ---------------------------------------------------------------------

  datatype ApiResult = Answered(content: string) | Failed(message: string)

  datatype AskOutcome =
    | MissingQuestion
    | Answer(title: string, text: string)
    | Failure(error: ErrorReply)

  /** `ask`: a missing or empty question is refused before any API call;
      otherwise `api` is what the call returned. */
  function Ask(question: Option<string>, api: ApiResult): (r: AskOutcome)
    ensures r.MissingQuestion? <==> question.None? || question.value == []
    ensures r.Answer? ==> question.Some? && api.Answered? && r.title == Title(question.value)
                          && r.text == PostedAnswer(Strip(api.content)) && |r.text| <= AnswerLimit
    ensures r.Failure? <==> question.Some? && question.value != [] && api.Failed?
  {
    if question.None? || question.value == [] then MissingQuestion
    else match api
      case Answered(content) => Answer(Title(question.value), PostedAnswer(Strip(content)))
      case Failed(message) => Failure(DescribeError(message))
  }

  /** The outcome of a refused question does not depend on the API. */
  lemma EmptyQuestionNeverCallsApi(question: Option<string>, a: ApiResult, b: ApiResult)
    requires question.None? || question.value == []
    ensures Ask(question, a) == Ask(question, b) == MissingQuestion
  {
  }
}

=== FILE: daily_question.dfy ===
/** The question-of-the-day rotation of menu/daily_question.py: picking a
    question not asked recently, and finding the channel to post it in.
    The random choice is a parameter `pick`, read as an index into the list
    the source draws from. */
module DailyQuestion {
  import opened Wrappers
  import opened Text

  type GuildId = nat
  type ChannelId = nat

  /** How many recently asked questions stay excluded after a reset. */
  const Window: nat := 5
  const PredefinedChannel: ChannelId := 1354524457569485003

  /** The questions not asked yet, in list order. */
  function Available(questions: seq<string>, used: seq<string>): (r: seq<string>)
    ensures forall q :: q in r <==> q in questions && q !in used
    ensures |r| <= |questions|
  {
    if |questions| == 0 then []
    else
      var rest := Available(questions[1..], used);
      if questions[0] in used then rest else [questions[0]] + rest
  }

  /** The used list cut to its last five entries when it is longer. */
  function Trim(used: seq<string>): (r: seq<string>)
    ensures |r| <= Window && |r| <= |used|
    ensures |used| <= Window ==> r == used
    ensures r == used[|used| - |r|..]
  {
    if |used| > Window then used[|used| - Window..] else used
  }

  /** `random.choice(list)` driven by `pick`. */
  function Choose(list: seq<string>, pick: nat): (r: string)
    requires |list| > 0
    ensures r in list
  {
    list[pick % |list|]
  }

  /** `get_next_question`: the question asked (`None` when the list is empty,
      where the source's random choice fails) and the new used list. */
  function NextQuestion(questions: seq<string>, used: seq<string>, pick: nat): (r: (Option<string>, seq<string>))
    // a fresh question exists: it is taken and recorded
    ensures |Available(questions, used)| > 0 ==>
              r.0.Some? && r.0.value in questions && r.0.value !in used && r.1 == used + [r.0.value]
    // everything was asked: the window is trimmed first, then a question
    // outside it is taken and recorded
    ensures |Available(questions, used)| == 0 && |Available(questions, Trim(used))| > 0 ==>
              r.0.Some? && r.0.value in questions && r.0.value !in Trim(used) && r.1 == Trim(used) + [r.0.value]
    // nothing outside the window: any question, nothing recorded
    ensures |Available(questions, used)| == 0 && |Available(questions, Trim(used))| == 0 ==>
              r.1 == Trim(used) && (r.0.Some? <==> |questions| > 0) && (r.0.Some? ==> r.0.value in questions)
  {
    var unasked := Available(questions, used);
    if |unasked| > 0 then
      var q := Choose(unasked, pick);
      (Some(q), used + [q])
    else
      var kept := Trim(used);
      var again := Available(questions, kept);
      if |again| > 0 then
        var q := Choose(again, pick);
        (Some(q), kept + [q])
      else if |questions| > 0 then (Some(Choose(questions, pick)), kept)
      else (None, kept)
  }

  /** Every returned question comes from the list. */
  lemma NextQuestionFromList(questions: seq<string>, used: seq<string>, pick: nat)
    ensures NextQuestion(questions, used, pick).0.Some? ==> NextQuestion(questions, used, pick).0.value in questions
    ensures NextQuestion(questions, used, pick).0.None? <==> |questions| == 0
  {
  }

  predicate NoRepeats(s: seq<string>)
  {
    forall i, j :: 0 <= i < j < |s| ==> s[i] != s[j]
  }

  /** The used list never records a question twice. */
  lemma UsedStaysWithoutRepeats(questions: seq<string>, used: seq<string>, pick: nat)
    requires NoRepeats(used)
    ensures NoRepeats(NextQuestion(questions, used, pick).1)
  {
    var kept := Trim(used);
    assert NoRepeats(kept) by {
      forall i, j | 0 <= i < j < |kept| ensures kept[i] != kept[j] {
        assert kept[i] == used[|used| - |kept| + i] && kept[j] == used[|used| - |kept| + j];
      }
    }
  }

  /** A list of `n` entries holds at most `n` distinct values. */
  lemma {:induction false} DistinctAtMostLength(s: seq<string>)
    ensures |set x | x in s| <= |s|
  {
    if |s| > 0 {
      DistinctAtMostLength(s[1..]);
      assert (set x | x in s) == {s[0]} + (set x | x in s[1..]);
    }
  }

  /** With more than five distinct questions the rotation always asks a
      question outside the recent window and records it. */
  lemma EnoughQuestionsAlwaysRotate(questions: seq<string>, used: seq<string>, pick: nat)
    requires |set q | q in questions| > Window
    ensures var (q, used') := NextQuestion(questions, used, pick);
            q.Some? && |used'| > 0 && used'[|used'| - 1] == q.value
  {
    if |Available(questions, used)| == 0 {
      var kept := Trim(used);
      if |Available(questions, kept)| == 0 {
        DistinctAtMostLength(kept);
        assert (set q | q in questions) <= (set x | x in kept);
        SubsetCard(set q | q in questions, set x | x in kept);
        assert false;
      }
    }
  }

  lemma SubsetCard(a: set<string>, b: set<string>)
    requires a <= b
    ensures |a| <= |b|
  {
    assert b == a + (b - a);
  }

  // ---------------------------------------------------------------------
  // Channel resolution
  // ---------------------------------------------------------------------

  datatype Channel = Channel(id: ChannelId, name: string)

  /** What the handler sees of a guild: the ids `get_channel` resolves and
      the text channels in display order. */
  datatype GuildView = GuildView(id: GuildId, channelIds: set<ChannelId>, textChannels: seq<Channel>)

  /** A text channel name that looks like a question-of-the-day channel. */
  predicate QuestionChannelName(name: string)
  {
    var n := Lower(name);
    (Contains(n, "question") && Contains(n, "jour")) || (Contains(n, "daily") && Contains(n, "question"))
  }

  /** Index of the first text channel whose name qualifies. */
  function FirstQuestionChannel(channels: seq<Channel>): (r: Option<nat>)
    ensures r.Some? ==> r.value < |channels| && QuestionChannelName(channels[r.value].name)
    ensures r.Some? ==> forall k :: 0 <= k < r.value ==> !QuestionChannelName(channels[k].name)
    ensures r.None? ==> forall k :: 0 <= k < |channels| ==> !QuestionChannelName(channels[k].name)
  {
    if |channels| == 0 then None
    else if QuestionChannelName(channels[0].name) then Some(0)
    else
      var t := FirstQuestionChannel(channels[1..]);
      assert forall k :: 1 <= k < |channels| ==> channels[k] == channels[1..][k - 1];
      if t.Some? then Some(t.value + 1) else None
  }

  /** The channel `send_daily_question` posts to, and the remembered
      channels afterwards: the configured one if it still exists, else the
      predefined one, else the first text channel with a fitting name. A
      channel found by either fallback is remembered. */
  function ResolveChannel(channels: map<GuildId, ChannelId>, guild: GuildView): (r: (map<GuildId, ChannelId>, Option<ChannelId>))
    ensures guild.id in channels && channels[guild.id] in guild.channelIds ==>
              r == (channels, Some(channels[guild.id]))
    ensures !(guild.id in channels && channels[guild.id] in guild.channelIds) && PredefinedChannel in guild.channelIds ==>
              r == (channels[guild.id := PredefinedChannel], Some(PredefinedChannel))
    ensures !(guild.id in channels && channels[guild.id] in guild.channelIds) && PredefinedChannel !in guild.channelIds ==>
              match FirstQuestionChannel(guild.textChannels)
              case Some(k) => r == (channels[guild.id := guild.textChannels[k].id], Some(guild.textChannels[k].id))
              case None => r == (channels, None)
    // whatever is found is remembered for the guild
    ensures r.1.Some? ==> guild.id in r.0 && r.0[guild.id] == r.1.value
    ensures forall h :: h != guild.id ==> (h in r.0 <==> h in channels) && (h in channels ==> r.0[h] == channels[h])
  {
    if guild.id in channels && channels[guild.id] in guild.channelIds then (channels, Some(channels[guild.id]))
    else if PredefinedChannel in guild.channelIds then (channels[guild.id := PredefinedChannel], Some(PredefinedChannel))
    else
      match FirstQuestionChannel(guild.textChannels)
      case Some(k) => (channels[guild.id := guild.textChannels[k].id], Some(guild.textChannels[k].id))
      case None => (channels, None)
  }

  /** Once a channel is found, the next resolution in the same guild goes
      straight to it and remembers nothing new. */
  lemma ResolutionIsRemembered(channels: map<GuildId, ChannelId>, guild: GuildView)
    requires ResolveChannel(channels, guild).1.Some?
    requires ResolveChannel(channels, guild).1.value in guild.channelIds
    ensures var once := ResolveChannel(channels, guild);
            ResolveChannel(once.0, guild) == once
  {
  }

  datatype DailyState = DailyState(questions: seq<string>, used: seq<string>, channels: map<GuildId, ChannelId>)

  /** `send_daily_question`: `false` when no channel is found (nothing is
      asked) or when posting fails (`posted` is false, or the question list
      is empty); the rotation has advanced in the latter cases. */
  function SendDailyQuestion(st: DailyState, guild: GuildView, pick: nat, posted: bool): (r: (DailyState, bool))
    ensures ResolveChannel(st.channels, guild).1.None? ==> r == (st, false)
    ensures r.1 <==> ResolveChannel(st.channels, guild).1.Some? && NextQuestion(st.questions, st.used, pick).0.Some? && posted
    ensures r.0.questions == st.questions
    ensures ResolveChannel(st.channels, guild).1.Some? ==> r.0.used == NextQuestion(st.questions, st.used, pick).1
    ensures r.0.channels == ResolveChannel(st.channels, guild).0
  {
    var (channels, target) := ResolveChannel(st.channels, guild);
    if target.None? then (st, false)
    else
      var (q, used) := NextQuestion(st.questions, st.used, pick);
      (DailyState(st.questions, used, channels), q.Some? && posted)
  }
}

=== FILE: emoji.dfy ===
/** Emoji management of menu/emoji.py: the per-boost-tier limits, the
    argument checks and slot arithmetic of `add_emojis`, the download retry
    policy, and how added emojis, errors and listings are grouped. The
    downloads themselves are parameters: the response each attempt gets. */
module Emoji {
  import opened Wrappers
  import opened Text

  /** Both built-in catalogues hold 25 emojis. */
  const CatalogueSize: nat := 25
  const MaxCount: int := 50
  const MaxAttempts: nat := 4
  const AddedGroup: nat := 10
  const ListGroup: nat := 15
  const ListedGroups: nat := 2

  /** `get_emoji_limits`: the same limit for static and animated emojis. */
  function Limit(premiumTier: int): (r: nat)
    ensures premiumTier == 0 ==> r == 50
    ensures premiumTier == 1 ==> r == 100
    ensures premiumTier == 2 ==> r == 150
    ensures premiumTier != 0 && premiumTier != 1 && premiumTier != 2 ==> r == 250
  {
    if premiumTier == 0 then 50
    else if premiumTier == 1 then 100
    else if premiumTier == 2 then 150
    else 250
  }

  /** A higher boost tier never lowers the limit (tiers run 0 to 3). */
  lemma LimitMonotone(a: int, b: int)
    requires 0 <= a <= b <= 3
    ensures Limit(a) <= Limit(b)
  {
  }

  datatype Kind = Anime | Basic | All

  datatype Request = BadType | BadCount | Valid(kind: Kind, count: int)

  /** The argument checks of `add_emojis`: the type, compared lower-cased,
      comes first; then a count in 1..50. */
  function CheckRequest(emojiType: string, count: int): (r: Request)
    ensures r == BadType <==> Lower(emojiType) !in ["anime", "basic", "all"]
    ensures r == BadCount <==> Lower(emojiType) in ["anime", "basic", "all"] && (count <= 0 || count > MaxCount)
    ensures r.Valid? ==> 1 <= r.count <= MaxCount && r.count == count
    ensures r.Valid? ==> ((r.kind == Anime <==> Lower(emojiType) == "anime")
                          && (r.kind == Basic <==> Lower(emojiType) == "basic"))
  {
    var t := Lower(emojiType);
    if t !in ["anime", "basic", "all"] then BadType
    else if count <= 0 || count > MaxCount then BadCount
    else Valid(if t == "anime" then Anime else if t == "basic" then Basic else All, count)
  }

  function Min3(a: int, b: int, c: int): (r: int)
    ensures r <= a && r <= b && r <= c
    ensures r == a || r == b || r == c
  {
    if a <= b && a <= c then a else if b <= c then b else c
  }

  datatype Plan = NoFreeSlot | NothingToAdd | Add(animated: nat, still: nat)

  /** The plan of `add_emojis`: free slots are the limit minus the emojis of
      that kind already present; with none of either kind the command stops;
      each selected kind with free slots adds min(count, 25, free). */
  function PlanAdditions(kind: Kind, count: int, limit: nat, staticCount: nat, animatedCount: nat): (r: Plan)
    requires 1 <= count <= MaxCount
    ensures r == NoFreeSlot <==> staticCount >= limit && animatedCount >= limit
    ensures r.Add? ==> 0 < r.animated + r.still
    ensures r.Add? ==> r.animated <= count && r.animated <= CatalogueSize && (r.animated > 0 ==> animatedCount + r.animated <= limit)
    ensures r.Add? ==> r.still <= count && r.still <= CatalogueSize && (r.still > 0 ==> staticCount + r.still <= limit)
    ensures r.Add? && kind == Basic ==> r.animated == 0
    ensures r.Add? && kind == Anime ==> r.still == 0
    ensures r.Add? && kind != Basic && animatedCount < limit ==>
              r.animated == Min3(count, CatalogueSize, limit - animatedCount)
    ensures r.Add? && kind != Anime && staticCount < limit ==>
              r.still == Min3(count, CatalogueSize, limit - staticCount)
  {
    var staticFree := limit - staticCount;
    var animatedFree := limit - animatedCount;
    if staticFree <= 0 && animatedFree <= 0 then NoFreeSlot
    else
      var animated := if kind != Basic && animatedFree > 0 then Min3(count, CatalogueSize, animatedFree) else 0;
      var still := if kind != Anime && staticFree > 0 then Min3(count, CatalogueSize, staticFree) else 0;
      if animated + still == 0 then NothingToAdd else Add(animated, still)
  }

  /** With a free slot of a selected kind, something is always added. */
  lemma FreeSlotMeansProgress(kind: Kind, count: int, limit: nat, staticCount: nat, animatedCount: nat)
    requires 1 <= count <= MaxCount
    requires (kind != Basic && animatedCount < limit) || (kind != Anime && staticCount < limit)
    ensures PlanAdditions(kind, count, limit, staticCount, animatedCount).Add?
  {
  }

  // ---------------------------------------------------------------------
  // Downloads
  // ---------------------------------------------------------------------

  /** What one download attempt gets back. */
  datatype Response = Fetched | RateLimited | BadStatus(status: int) | ReadFailed | TimedOut | Failed

  datatype Download = Download(image: bool, errorRecorded: bool, attempts: nat, waits: seq<nat>)

  /** The retry policy, attempt by attempt from `retries` failures so far:
      at most four attempts; a rate limit waits 3·(retries+1) seconds after
      counting itself; another failure records an error only when it is
      the fourth. */
  function Policy(responses: seq<Response>, retries: nat): (r: Download)
    requires |responses| == MaxAttempts && retries <= MaxAttempts
    ensures r.attempts <= MaxAttempts
    ensures r.image ==> !r.errorRecorded
    // the image arrives iff a later attempt is fetched; it ends the loop
    ensures r.image <==> exists j :: retries <= j < MaxAttempts && responses[j] == Fetched
    ensures r.image ==> retries < r.attempts && responses[r.attempts - 1] == Fetched
                        && forall j :: retries <= j < r.attempts - 1 ==> responses[j] != Fetched
    ensures !r.image ==> r.attempts == MaxAttempts
    // an error is recorded iff nothing is fetched and the last attempt is a
    // failure other than a rate limit
    ensures r.errorRecorded <==> retries < MaxAttempts && responses[MaxAttempts - 1] != RateLimited
                                 && forall j :: retries <= j < MaxAttempts ==> responses[j] != Fetched
    // one wait per rate limit, each between 6 and 15 seconds
    ensures |r.waits| <= r.attempts - retries
    ensures forall w :: w in r.waits ==> 6 <= w <= 15
    decreases MaxAttempts - retries
  {
    if retries >= MaxAttempts then Download(false, false, retries, [])
    else
      match responses[retries]
      case Fetched => Download(true, false, retries + 1, [])
      case RateLimited =>
        var rest := Policy(responses, retries + 1);
        Download(rest.image, rest.errorRecorded, rest.attempts, [3 * (retries + 2)] + rest.waits)
      case _ =>
        if retries + 1 >= MaxAttempts then Download(false, true, retries + 1, [])
        else Policy(responses, retries + 1)
  }

  /** The download loop of `add_emojis`. */
  method DownloadWithRetries(responses: seq<Response>) returns (image: bool, errorRecorded: bool, attempts: nat, waits: seq<nat>)
    requires |responses| == MaxAttempts
    ensures Download(image, errorRecorded, attempts, waits) == Policy(responses, 0)
  {
    ghost var goal := Policy(responses, 0);
    var retries: nat := 0;
    image := false;
    errorRecorded := false;
    waits := [];
    while retries < MaxAttempts
      invariant retries <= MaxAttempts
      invariant !image && !errorRecorded
      invariant goal.image == Policy(responses, retries).image
      invariant goal.errorRecorded == Policy(responses, retries).errorRecorded
      invariant goal.attempts == Policy(responses, retries).attempts
      invariant goal.waits == waits + Policy(responses, retries).waits
      decreases MaxAttempts - retries
    {
      var response := responses[retries];
      if response == Fetched {
        image := true;
        attempts := retries + 1;
        return;
      } else if response == RateLimited {
        RateLimitStep(responses, retries);
        ghost var rest := Policy(responses, retries + 1).waits;
        assert waits + ([3 * (retries + 2)] + rest) == (waits + [3 * (retries + 2)]) + rest;
        retries := retries + 1;
        waits := waits + [3 * (retries + 1)];
      } else {
        FailureStep(responses, retries);
        retries := retries + 1;
        if retries >= MaxAttempts {
          errorRecorded := true;
          attempts := retries;
          return;
        }
      }
    }
    attempts := retries;
  }

  lemma RateLimitStep(responses: seq<Response>, retries: nat)
    requires |responses| == MaxAttempts && retries < MaxAttempts && responses[retries] == RateLimited
    ensures var here := Policy(responses, retries);
            var next := Policy(responses, retries + 1);
            here.image == next.image && here.errorRecorded == next.errorRecorded
            && here.attempts == next.attempts && here.waits == [3 * (retries + 2)] + next.waits
  {
  }

  lemma FailureStep(responses: seq<Response>, retries: nat)
    requires |responses| == MaxAttempts && retries < MaxAttempts
    requires responses[retries] != RateLimited && responses[retries] != Fetched
    ensures retries + 1 < MaxAttempts ==> Policy(responses, retries) == Policy(responses, retries + 1)
    ensures retries + 1 >= MaxAttempts ==> Policy(responses, retries) == Download(false, true, retries + 1, [])
  {
  }

  /** Four rate limits in a row skip the emoji without recording an error,
      after waiting 6, 9, 12 and 15 seconds. */
  lemma RateLimitedFourTimes()
    ensures Policy([RateLimited, RateLimited, RateLimited, RateLimited], 0)
            == Download(false, false, 4, [6, 9, 12, 15])
  {
  }

  /** Any four failures other than rate limits record exactly one error. */
  lemma FourFailuresRecordOneError(a: Response, b: Response, c: Response, d: Response)
    requires a != Fetched && a != RateLimited && b != Fetched && b != RateLimited
    requires c != Fetched && c != RateLimited && d != Fetched && d != RateLimited
    ensures Policy([a, b, c, d], 0) == Download(false, true, 4, [])
  {
  }

  // ---------------------------------------------------------------------
  // Grouping for display
  // ---------------------------------------------------------------------

  /** `[xs[i:i+size] for i in range(0, len(xs), size)]`. */
  function Chunks<T>(xs: seq<T>, size: nat): (r: seq<seq<T>>)
    requires size > 0
    ensures forall i :: 0 <= i < |r| ==> 0 < |r[i]| <= size
    ensures forall i :: 0 <= i < |r| - 1 ==> |r[i]| == size
    decreases |xs|
  {
    if |xs| == 0 then []
    else if |xs| <= size then [xs]
    else [xs[..size]] + Chunks(xs[size..], size)
  }

  function Flatten<T>(xss: seq<seq<T>>): seq<T>
  {
    if |xss| == 0 then [] else xss[0] + Flatten(xss[1..])
  }

  /** Chunking loses and reorders nothing. */
  lemma {:induction false} ChunksFlatten<T>(xs: seq<T>, size: nat)
    requires size > 0
    ensures Flatten(Chunks(xs, size)) == xs
    decreases |xs|
  {
    if |xs| > size {
      ChunksFlatten(xs[size..], size);
      assert xs == xs[..size] + xs[size..];
    } else if |xs| > 0 {
      assert Flatten([xs]) == xs + Flatten<T>([]);
    }
  }

  datatype ErrorText = ErrorText(shown: seq<string>, more: nat)

  /** The error field: the first `limit` errors (10 beside added emojis,
      15 when nothing was added), then the count of the rest. */
  function ErrorSummary(errors: seq<string>, anyAdded: bool): (r: ErrorText)
    ensures var limit := if anyAdded then 10 else 15;
            r.shown <= errors && |r.shown| == (if |errors| < limit then |errors| else limit)
            && |r.shown| + r.more == |errors|
  {
    var limit := if anyAdded then 10 else 15;
    if |errors| <= limit then ErrorText(errors, 0)
    else ErrorText(errors[..limit], |errors| - limit)
  }

  datatype Listing = Listing(groups: seq<seq<string>>, hidden: nat)

  /** One kind in `list_emojis`: groups of 15, at most two of them, then a
      note counting the emojis beyond the first 30. */
  function ListKind(emojis: seq<string>): (r: Listing)
    ensures |r.groups| <= ListedGroups && r.hidden <= |emojis|
    ensures |r.groups| <= |Chunks(emojis, ListGroup)| && r.groups == Chunks(emojis, ListGroup)[..|r.groups|]
    ensures Flatten(r.groups) + emojis[|emojis| - r.hidden..] == emojis
    ensures r.hidden > 0 <==> |emojis| > ListGroup * ListedGroups
    ensures r.hidden > 0 ==> r.hidden == |emojis| - 30
  {
    var chunks := Chunks(emojis, ListGroup);
    ChunksFlatten(emojis, ListGroup);
    if |emojis| <= ListGroup * ListedGroups then
      assert |chunks| <= ListedGroups by {
        if |emojis| > ListGroup {
          assert chunks == [emojis[..ListGroup]] + Chunks(emojis[ListGroup..], ListGroup);
        }
      }
      Listing(chunks, 0)
    else
      var shown := [emojis[..15], emojis[15..30]];
      assert chunks[..ListedGroups] == shown by {
        assert chunks == [emojis[..15]] + Chunks(emojis[15..], ListGroup);
        assert emojis[15..][..15] == emojis[15..30];
      }
      assert Flatten(shown) == emojis[..30] by {
        assert shown[1..] == [emojis[15..30]];
        assert shown[1..][1..] == [];
        assert Flatten(shown[1..]) == emojis[15..30] + Flatten(shown[1..][1..]);
        assert emojis[..30] == emojis[..15] + emojis[15..30];
      }
      assert Flatten(shown) + emojis[30..] == emojis;
      Listing(shown, |emojis| - 30)
  }

  lemma {:induction false} FlattenAppend<T>(a: seq<seq<T>>, b: seq<seq<T>>)
    ensures Flatten(a + b) == Flatten(a) + Flatten(b)
    decreases |a|
  {
    if |a| > 0 {
      assert (a + b)[1..] == a[1..] + b;
      FlattenAppend(a[1..], b);
    } else {
      assert a + b == b;
    }
  }
}

=== FILE: giveaway.dfy ===
/** Giveaways of menu/giveaway.py: the duration argument of `gstart`, the
    draw in `end_giveaway` and the single redraw of `greroll`. The random
    draws are driven by `picks`, read as successive indices into the pool
    still to draw from. */
module Giveaway {
  import opened Wrappers
  import opened Text

  type UserId = nat
  type MessageId = nat
  type ChannelId = nat

  /** Seconds per unit letter; 0 for any other letter. */
  function UnitSeconds(unit: char): (r: nat)
    ensures r > 0 <==> unit in {'s', 'm', 'h', 'd'}
  {
    match unit
    case 's' => 1
    case 'm' => 60
    case 'h' => 3600
    case 'd' => 86400
    case _ => 0
  }

  datatype Duration =
    | NoArgument     // `temps[-1]` on an empty string raises
    | BadNumber      // the part before the unit is not an integer
    | BadUnit        // unknown unit, or a zero amount
    | Seconds(seconds: int)

  /** `gstart`'s reading of its time argument: the last character (lower
      cased) is the unit, the rest an integer. */
  function ParseDuration(temps: string): (r: Duration)
    ensures |temps| == 0 <==> r == NoArgument
    ensures |temps| > 0 ==> (r == BadNumber <==> !IntLiteral(temps[..|temps| - 1]))
    ensures r.Seconds? ==>
              r.seconds != 0
              && r.seconds == UnitSeconds(LowerChar(temps[|temps| - 1])) * ParseInt(temps[..|temps| - 1]).value
    ensures |temps| > 0 && IntLiteral(temps[..|temps| - 1]) ==>
      (r == BadUnit <==> UnitSeconds(LowerChar(temps[|temps| - 1])) * ParseInt(temps[..|temps| - 1]).value == 0)
  {
    if |temps| == 0 then NoArgument
    else
      var unit := LowerChar(temps[|temps| - 1]);
      match ParseInt(temps[..|temps| - 1])
      case None => BadNumber
      case Some(value) =>
        var seconds := UnitSeconds(unit) * value;
        if seconds == 0 then BadUnit else Seconds(seconds)
  }

  /** Examples: ten minutes; a negative amount is accepted; an unknown unit,
      a zero amount and a missing amount are refused. */
  lemma DurationExamples()
    ensures ParseDuration("10m") == Seconds(600)
    ensures ParseDuration("2H") == Seconds(7200)
    ensures ParseDuration("-5m") == Seconds(-300)
    ensures ParseDuration("5x") == BadUnit
    ensures ParseDuration("0d") == BadUnit
    ensures ParseDuration("m") == BadNumber
  {
    assert "10m"[..2] == "10";
    assert DigitsValue("10") == 10 by { assert "10"[..1] == "1"; }
    assert "2H"[..1] == "2";
    assert "-5m"[..2] == "-5" && "-5"[1..] == "5";
    assert "5x"[..1] == "5";
    assert "0d"[..1] == "0";
  }

  datatype GiveawayRecord = GiveawayRecord(channel: ChannelId, winners: int, prize: string)

  datatype StartOutcome = Refused(reason: Duration) | Started(seconds: int)

  /** `gstart`: a valid duration registers the giveaway under its message id. */
  function Start(active: map<MessageId, GiveawayRecord>, temps: string, winners: int, prize: string,
                 channel: ChannelId, message: MessageId): (r: (map<MessageId, GiveawayRecord>, StartOutcome))
    ensures ParseDuration(temps).Seconds? ==>
              r == (active[message := GiveawayRecord(channel, winners, prize)], Started(ParseDuration(temps).seconds))
    ensures !ParseDuration(temps).Seconds? ==> r == (active, Refused(ParseDuration(temps)))
  {
    match ParseDuration(temps)
    case Seconds(s) => (active[message := GiveawayRecord(channel, winners, prize)], Started(s))
    case other => (active, Refused(other))
  }

  datatype Participant = Participant(id: UserId, isBot: bool)

  /** The non-bot users who reacted, in order. */
  function Humans(ps: seq<Participant>): (r: seq<UserId>)
    ensures |r| <= |ps|
    ensures forall u :: u in r <==> Participant(u, false) in ps
  {
    if |ps| == 0 then []
    else
      var rest := Humans(ps[1..]);
      assert forall p :: p in ps <==> p == ps[0] || p in ps[1..];
      if ps[0].isBot then rest else [ps[0].id] + rest
  }

  /** `s` without its entry at `i`. */
  function RemoveAt(s: seq<UserId>, i: nat): (r: seq<UserId>)
    requires i < |s|
    ensures |r| == |s| - 1
    ensures multiset(s) == multiset(r) + multiset{s[i]}
    decreases i
  {
    assert s == [s[0]] + s[1..];
    if i == 0 then s[1..] else [s[0]] + RemoveAt(s[1..], i - 1)
  }

  /** The position the next draw takes: the first pick, wrapped into the pool. */
  function FirstPick(pool: seq<UserId>, picks: seq<nat>): (i: nat)
    requires |pool| > 0
    ensures i < |pool|
  {
    (if |picks| > 0 then picks[0] else 0) % |pool|
  }

  function LaterPicks(picks: seq<nat>): seq<nat>
  {
    if |picks| > 0 then picks[1..] else []
  }

  /** `random.sample(pool, k)`: `k` draws without replacement. */
  function Sample(pool: seq<UserId>, k: nat, picks: seq<nat>): (r: seq<UserId>)
    requires k <= |pool|
    ensures |r| == k
    ensures multiset(r) <= multiset(pool)
    decreases k
  {
    if k == 0 then []
    else
      var i := FirstPick(pool, picks);
      [pool[i]] + Sample(RemoveAt(pool, i), k - 1, LaterPicks(picks))
  }

  lemma MultisetOfCons<T>(x: T, t: seq<T>, s: seq<T>)
    requires s == [x] + t
    ensures multiset(s) == multiset{x} + multiset(t)
  {
    assert multiset([x] + t) == multiset([x]) + multiset(t);
  }

  lemma SampleUnfold(pool: seq<UserId>, k: nat, picks: seq<nat>)
    requires 0 < k <= |pool|
    ensures Sample(pool, k, picks)
              == [pool[FirstPick(pool, picks)]] + Sample(RemoveAt(pool, FirstPick(pool, picks)), k - 1, LaterPicks(picks))
  {
  }

  /** Drawing the whole pool: the picked entry, then the whole of what is left. */
  lemma SampleStep(pool: seq<UserId>, picks: seq<nat>)
    requires 0 < |pool|
    ensures var rest := RemoveAt(pool, FirstPick(pool, picks));
            multiset(Sample(pool, |pool|, picks))
              == multiset{pool[FirstPick(pool, picks)]} + multiset(Sample(rest, |rest|, LaterPicks(picks)))
  {
    var i := FirstPick(pool, picks);
    var rest := RemoveAt(pool, i);
    var tail := Sample(rest, |rest|, LaterPicks(picks));
    assert |rest| == |pool| - 1;
    SampleUnfold(pool, |pool|, picks);
    MultisetOfCons(pool[i], tail, Sample(pool, |pool|, picks));
  }

  lemma Recombine<T>(x: T, whole: multiset<T>, left: multiset<T>, drawn: multiset<T>, rest: multiset<T>)
    requires whole == rest + multiset{x}
    requires left == rest
    requires drawn == multiset{x} + left
    ensures drawn == whole
  {
  }

  /** Drawing the whole pool just reorders it. */
  lemma {:induction false} FullSampleIsPermutation(pool: seq<UserId>, picks: seq<nat>)
    ensures multiset(Sample(pool, |pool|, picks)) == multiset(pool)
    decreases |pool|
  {
    if |pool| > 0 {
      var i := FirstPick(pool, picks);
      var rest := RemoveAt(pool, i);
      FullSampleIsPermutation(rest, LaterPicks(picks));
      SampleStep(pool, picks);
      Recombine(pool[i], multiset(pool), multiset(Sample(rest, |rest|, LaterPicks(picks))),
                multiset(Sample(pool, |pool|, picks)), multiset(rest));
    }
  }

  datatype EndOutcome =
    | NotActive
    | ChannelGone
    | SampleRefused         // `random.sample` rejects a negative count
    | NotEnoughParticipants
    | Winners(users: seq<UserId>)

  /** `end_giveaway`: pops the record (even when its channel is gone), then
      draws among the human participants: all of them when fewer than the
      requested number, else exactly that many distinct entries. */
  function End(active: map<MessageId, GiveawayRecord>, message: MessageId, channelFound: bool,
               participants: seq<Participant>, picks: seq<nat>): (r: (map<MessageId, GiveawayRecord>, EndOutcome))
    ensures message !in active <==> r.1 == NotActive
    ensures r.0 == active - {message}
    ensures r.1 == ChannelGone <==> message in active && !channelFound
    ensures r.1 == SampleRefused <==> message in active && channelFound && active[message].winners < 0
    ensures r.1.Winners? ==> 0 < |r.1.users| && multiset(r.1.users) <= multiset(Humans(participants))
    ensures r.1.Winners? ==> |r.1.users| == if |Humans(participants)| < active[message].winners
                                            then |Humans(participants)| else active[message].winners
    ensures message in active && channelFound && |Humans(participants)| < active[message].winners ==>
              r.1 == (if |Humans(participants)| == 0 then NotEnoughParticipants else Winners(Humans(participants)))
    ensures message in active && channelFound && active[message].winners == 0 ==> r.1 == NotEnoughParticipants
    ensures message in active && channelFound && 0 < active[message].winners <= |Humans(participants)| ==>
              r.1.Winners? && |r.1.users| == active[message].winners
  {
    if message !in active then (active, NotActive)
    else
      var record := active[message];
      var rest := active - {message};
      if !channelFound then (rest, ChannelGone)
      else
        var users := Humans(participants);
        var winners :=
          if |users| < record.winners then Some(users)
          else if record.winners < 0 then None
          else Some(Sample(users, record.winners, picks));
        if winners.None? then (rest, SampleRefused)
        else if |winners.value| == 0 then (rest, NotEnoughParticipants)
        else (rest, Winners(winners.value))
  }

  /** Ending a giveaway twice: the second call finds nothing to do. */
  lemma EndIsOnce(active: map<MessageId, GiveawayRecord>, message: MessageId, channelFound: bool,
                  participants: seq<Participant>, picks: seq<nat>)
    ensures var once := End(active, message, channelFound, participants, picks).0;
            End(once, message, channelFound, participants, picks) == (once, NotActive)
  {
  }

  datatype RerollOutcome = MessageNotFound | NoParticipants | NewWinner(user: UserId)

  /** `greroll`: one human participant, or none. */
  function Reroll(found: bool, participants: seq<Participant>, pick: nat): (r: RerollOutcome)
    ensures !found <==> r == MessageNotFound
    ensures found ==> (r == NoParticipants <==> forall p :: p in participants ==> p.isBot)
    ensures r.NewWinner? ==> Participant(r.user, false) in participants
  {
    if !found then MessageNotFound
    else
      var users := Humans(participants);
      if |users| == 0 then NoParticipants
      else
        var w := users[pick % |users|];
        assert w in users;
        NewWinner(w)
  }
}

=== FILE: guild_utils.dfy ===
/** Guild utilities of main/utils.py: detecting and registering the three
    statistics voice channels, keeping that registry honest when channels
    disappear, the administrator guard of the statistics commands, and the
    welcome channel fallback with its invitation line. */
module GuildUtils {
  import opened Wrappers
  import opened Text

  type GuildId = nat
  type ChannelId = nat
  type UserId = nat

  const WelcomeChannelId: ChannelId := 1357030847768825969
  const MinCandidates: nat := 3

  datatype Channel = Channel(id: ChannelId, name: string, isVoice: bool)

  /** The three slots of a statistics trio. */
  predicate MembersName(name: string) { Contains(Lower(name), "membres") || Contains(name, "👥") }
  predicate OnlineName(name: string) { Contains(Lower(name), "en ligne") || Contains(name, "👤") }
  predicate VoiceName(name: string) { Contains(Lower(name), "en vocal") || Contains(name, "🔊") }

  /** A voice channel whose name fits any slot. */
  predicate Candidate(c: Channel)
  {
    c.isVoice && (MembersName(c.name) || OnlineName(c.name) || VoiceName(c.name))
  }

  function Candidates(channels: seq<Channel>): (r: seq<Channel>)
    ensures forall c :: c in r <==> c in channels && Candidate(c)
    ensures |r| <= |channels|
  {
    if |channels| == 0 then []
    else
      var rest := Candidates(channels[1..]);
      if Candidate(channels[0]) then [channels[0]] + rest else rest
  }

  datatype Slot = Members | Online | Voice

  predicate Fits(slot: Slot, name: string)
  {
    match slot
    case Members => MembersName(name)
    case Online => OnlineName(name)
    case Voice => VoiceName(name)
  }

  function FirstFitting(cs: seq<Channel>, slot: Slot): (r: Option<nat>)
    ensures r.Some? ==> r.value < |cs| && Fits(slot, cs[r.value].name)
    ensures r.Some? ==> forall k :: 0 <= k < r.value ==> !Fits(slot, cs[k].name)
    ensures r.None? ==> forall k :: 0 <= k < |cs| ==> !Fits(slot, cs[k].name)
  {
    if |cs| == 0 then None
    else if Fits(slot, cs[0].name) then Some(0)
    else
      var t := FirstFitting(cs[1..], slot);
      assert forall k :: 1 <= k < |cs| ==> cs[k] == cs[1..][k - 1];
      if t.Some? then Some(t.value + 1) else None
  }

  datatype StatsChannels = StatsChannels(members: ChannelId, online: ChannelId, voice: ChannelId)

  /** Some candidate channel fits `slot`. */
  predicate SlotFillable(channels: seq<Channel>, slot: Slot)
  {
    exists c :: c in channels && Candidate(c) && Fits(slot, c.name)
  }

  /** `c` is a candidate fitting `slot` with the given id. */
  predicate FilledBy(channels: seq<Channel>, slot: Slot, id: ChannelId)
  {
    exists c :: c in channels && Candidate(c) && Fits(slot, c.name) && c.id == id
  }

  /** Position `k` holds the first candidate channel that fits `slot`. */
  predicate FirstFitAt(channels: seq<Channel>, slot: Slot, k: nat)
    requires k < |channels|
  {
    Candidate(channels[k]) && Fits(slot, channels[k].name)
    && forall j :: 0 <= j < k ==> !(Candidate(channels[j]) && Fits(slot, channels[j].name))
  }

  /** `id` belongs to the first candidate channel that fits `slot`. */
  predicate FirstFitId(channels: seq<Channel>, slot: Slot, id: ChannelId)
  {
    exists k :: 0 <= k < |channels| && FirstFitAt(channels, slot, k) && channels[k].id == id
  }

  /** Searching the filtered candidates finds the first fitting channel of
      the unfiltered list. */
  lemma {:induction false} FirstFittingCandidate(channels: seq<Channel>, slot: Slot)
    ensures var cs := Candidates(channels);
            var t := FirstFitting(cs, slot);
            t.Some? ==> exists k :: 0 <= k < |channels| && FirstFitAt(channels, slot, k) && channels[k] == cs[t.value]
  {
    if |channels| > 0 {
      var c := channels[0];
      var tail := channels[1..];
      var rest := Candidates(tail);
      FirstFittingCandidate(tail, slot);
      var t := FirstFitting(Candidates(channels), slot);
      if t.Some? {
        if Candidate(c) && Fits(slot, c.name) {
          assert FirstFitAt(channels, slot, 0);
        } else {
          var tr := FirstFitting(rest, slot);
          if Candidate(c) {
            assert Candidates(channels) == [c] + rest;
            assert ([c] + rest)[1..] == rest;
            assert t == Some(tr.value + 1);
          } else {
            assert Candidates(channels) == rest;
          }
          var k' :| 0 <= k' < |tail| && FirstFitAt(tail, slot, k') && tail[k'] == rest[tr.value];
          assert forall j :: 1 <= j < |channels| ==> channels[j] == tail[j - 1];
          assert FirstFitAt(channels, slot, k' + 1);
        }
      }
    }
  }

  /** The first fitting candidate, found among the filtered candidates. */
  function SlotChannel(channels: seq<Channel>, slot: Slot): (r: Option<ChannelId>)
    ensures r.Some? <==> SlotFillable(channels, slot)
    ensures r.Some? ==> FirstFitId(channels, slot, r.value)
  {
    var cs := Candidates(channels);
    var k := FirstFitting(cs, slot);
    if k.Some? then
      FirstFittingCandidate(channels, slot);
      assert cs[k.value] in cs;
      Some(cs[k.value].id)
    else
      assert !SlotFillable(channels, slot) by {
        forall c | c in channels && Candidate(c) ensures !Fits(slot, c.name) {
          assert c in cs;
          var i :| 0 <= i < |cs| && cs[i] == c;
        }
      }
      None
  }

  /** The first fitting channel is unique: a slot names one channel. */
  lemma FirstFitIdUnique(channels: seq<Channel>, slot: Slot, a: ChannelId, b: ChannelId)
    requires FirstFitId(channels, slot, a) && FirstFitId(channels, slot, b)
    ensures a == b
  {
    var i :| 0 <= i < |channels| && FirstFitAt(channels, slot, i) && channels[i].id == a;
    var j :| 0 <= j < |channels| && FirstFitAt(channels, slot, j) && channels[j].id == b;
    assert !(i < j) && !(j < i);
  }

  /** `initialize_stats_channels` and `find_stats_channels` for one guild:
      at least three candidates, and each slot takes the first candidate
      that fits it (one channel may fill several slots). */
  function DetectStats(channels: seq<Channel>): (r: Option<StatsChannels>)
    ensures |Candidates(channels)| < MinCandidates ==> r.None?
    ensures |Candidates(channels)| >= MinCandidates ==>
              (r.Some? <==> SlotFillable(channels, Members) && SlotFillable(channels, Online) && SlotFillable(channels, Voice))
    ensures r.Some? ==> FirstFitId(channels, Members, r.value.members) && FirstFitId(channels, Online, r.value.online)
                        && FirstFitId(channels, Voice, r.value.voice)
  {
    if |Candidates(channels)| < MinCandidates then None
    else
      var m := SlotChannel(channels, Members);
      var o := SlotChannel(channels, Online);
      var v := SlotChannel(channels, Voice);
      if m.Some? && o.Some? && v.Some? then Some(StatsChannels(m.value, o.value, v.value)) else None
  }

  /** Registers what was detected; an incomplete detection changes nothing. */
  function RegisterDetected(registry: map<GuildId, StatsChannels>, g: GuildId, channels: seq<Channel>): (r: map<GuildId, StatsChannels>)
    ensures DetectStats(channels).Some? ==> r == registry[g := DetectStats(channels).value]
    ensures DetectStats(channels).None? ==> r == registry
  {
    match DetectStats(channels)
    case Some(s) => registry[g := s]
    case None => registry
  }

  /** `update_guild_stats`: `false` for an unregistered guild; a guild with
      any of its three channels gone is unregistered and gets `false`. */
  function UpdateGuildStats(registry: map<GuildId, StatsChannels>, g: GuildId, existing: set<ChannelId>): (r: (map<GuildId, StatsChannels>, bool))
    ensures r.1 <==> g in registry && registry[g].members in existing && registry[g].online in existing && registry[g].voice in existing
    ensures r.1 ==> r.0 == registry
    ensures !r.1 ==> r.0 == registry - {g}
  {
    if g !in registry then (registry, false)
    else
      var s := registry[g];
      if s.members in existing && s.online in existing && s.voice in existing then (registry, true)
      else (registry - {g}, false)
  }

  /** After an update the registry only names existing channels for `g`. */
  lemma UpdateLeavesLiveEntries(registry: map<GuildId, StatsChannels>, g: GuildId, existing: set<ChannelId>)
    ensures var r := UpdateGuildStats(registry, g, existing).0;
            g in r ==> r[g].members in existing && r[g].online in existing && r[g].voice in existing
  {
  }

  /** The guard of `create_stats_channels` and `delete_stats_channels`. */
  predicate AdminOrOwner(isAdministrator: bool, author: UserId, owner: UserId)
  {
    isAdministrator || author == owner
  }

  datatype DeleteOutcome = NotAllowed | NotRegistered | Deleted(existing: nat)

  /** 1 when the channel still exists, else 0. */
  function Live(id: ChannelId, existing: set<ChannelId>): nat
  {
    if id in existing then 1 else 0
  }

  /** `delete_stats_channels`: drops the guild's entry and reports how many
      of its three registered channels still existed (and were deleted). */
  function DeleteStats(registry: map<GuildId, StatsChannels>, g: GuildId, isAdministrator: bool, author: UserId, owner: UserId,
                       existing: set<ChannelId>): (r: (map<GuildId, StatsChannels>, DeleteOutcome))
    ensures !AdminOrOwner(isAdministrator, author, owner) ==> r == (registry, NotAllowed)
    ensures AdminOrOwner(isAdministrator, author, owner) && g !in registry ==> r == (registry, NotRegistered)
    ensures AdminOrOwner(isAdministrator, author, owner) && g in registry ==>
              r.0 == registry - {g} && r.1.Deleted?
              && r.1.existing == Live(registry[g].members, existing) + Live(registry[g].online, existing) + Live(registry[g].voice, existing)
    ensures r.1.Deleted? ==> r.1.existing <= 3
    ensures r.1.Deleted? ==>
              (r.1.existing == 0 <==> registry[g].members !in existing && registry[g].online !in existing && registry[g].voice !in existing)
  {
    if !AdminOrOwner(isAdministrator, author, owner) then (registry, NotAllowed)
    else if g !in registry then (registry, NotRegistered)
    else
      var s := registry[g];
      (registry - {g}, Deleted(Live(s.members, existing) + Live(s.online, existing) + Live(s.voice, existing)))
  }

  datatype CreateOutcome = CreateNotAllowed | AlreadyThere | Created

  /** The counter markers `create_stats_channels` looks for. */
  const MembersMarker: string := "👥・membres:"
  const OnlineMarker: string := "👤・en ligne:"
  const VoiceMarker: string := "🔊・en vocal:"

  /** Names of the channels `create_stats_channels` creates from the member,
      online and in-voice counts. */
  function CounterNames(members: nat, online: nat, voice: nat): seq<string>
  {
    [MembersMarker + " " + NatToString(members), OnlineMarker + " ~" + NatToString(online), VoiceMarker + " " + NatToString(voice)]
  }

  predicate AllCountersPresent(names: seq<string>)
  {
    (exists n :: n in names && Contains(n, MembersMarker))
    && (exists n :: n in names && Contains(n, OnlineMarker))
    && (exists n :: n in names && Contains(n, VoiceMarker))
  }

  /** `create_stats_channels` as written: the three "already exist" lookups
      pass a lambda as the `name` to `discord.utils.get`, which compares a
      channel's name to that lambda by equality; no name equals a function,
      so every lookup gives `None` and an administrator always gets new
      channels, registered over any previous trio. */
  function CreateStatsAsWritten(registry: map<GuildId, StatsChannels>, g: GuildId, isAdministrator: bool, author: UserId, owner: UserId,
                                names: seq<string>, created: StatsChannels): (r: (map<GuildId, StatsChannels>, CreateOutcome))
    ensures r.1 == Created <==> AdminOrOwner(isAdministrator, author, owner)
    ensures r.1 != AlreadyThere
    ensures r.1 == Created ==> r.0 == registry[g := created]
    ensures r.1 != Created ==> r.0 == registry
  {
    if !AdminOrOwner(isAdministrator, author, owner) then (registry, CreateNotAllowed)
    else (registry[g := created], Created)
  }

  /** `create_stats_channels` as intended: refused without rights, skipped
      when all three counters already exist by name, else the created
      channels are registered. */
  function CreateStats(registry: map<GuildId, StatsChannels>, g: GuildId, isAdministrator: bool, author: UserId, owner: UserId,
                       names: seq<string>, created: StatsChannels): (r: (map<GuildId, StatsChannels>, CreateOutcome))
    ensures r.1 == Created <==> AdminOrOwner(isAdministrator, author, owner) && !AllCountersPresent(names)
    ensures r.1 == AlreadyThere <==> AdminOrOwner(isAdministrator, author, owner) && AllCountersPresent(names)
    ensures r.1 == Created ==> r.0 == registry[g := created]
    ensures r.1 != Created ==> r.0 == registry
  {
    if !AdminOrOwner(isAdministrator, author, owner) then (registry, CreateNotAllowed)
    else if AllCountersPresent(names) then (registry, AlreadyThere)
    else (registry[g := created], Created)
  }

  /** Every created counter name carries its marker. */
  lemma CounterNamesPresent(members: nat, online: nat, voice: nat, others: seq<string>)
    ensures AllCountersPresent(others + CounterNames(members, online, voice))
  {
    var names := others + CounterNames(members, online, voice);
    var m, o, v := names[|others|], names[|others| + 1], names[|others| + 2];
    assert m in names && o in names && v in names;
    assert m == MembersMarker + (" " + NatToString(members));
    assert o == OnlineMarker + (" ~" + NatToString(online));
    assert v == VoiceMarker + (" " + NatToString(voice));
    PrefixContained(MembersMarker, " " + NatToString(members));
    PrefixContained(OnlineMarker, " ~" + NatToString(online));
    PrefixContained(VoiceMarker, " " + NatToString(voice));
  }

  lemma PrefixContained(p: string, rest: string)
    ensures Contains(p + rest, p)
  {
    assert OccursAt(p + rest, p, 0) by {
      assert (p + rest)[..|p|] == p;
    }
  }

  /** Running the command a second time, once the first run's channels
      exist: the intended check skips, while the code as written creates a
      second trio and overwrites the registry with it. */
  lemma SecondCreateDuplicates(registry: map<GuildId, StatsChannels>, g: GuildId, owner: UserId, others: seq<string>,
                               members: nat, online: nat, voice: nat, first: StatsChannels, second: StatsChannels)
    requires first != second
    ensures var names := others + CounterNames(members, online, voice);
            var once := CreateStatsAsWritten(registry, g, false, owner, owner, others, first).0;
            CreateStatsAsWritten(once, g, false, owner, owner, names, second) == (registry[g := second], Created)
            && CreateStats(once, g, false, owner, owner, names, second) == (once, AlreadyThere)
            && once[g] == first
  {
    CounterNamesPresent(members, online, voice, others);
    assert registry[g := first][g := second] == registry[g := second];
  }

  /** `sum(1 for m in members if m.voice is not None)`. */
  function VoiceCount(inVoice: seq<bool>): (r: nat)
    ensures r <= |inVoice|
    ensures r == 0 <==> forall i :: 0 <= i < |inVoice| ==> !inVoice[i]
    ensures r == |inVoice| <==> forall i :: 0 <= i < |inVoice| ==> inVoice[i]
  {
    if |inVoice| == 0 then 0
    else
      var rest := VoiceCount(inVoice[1..]);
      assert forall i :: 1 <= i < |inVoice| ==> inVoice[i] == inVoice[1..][i - 1];
      (if inVoice[0] then 1 else 0) + rest
  }

  // ---------------------------------------------------------------------
  // Welcome
  // ---------------------------------------------------------------------

  datatype TextChannel = TextChannel(id: ChannelId, name: string)

  predicate WelcomeLike(name: string)
  {
    Contains(name, "bienvenue") || Contains(name, "welcome") || Contains(name, "hello")
  }

  /** `k` is the first position whose name is `name`. */
  predicate FirstWith(cs: seq<TextChannel>, k: nat, name: string)
    requires k < |cs|
  {
    cs[k].name == name && forall j :: 0 <= j < k ==> cs[j].name != name
  }

  predicate FirstWelcomeLikeAt(cs: seq<TextChannel>, k: nat)
    requires k < |cs|
  {
    WelcomeLike(cs[k].name) && forall j :: 0 <= j < k ==> !WelcomeLike(cs[j].name)
  }

  function FirstNamed(cs: seq<TextChannel>, name: string): (r: Option<ChannelId>)
    ensures r.Some? <==> exists c :: c in cs && c.name == name
    ensures r.Some? ==> exists k :: 0 <= k < |cs| && cs[k].id == r.value && FirstWith(cs, k, name)
  {
    if |cs| == 0 then None
    else if cs[0].name == name then Some(cs[0].id)
    else
      var t := FirstNamed(cs[1..], name);
      assert forall k :: 1 <= k < |cs| ==> cs[k] == cs[1..][k - 1];
      assert forall c :: c in cs ==> c == cs[0] || c in cs[1..];
      t
  }

  function FirstWelcomeLike(cs: seq<TextChannel>): (r: Option<ChannelId>)
    ensures r.Some? <==> exists c :: c in cs && WelcomeLike(c.name)
    ensures r.Some? ==> exists k :: 0 <= k < |cs| && cs[k].id == r.value && FirstWelcomeLikeAt(cs, k)
  {
    if |cs| == 0 then None
    else if WelcomeLike(cs[0].name) then Some(cs[0].id)
    else
      var t := FirstWelcomeLike(cs[1..]);
      assert forall k :: 1 <= k < |cs| ==> cs[k] == cs[1..][k - 1];
      assert forall c :: c in cs ==> c == cs[0] || c in cs[1..];
      t
  }

  /** `on_member_join`'s channel: the fixed id, else "hello-toujours-coquette",
      else "📌・bienvenue", else the first channel mentioning bienvenue,
      welcome or hello; `None` sends nothing. */
  function WelcomeChannel(existing: set<ChannelId>, text: seq<TextChannel>): (r: Option<ChannelId>)
    ensures WelcomeChannelId in existing ==> r == Some(WelcomeChannelId)
    ensures WelcomeChannelId !in existing ==>
              r == (var a := FirstNamed(text, "hello-toujours-coquette");
                    if a.Some? then a
                    else var b := FirstNamed(text, "📌・bienvenue");
                    if b.Some? then b else FirstWelcomeLike(text))
    ensures r.None? <==> WelcomeChannelId !in existing && forall c :: c in text ==> !WelcomeLike(c.name)
  {
    if WelcomeChannelId in existing then Some(WelcomeChannelId)
    else
      var a := FirstNamed(text, "hello-toujours-coquette");
      if a.Some? then
        assert exists c :: c in text && WelcomeLike(c.name) by {
          var c :| c in text && c.name == "hello-toujours-coquette";
          assert OccursAt(c.name, "hello", 0);
        }
        a
      else
        var b := FirstNamed(text, "📌・bienvenue");
        if b.Some? then
          assert exists c :: c in text && WelcomeLike(c.name) by {
            var c :| c in text && c.name == "📌・bienvenue";
            assert OccursAt(c.name, "bienvenue", 2);
          }
          b
        else FirstWelcomeLike(text)
  }

  /** The invitation line of the welcome message: shown only when an
      inviter was found, with "s" exactly for more than one invitation. */
  function InvitationLine(inviter: Option<UserId>, count: int): (r: Option<(UserId, int, string)>)
    ensures r.Some? <==> inviter.Some?
    ensures r.Some? ==> r.value.0 == inviter.value && r.value.1 == count && (r.value.2 == "s" <==> count > 1)
  {
    if inviter.Some? then Some((inviter.value, count, PluralS(count))) else None
  }
}

=== FILE: invites.dfy ===
/** Invite tracking of main/invites.py: a cache of each guild's invite use
    counts, the diff that decides which invite a new member used, and the
    per-inviter counters behind `invites` and `topinvites`. Inviter keys are
    strings, `str(inviter.id)` or "unknown", as in the source. */
module Invites {
  import opened Wrappers
  import opened Text
  import opened OrderedDict
  import opened Ranking

  type GuildId = nat
  type UserId = nat

  const UnknownInviter: string := "unknown"
  const TopCount: nat := 10

  /** An invite as the platform lists it. */
  datatype Invite = Invite(code: string, uses: nat, inviter: Option<UserId>)

  datatype InviteState = InviteState(
    ready: bool,
    cache: map<GuildId, map<string, nat>>,
    counters: map<GuildId, Dict<string, int>>)

  /** `str(invite.inviter.id) if invite.inviter else "unknown"`. */
  function InviterKey(inv: Invite): (k: string)
    ensures inv.inviter.None? <==> k == UnknownInviter
  {
    if inv.inviter.Some? then NatToString(inv.inviter.value) else UnknownInviter
  }

  /** `{invite.code: invite.uses for invite in invites}`: later duplicates win. */
  function Snapshot(invites: seq<Invite>): (m: map<string, nat>)
    ensures m.Keys == set k | 0 <= k < |invites| :: invites[k].code
    ensures |invites| > 0 ==> m[invites[|invites| - 1].code] == invites[|invites| - 1].uses
  {
    if |invites| == 0 then map[]
    else
      var init := invites[..|invites| - 1];
      var last := invites[|invites| - 1];
      var m := Snapshot(init);
      assert forall k :: 0 <= k < |init| ==> init[k] == invites[k];
      m[last.code := last.uses]
  }

  /** The invite was used since `before` was taken: it is new, or its use
      count went up. */
  predicate UsedSince(inv: Invite, before: map<string, nat>)
  {
    inv.code !in before || inv.uses > before[inv.code]
  }

  /** Index of the first invite used since `before`. */
  function FirstUsed(invites: seq<Invite>, before: map<string, nat>): (r: Option<nat>)
    ensures r.Some? ==> r.value < |invites| && UsedSince(invites[r.value], before)
    ensures r.Some? ==> forall k :: 0 <= k < r.value ==> !UsedSince(invites[k], before)
    ensures r.None? ==> forall k :: 0 <= k < |invites| ==> !UsedSince(invites[k], before)
  {
    if |invites| == 0 then None
    else if UsedSince(invites[0], before) then Some(0)
    else
      var t := FirstUsed(invites[1..], before);
      assert forall k :: 1 <= k < |invites| ==> invites[k] == invites[1..][k - 1];
      if t.Some? then Some(t.value + 1) else None
  }

  /** `(code, inviter, count)` or `(None, None, 0)`. */
  datatype UsedInvite = NoneFound | Found(code: string, inviter: Option<UserId>, count: int)

  /** The counter of `key`, 0 when absent. */
  function CounterOf(counters: map<GuildId, Dict<string, int>>, g: GuildId, key: string): int
  {
    if g in counters then Get(counters[g], key).GetOr(0) else 0
  }

  /** Adds one to the counter of `key` (starting at 1 when it is absent). */
  function Credit(counters: map<GuildId, Dict<string, int>>, g: GuildId, key: string): (r: map<GuildId, Dict<string, int>>)
    ensures r.Keys == counters.Keys + {g}
    ensures CounterOf(r, g, key) == CounterOf(counters, g, key) + 1
    ensures forall h :: h in counters && h != g ==> r[h] == counters[h]
    ensures forall k :: k != key ==> Get(r[g], k) == Get(if g in counters then counters[g] else [], k)
  {
    var d := if g in counters then counters[g] else [];
    var n := Get(d, key);
    counters[g := Put(d, key, if n.None? then 1 else n.value + 1)]
  }

  /** `find_used_invite` for guild `g`; `fetched` is the list `guild.invites()`
      returned, `None` when the call failed. */
  function FindUsedInvite(st: InviteState, g: GuildId, fetched: Option<seq<Invite>>): (r: (InviteState, UsedInvite))
    // not ready: nothing changes
    ensures !st.ready ==> r == (st, NoneFound)
    ensures st.ready ==> r.0.ready && g in r.0.cache
    ensures st.ready ==> forall h :: h in st.cache && h != g ==> h in r.0.cache && r.0.cache[h] == st.cache[h]
    ensures st.ready ==> r.0.cache.Keys == st.cache.Keys + {g}
    // a failed fetch leaves only the (possibly new, empty) cache entry
    ensures st.ready && fetched.None? ==>
              r.1 == NoneFound && r.0.counters == st.counters
              && r.0.cache[g] == (if g in st.cache then st.cache[g] else map[])
    ensures st.ready && fetched.Some? ==> r.0.cache[g] == Snapshot(fetched.value)
    // no invite was used: the counters are unchanged
    ensures st.ready && fetched.Some? && FirstUsed(fetched.value, if g in st.cache then st.cache[g] else map[]).None? ==>
              r.1 == NoneFound && r.0.counters == st.counters
    // the first used invite credits its inviter by exactly one
    ensures st.ready && fetched.Some? && FirstUsed(fetched.value, if g in st.cache then st.cache[g] else map[]).Some? ==>
              var inv := fetched.value[FirstUsed(fetched.value, if g in st.cache then st.cache[g] else map[]).value];
              r.1 == Found(inv.code, inv.inviter, CounterOf(r.0.counters, g, InviterKey(inv)))
              && CounterOf(r.0.counters, g, InviterKey(inv)) == CounterOf(st.counters, g, InviterKey(inv)) + 1
              && r.0.counters == Credit(st.counters, g, InviterKey(inv))
  {
    if !st.ready then (st, NoneFound)
    else
      var before := if g in st.cache then st.cache[g] else map[];
      var cache := st.cache[g := before];
      if fetched.None? then (InviteState(true, cache, st.counters), NoneFound)
      else
        var invites := fetched.value;
        var cache' := st.cache[g := Snapshot(invites)];
        var i := FirstUsed(invites, before);
        if i.None? then (InviteState(true, cache', st.counters), NoneFound)
        else
          var inv := invites[i.value];
          var counters := Credit(st.counters, g, InviterKey(inv));
          (InviteState(true, cache', counters), Found(inv.code, inv.inviter, CounterOf(counters, g, InviterKey(inv))))
  }

  /** Invite codes are unique within a listing. */
  predicate DistinctCodes(invites: seq<Invite>)
  {
    forall i, j :: 0 <= i < j < |invites| ==> invites[i].code != invites[j].code
  }

  /** With unique codes, the snapshot records each invite's own use count. */
  lemma {:induction false} SnapshotHoldsUses(invites: seq<Invite>, k: nat)
    requires DistinctCodes(invites) && k < |invites|
    ensures invites[k].code in Snapshot(invites) && Snapshot(invites)[invites[k].code] == invites[k].uses
    decreases |invites|
  {
    if k < |invites| - 1 {
      var init := invites[..|invites| - 1];
      assert init[k] == invites[k];
      SnapshotHoldsUses(init, k);
      assert invites[k].code != invites[|invites| - 1].code;
    }
  }

  /** Looking again at an unchanged listing finds no used invite: the cache
      taken by the first lookup already holds every use count. */
  lemma SecondLookupFindsNothing(st: InviteState, g: GuildId, invites: seq<Invite>)
    requires st.ready && DistinctCodes(invites)
    ensures var once := FindUsedInvite(st, g, Some(invites)).0;
            FindUsedInvite(once, g, Some(invites)) == (once, NoneFound)
  {
    var once := FindUsedInvite(st, g, Some(invites)).0;
    assert once.ready && g in once.cache && once.cache[g] == Snapshot(invites);
    forall k | 0 <= k < |invites|
      ensures !UsedSince(invites[k], once.cache[g])
    {
      SnapshotHoldsUses(invites, k);
    }
    NoUseChangesOnlyTheCache(once, g, invites);
    assert once.cache[g := Snapshot(invites)] == once.cache;
  }

  /** A lookup that finds nothing only refreshes the guild's cache. */
  lemma NoUseChangesOnlyTheCache(st: InviteState, g: GuildId, invites: seq<Invite>)
    requires st.ready && g in st.cache
    requires forall k :: 0 <= k < |invites| ==> !UsedSince(invites[k], st.cache[g])
    ensures FindUsedInvite(st, g, Some(invites)) == (InviteState(true, st.cache[g := Snapshot(invites)], st.counters), NoneFound)
  {
    assert FirstUsed(invites, st.cache[g]).None?;
  }

  /** Only the credited inviter's counter changes. */
  lemma CreditTouchesOneCounter(counters: map<GuildId, Dict<string, int>>, g: GuildId, key: string, other: string, h: GuildId)
    requires other != key || h != g
    ensures CounterOf(Credit(counters, g, key), h, other) == CounterOf(counters, h, other)
  {
  }

  /** `on_invite_create`: records the invite's use count. */
  function OnInviteCreate(cache: map<GuildId, map<string, nat>>, g: GuildId, inv: Invite): (r: map<GuildId, map<string, nat>>)
    ensures g in r && inv.code in r[g] && r[g][inv.code] == inv.uses
    ensures forall c :: c != inv.code ==> (c in r[g] <==> g in cache && c in cache[g])
    ensures forall h :: h != g ==> (h in r <==> h in cache) && (h in cache ==> r[h] == cache[h])
  {
    var codes := if g in cache then cache[g] else map[];
    cache[g := codes[inv.code := inv.uses]]
  }

  /** `on_invite_delete`: forgets the code; unknown codes are ignored. */
  function OnInviteDelete(cache: map<GuildId, map<string, nat>>, g: GuildId, code: string): (r: map<GuildId, map<string, nat>>)
    ensures !(g in cache && code in cache[g]) ==> r == cache
    ensures g in cache && code in cache[g] ==> r == cache[g := cache[g] - {code}]
  {
    if g in cache && code in cache[g] then cache[g := cache[g] - {code}] else cache
  }

  /** `on_guild_remove`: drops both the cache and the counters of the guild. */
  function OnGuildRemove(st: InviteState, g: GuildId): (r: InviteState)
    ensures g !in r.cache && g !in r.counters
    ensures r.cache == st.cache - {g} && r.counters == st.counters - {g}
    ensures r.ready == st.ready
  {
    InviteState(st.ready, st.cache - {g}, st.counters - {g})
  }

  /** A guild's fresh cache: the fetched snapshot, empty when the listing fails. */
  function JoinedCache(fetched: Option<seq<Invite>>): map<string, nat>
  {
    if fetched.Some? then Snapshot(fetched.value) else map[]
  }

  /** `on_guild_join`: a fresh cache, empty when the listing fails. */
  function OnGuildJoin(cache: map<GuildId, map<string, nat>>, g: GuildId, fetched: Option<seq<Invite>>): (r: map<GuildId, map<string, nat>>)
    ensures g in r && r[g] == JoinedCache(fetched)
    ensures fetched.Some? ==> forall code :: code in r[g] <==> exists i :: 0 <= i < |fetched.value| && fetched.value[i].code == code
    ensures fetched.None? ==> r[g] == map[]
    ensures forall h :: h != g ==> (h in r <==> h in cache) && (h in cache ==> r[h] == cache[h])
  {
    cache[g := JoinedCache(fetched)]
  }

  /** Registers a zero counter for each inviter not yet counted. */
  function ZeroCounters(d: Dict<string, int>, invites: seq<Invite>): (r: Dict<string, int>)
    ensures forall k :: 0 <= k < |invites| ==> HasKey(r, InviterKey(invites[k]))
    ensures forall key :: HasKey(d, key) ==> Get(r, key) == Get(d, key)
    ensures forall key :: !HasKey(d, key) && HasKey(r, key) ==> Get(r, key) == Some(0)
    decreases |invites|
  {
    if |invites| == 0 then d
    else
      var key := InviterKey(invites[0]);
      var d' := if HasKey(d, key) then d else Put(d, key, 0);
      assert forall k :: 1 <= k < |invites| ==> invites[k] == invites[1..][k - 1];
      ZeroCounters(d', invites[1..])
  }

  /** Every counter of `before` is still in `after`, with the same value. */
  ghost predicate CountersKept(before: map<GuildId, Dict<string, int>>, after: map<GuildId, Dict<string, int>>)
  {
    before.Keys <= after.Keys
    && forall h, key :: h in before && HasKey(before[h], key) ==> Get(after[h], key) == Get(before[h], key)
  }

  lemma CountersKeptChain(a: map<GuildId, Dict<string, int>>, b: map<GuildId, Dict<string, int>>,
                          c: map<GuildId, Dict<string, int>>)
    requires CountersKept(a, b) && CountersKept(b, c)
    ensures CountersKept(a, c)
  {
    forall h, key | h in a && HasKey(a[h], key)
      ensures Get(c[h], key) == Get(a[h], key)
    {
      assert HasKey(b[h], key);
    }
  }

  /** Every inviter of `invites` has a counter in guild `g`. */
  ghost predicate InvitersCounted(counters: map<GuildId, Dict<string, int>>, g: GuildId, invites: seq<Invite>)
  {
    g in counters && forall i :: 0 <= i < |invites| ==> HasKey(counters[g], InviterKey(invites[i]))
  }

  /** One guild of `initialize`: its cache entry, and zero counters for its
      inviters when it has invites. */
  function InitGuild(st: InviteState, g: GuildId, fetched: Option<seq<Invite>>): (r: InviteState)
    ensures r.ready == st.ready
    ensures r.cache == OnGuildJoin(st.cache, g, fetched)
    ensures CountersKept(st.counters, r.counters)
    ensures fetched.Some? && |fetched.value| > 0 ==> InvitersCounted(r.counters, g, fetched.value)
  {
    var counters :=
      if fetched.Some? && |fetched.value| > 0 then
        st.counters[g := ZeroCounters(if g in st.counters then st.counters[g] else [], fetched.value)]
      else st.counters;
    InviteState(st.ready, OnGuildJoin(st.cache, g, fetched), counters)
  }

  /** `initialize`: every guild in turn, then the tracker is ready. Each
      guild's cache is its fetched snapshot (empty when the listing fails;
      for a guild listed twice, the last listing wins), other guilds keep
      theirs, and every inviter found has a counter. */
  function Initialize(st: InviteState, guilds: seq<(GuildId, Option<seq<Invite>>)>): (r: InviteState)
    ensures r.ready
    ensures st.cache.Keys <= r.cache.Keys
    ensures forall k :: 0 <= k < |guilds| ==> guilds[k].0 in r.cache
    ensures forall k :: 0 <= k < |guilds| && (forall j :: k < j < |guilds| ==> guilds[j].0 != guilds[k].0) ==>
              r.cache[guilds[k].0] == JoinedCache(guilds[k].1)
    ensures forall h :: h in st.cache && (forall k :: 0 <= k < |guilds| ==> guilds[k].0 != h) ==> r.cache[h] == st.cache[h]
    ensures forall k :: 0 <= k < |guilds| && guilds[k].1.Some? && |guilds[k].1.value| > 0 ==>
              InvitersCounted(r.counters, guilds[k].0, guilds[k].1.value)
    ensures CountersKept(st.counters, r.counters)
    decreases |guilds|
  {
    if |guilds| == 0 then InviteState(true, st.cache, st.counters)
    else
      var next := InitGuild(st, guilds[0].0, guilds[0].1);
      var r := Initialize(next, guilds[1..]);
      CountersKeptChain(st.counters, next.counters, r.counters);
      assert forall k :: 1 <= k < |guilds| ==> guilds[k] == guilds[1..][k - 1];
      r
  }

  // ---------------------------------------------------------------------
  // invites / topinvites
  // ---------------------------------------------------------------------

  datatype InvitesReply = NotYet | Invited(count: int, pluralSuffix: string)

  /** `invites`: unknown guilds and members count 0; "personne" takes an "s"
      exactly when the count exceeds one. */
  function InvitesOf(counters: map<GuildId, Dict<string, int>>, g: GuildId, member: UserId): (r: InvitesReply)
    ensures CounterOf(counters, g, NatToString(member)) == 0 <==> r == NotYet
    ensures r.Invited? ==> r.count == CounterOf(counters, g, NatToString(member))
                           && (r.pluralSuffix == "s" <==> r.count > 1)
  {
    var n := CounterOf(counters, g, NatToString(member));
    if n == 0 then NotYet else Invited(n, PluralS(n))
  }

  /** The ranking key of `topinvites`. */
  function Count(p: (string, int)): int
  {
    p.1
  }

  /** `topinvites`: `None` when nothing was counted; otherwise the first ten
      inviters, most invitations first. */
  function TopInvites(counters: map<GuildId, Dict<string, int>>, g: GuildId): (r: Option<seq<(string, int)>>)
    ensures r.None? <==> g !in counters || |counters[g]| == 0
    ensures r.Some? ==> |r.value| <= TopCount && |r.value| == if |counters[g]| <= TopCount then |counters[g]| else TopCount
    ensures r.Some? ==> SortedDesc(r.value, Count)
    ensures r.Some? ==> forall p :: p in r.value ==> p in counters[g]
    ensures r.Some? ==> forall i, j :: 0 <= i < |r.value| <= j < |counters[g]| ==>
              r.value[i].1 >= SortDesc(counters[g], Count)[j].1
  {
    if g !in counters || |counters[g]| == 0 then None
    else Some(Top(counters[g], Count, TopCount))
  }
}

=== FILE: keep_alive.dfy ===
/** The keep-alive companion of main/keep_alive.py: the uptime shown on the
    status pages, the bounded restart history, the health-check switch and
    the public URL derived from the hosting environment. */
module KeepAlive {
  import opened Wrappers
  import opened Text

  // ---------------------------------------------------------------------
  // Uptime
  // ---------------------------------------------------------------------

  datatype Uptime = Uptime(days: nat, hours: nat, minutes: nat, seconds: nat)

  /** The three `divmod` steps of the status pages. */
  function SplitUptime(u: nat): (r: Uptime)
    ensures r.hours < 24 && r.minutes < 60 && r.seconds < 60
    ensures r.days == u / 86400
  {
    var rem := u % 86400;
    Uptime(u / 86400, rem / 3600, rem % 3600 / 60, rem % 3600 % 60)
  }

  function TotalSeconds(t: Uptime): nat
  {
    t.days * 86400 + t.hours * 3600 + t.minutes * 60 + t.seconds
  }

  /** The split loses nothing and is the only normalised one. */
  lemma UptimeRoundTrip(u: nat)
    ensures TotalSeconds(SplitUptime(u)) == u
  {
    var rem := u % 86400;
    assert rem == rem / 3600 * 3600 + rem % 3600;
    assert rem % 3600 == rem % 3600 / 60 * 60 + rem % 3600 % 60;
  }

  lemma SplitIsUnique(t: Uptime)
    requires t.hours < 24 && t.minutes < 60 && t.seconds < 60
    ensures SplitUptime(TotalSeconds(t)) == t
  {
    var ms := t.minutes * 60 + t.seconds;
    var rest := t.hours * 3600 + ms;
    var u := t.days * 86400 + rest;
    assert u == TotalSeconds(t);
    assert u / 86400 == t.days && u % 86400 == rest;
    assert rest / 3600 == t.hours && rest % 3600 == ms;
    assert ms / 60 == t.minutes && ms % 60 == t.seconds;
  }

  /** The text of an already split uptime, and what follows each unit. */
  function UptimeWords(t: Uptime): string
  {
    NatToString(t.days) + ("j " + AfterDays(t))
  }

  function AfterDays(t: Uptime): string
  {
    NatToString(t.hours) + ("h " + AfterHours(t))
  }

  function AfterHours(t: Uptime): string
  {
    NatToString(t.minutes) + ("m " + AfterMinutes(t))
  }

  function AfterMinutes(t: Uptime): string
  {
    NatToString(t.seconds) + ("s" + [])
  }

  /** `"{d}j {h}h {m}m {s}s"` of the health endpoint; it reads back as the
      uptime. */
  function UptimeText(u: nat): (r: string)
    ensures ReadUptime(r) == Some(u)
  {
    ReadUptimeWords(SplitUptime(u));
    UptimeRoundTrip(u);
    UptimeWords(SplitUptime(u))
  }

  lemma ReadUptimeWords(t: Uptime)
    ensures ReadUptime(UptimeWords(t)) == Some(TotalSeconds(t))
  {
    ReadNumberOf(t.days, "j ", AfterDays(t));
    ReadNumberOf(t.hours, "h ", AfterHours(t));
    ReadNumberOf(t.minutes, "m ", AfterMinutes(t));
    ReadNumberOf(t.seconds, "s", []);
    ReadUptimeChain(UptimeWords(t), AfterDays(t), AfterHours(t), AfterMinutes(t), t);
  }

  /** Four successful reads, the last one ending the text, give the uptime. */
  lemma ReadUptimeChain(w: string, s1: string, s2: string, s3: string, t: Uptime)
    requires ReadNumber(w, "j ") == Some((t.days, s1))
    requires ReadNumber(s1, "h ") == Some((t.hours, s2))
    requires ReadNumber(s2, "m ") == Some((t.minutes, s3))
    requires ReadNumber(s3, "s") == Some((t.seconds, []))
    ensures ReadUptime(w) == Some(TotalSeconds(t))
  {
  }

  /** Reads an uptime text back into seconds. */
  function ReadUptime(s: string): Option<nat>
  {
    var days := ReadNumber(s, "j ");
    if days.None? then None
    else
      var hours := ReadNumber(days.value.1, "h ");
      if hours.None? then None
      else
        var minutes := ReadNumber(hours.value.1, "m ");
        if minutes.None? then None
        else
          var seconds := ReadNumber(minutes.value.1, "s");
          if seconds.None? || seconds.value.1 != [] then None
          else Some(TotalSeconds(Uptime(days.value.0, hours.value.0, minutes.value.0, seconds.value.0)))
  }

  /** Two uptimes are shown alike only when they are equal. */
  lemma UptimeTextInjective(u: nat, v: nat)
    requires UptimeText(u) == UptimeText(v)
    ensures u == v
  {
  }

  // ---------------------------------------------------------------------
  // Restart history
  // ---------------------------------------------------------------------

  const HistoryLimit: nat := 10
  const HealthCheckReason: string := "health_check"

  datatype RestartEntry = RestartEntry(timestamp: string, reason: string)
  datatype RestartStats = RestartStats(total: nat, last: Option<string>, history: seq<RestartEntry>)

  function Min(a: nat, b: nat): nat { if a < b then a else b }

  /** `record_restart`: one more restart, stamped `now`, and the history
      cut to its ten most recent entries. */
  function RecordRestart(st: RestartStats, now: string): (r: RestartStats)
    ensures r.total == st.total + 1
    ensures r.last == Some(now)
    ensures |r.history| == Min(|st.history| + 1, HistoryLimit)
    ensures r.history[|r.history| - 1] == RestartEntry(now, HealthCheckReason)
    ensures r.history[..|r.history| - 1] == st.history[|st.history| + 1 - |r.history|..]
  {
    var h := st.history + [RestartEntry(now, HealthCheckReason)];
    var kept := if |h| > HistoryLimit then h[|h| - HistoryLimit..] else h;
    assert kept[..|kept| - 1] == st.history[|st.history| + 1 - |kept|..];
    RestartStats(st.total + 1, Some(now), kept)
  }

  /** Recording a run of restarts one at a time. */
  function RecordAll(st: RestartStats, stamps: seq<string>): RestartStats
    decreases |stamps|
  {
    if |stamps| == 0 then st else RecordAll(RecordRestart(st, stamps[0]), stamps[1..])
  }

  /** The entries a run of restarts appends, one per stamp. */
  function Entries(stamps: seq<string>): seq<RestartEntry>
  {
    if |stamps| == 0 then [] else [RestartEntry(stamps[0], HealthCheckReason)] + Entries(stamps[1..])
  }

  /** The ten most recent entries of `h`, oldest first. */
  function Latest(h: seq<RestartEntry>): (r: seq<RestartEntry>)
    ensures |r| == Min(|h|, HistoryLimit)
  {
    h[|h| - Min(|h|, HistoryLimit)..]
  }

  /** Cutting early does not change what a later cut keeps. */
  lemma LatestAbsorbs(h: seq<RestartEntry>, tail: seq<RestartEntry>)
    ensures Latest(Latest(h) + tail) == Latest(h + tail)
  {
    var k := |h| - Min(|h|, HistoryLimit);
    assert Latest(h) + tail == (h + tail)[k..];
  }

  lemma RecordRestartKeepsLatest(st: RestartStats, now: string)
    ensures RecordRestart(st, now).history == Latest(st.history + [RestartEntry(now, HealthCheckReason)])
  {
  }

  lemma HistoryStep(h: seq<RestartEntry>, stamps: seq<string>)
    requires |stamps| > 0
    ensures Latest(Latest(h + [RestartEntry(stamps[0], HealthCheckReason)]) + Entries(stamps[1..])) == Latest(h + Entries(stamps))
  {
    var e := RestartEntry(stamps[0], HealthCheckReason);
    LatestAbsorbs(h + [e], Entries(stamps[1..]));
    EntriesCons(h, stamps);
  }

  lemma EntriesCons(h: seq<RestartEntry>, stamps: seq<string>)
    requires |stamps| > 0
    ensures h + [RestartEntry(stamps[0], HealthCheckReason)] + Entries(stamps[1..]) == h + Entries(stamps)
  {
    AppendAssoc(h, [RestartEntry(stamps[0], HealthCheckReason)], Entries(stamps[1..]));
  }

  lemma AppendAssoc<T>(a: seq<T>, b: seq<T>, c: seq<T>)
    ensures a + b + c == a + (b + c)
  {
  }

  /** The history always holds the latest restarts, oldest first: after any
      run of restarts it is the last ten entries of the whole record. */
  lemma {:induction false} HistoryKeepsLatest(st: RestartStats, stamps: seq<string>)
    ensures |stamps| > 0 || |st.history| <= HistoryLimit ==>
              RecordAll(st, stamps).history == Latest(st.history + Entries(stamps))
    ensures RecordAll(st, stamps).total == st.total + |stamps|
    decreases |stamps|
  {
    if |stamps| > 0 {
      var e := RestartEntry(stamps[0], HealthCheckReason);
      var next := RecordRestart(st, stamps[0]);
      RecordRestartKeepsLatest(st, stamps[0]);
      assert RecordAll(st, stamps) == RecordAll(next, stamps[1..]);
      HistoryKeepsLatest(next, stamps[1..]);
      HistoryStep(st.history, stamps);
    } else if |st.history| <= HistoryLimit {
      assert st.history + Entries(stamps) == st.history;
    }
  }

  // ---------------------------------------------------------------------
  // Health check switch
  // ---------------------------------------------------------------------

  datatype HealthCheck = HealthCheck(active: bool, threadsStarted: nat)

  /** `start_health_check`: starts one checking thread unless one runs. */
  function StartHealthCheck(h: HealthCheck): (r: HealthCheck)
    ensures r.active
    ensures r.threadsStarted == if h.active then h.threadsStarted else h.threadsStarted + 1
  {
    if h.active then h else HealthCheck(true, h.threadsStarted + 1)
  }

  /** `stop_health_check`: clears the flag the checking loop polls. */
  function StopHealthCheck(h: HealthCheck): (r: HealthCheck)
    ensures !r.active && r.threadsStarted == h.threadsStarted
  {
    HealthCheck(false, h.threadsStarted)
  }

  /** Starting twice is starting once. */
  lemma StartIsIdempotent(h: HealthCheck)
    ensures StartHealthCheck(StartHealthCheck(h)) == StartHealthCheck(h)
  {
  }

  // ---------------------------------------------------------------------
  // Public URL
  // ---------------------------------------------------------------------

  /** Python's `s.split(",")`: never empty, pieces free of commas. */
  function SplitComma(s: string): (r: seq<string>)
    ensures |r| >= 1
    ensures forall i :: 0 <= i < |r| ==> ',' !in r[i]
    decreases |s|
  {
    if |s| == 0 then [""]
    else if s[0] == ',' then [""] + SplitComma(s[1..])
    else
      var rest := SplitComma(s[1..]);
      [[s[0]] + rest[0]] + rest[1..]
  }

  function JoinComma(parts: seq<string>): string
    requires |parts| >= 1
    decreases |parts|
  {
    if |parts| == 1 then parts[0] else parts[0] + "," + JoinComma(parts[1..])
  }

  /** Splitting loses nothing: joining the pieces gives the string back. */
  lemma {:induction false} SplitJoin(s: string)
    ensures JoinComma(SplitComma(s)) == s
    decreases |s|
  {
    if |s| > 0 {
      SplitJoin(s[1..]);
      var rest := SplitComma(s[1..]);
      if s[0] == ',' {
        assert SplitComma(s)[1..] == rest;
      } else {
        var r := SplitComma(s);
        if |rest| == 1 {
          assert r == [[s[0]] + rest[0]];
        } else {
          assert r[1..] == rest[1..];
          assert JoinComma(r) == [s[0]] + rest[0] + "," + JoinComma(rest[1..]);
        }
      }
    }
  }

  /** The environment variables the URL is derived from. */
  datatype Env = Env(domains: Option<string>, replId: Option<string>, replSlug: Option<string>)

  /** The URL logged for uptime monitors: the first entry of REPLIT_DOMAINS
      when that variable is set (even empty), else the classic repl.co
      address when both REPL_ID and REPL_SLUG are set, else none. */
  function ReplitUrl(env: Env): (r: Option<string>)
    ensures env.domains.Some? ==> r.Some? && StartsWith(r.value, "https://")
                                  && r.value[8..] == SplitComma(env.domains.value)[0]
    ensures env.domains.None? ==> (r.Some? <==> env.replId.Some? && env.replSlug.Some?)
    ensures env.domains.None? && r.Some? ==> r.value == "https://" + env.replSlug.value + "." + env.replId.value + ".repl.co"
  {
    if env.domains.Some? then
      var r := "https://" + SplitComma(env.domains.value)[0];
      assert r[..8] == "https://";
      Some(r)
    else if env.replId.Some? && env.replSlug.Some? then
      Some("https://" + env.replSlug.value + "." + env.replId.value + ".repl.co")
    else None
  }

  /** The first domain is everything up to the first comma. */
  lemma FirstDomainIsPrefix(s: string)
    ensures var d := SplitComma(s)[0];
            |d| <= |s| && d == s[..|d|] && (|d| < |s| ==> s[|d|] == ',')
  {
    SplitJoin(s);
    var parts := SplitComma(s);
    if |parts| > 1 {
      assert s == parts[0] + "," + JoinComma(parts[1..]);
    }
  }
}

=== FILE: levels.dfy ===
/** The XP and level system of levels.py: the quadratic level curve and its
    floored inverse, the five tier roles, the per-message XP award with its
    60-second cooldown, and the arithmetic behind `rank`, `leaderboard`,
    `dashboard` and `reset_xp`.

    A guild's records are kept as a sequence of entries in insertion order,
    because that is the order a Python dict iterates in and the order the
    stable sort of the ranking falls back on for equal XP. */
module Levels {
  import opened Wrappers
  import opened Text
  import opened OrderedDict
  import opened Ranking

  type UserId = nat
  type GuildId = nat

  /** Command prefix of the bot: messages starting with it earn no XP. */
  const CommandPrefix: string := "!"
  /** Seconds between two XP awards to the same member of the same guild. */
  const CooldownSeconds: int := 60
  const MinGain: int := 15
  const MaxGain: int := 25
  /** Number of members shown by `leaderboard` and `dashboard`. */
  const TopCount: nat := 10

  // ---------------------------------------------------------------------
  // The level curve
  // ---------------------------------------------------------------------

  /** XP needed to reach `level`: 5·level² + 50·level + 100. */
  function XpForLevel(level: int): (xp: int)
    ensures xp + 25 == 5 * (level + 5) * (level + 5)
  {
    5 * level * level + 50 * level + 100
  }

  lemma SquareMonotone(a: nat, b: nat)
    requires a <= b
    ensures a * a <= b * b
  {
    assert a * a <= a * b <= b * b;
  }

  /** Integer square root: the largest r with r² ≤ n. */
  function Isqrt(n: nat): (r: nat)
    ensures r * r <= n < (r + 1) * (r + 1)
    decreases n
  {
    if n < 4 then (if n == 0 then 0 else 1)
    else
      var h := Isqrt(n / 4);
      IsqrtStep(n, h);
      if (2 * h + 1) * (2 * h + 1) <= n then 2 * h + 1 else 2 * h
  }

  /** From the root of n/4 the root of n is 2h or 2h+1. */
  lemma IsqrtStep(n: nat, h: nat)
    requires h * h <= n / 4 < (h + 1) * (h + 1)
    ensures (2 * h) * (2 * h) <= n < (2 * h + 2) * (2 * h + 2)
  {
    var q := n / 4;
    assert (2 * h) * (2 * h) == 4 * (h * h);
    assert (2 * h + 2) * (2 * h + 2) == 4 * ((h + 1) * (h + 1));
    assert 4 * q <= n < 4 * q + 4;
  }

  /** From the integer root of (xp + 25) div 5 to the bracket of the curve. */
  lemma RootBracketsXp(xp: int, r: nat)
    requires xp >= -25
    requires r * r <= (xp + 25) / 5 < (r + 1) * (r + 1)
    ensures XpForLevel(r - 5) <= xp < XpForLevel(r - 4)
  {
    var q := (xp + 25) / 5;
    assert 5 * q <= xp + 25 < 5 * q + 5;
    assert XpForLevel(r - 5) + 25 == 5 * (r * r);
    assert XpForLevel(r - 4) + 25 == 5 * ((r + 1) * (r + 1));
  }

  /** `calculate_level`: the floored inverse of the curve. Its float
      expression floor((-50 + sqrt(20·xp + 500)) / 10) equals
      isqrt((xp + 25) div 5) - 5, and a negative discriminant gives 0. */
  function CalculateLevel(xp: int): (level: int)
    ensures xp < -25 ==> level == 0
    ensures xp >= -25 ==> -5 <= level && XpForLevel(level) <= xp < XpForLevel(level + 1)
  {
    if xp < -25 then 0
    else
      var r := Isqrt((xp + 25) / 5);
      RootBracketsXp(xp, r);
      r - 5
  }

  /** Each level is 10·L + 55 XP wide. */
  lemma XpStep(level: int)
    ensures XpForLevel(level + 1) - XpForLevel(level) == 10 * level + 55
  {
    assert (level + 1) * (level + 1) == level * level + 2 * level + 1;
  }

  /** The curve is strictly increasing from level -5 on. */
  lemma {:induction false} XpForLevelIncreasing(a: int, b: int)
    requires -5 <= a < b
    ensures XpForLevel(a) < XpForLevel(b)
  {
    SquareMonotone(a + 5, b - 1 + 5);
    assert (a + 5) * (a + 5) < (b + 5) * (b + 5) by {
      assert (b + 5) * (b + 5) == (b + 4) * (b + 4) + 2 * (b + 4) + 1;
    }
  }

  /** For xp ≥ -25 the level is the ONLY L ≥ -5 whose bracket holds xp. */
  lemma {:induction false} CalculateLevelUnique(xp: int, level: int)
    requires xp >= -25 && level >= -5
    requires XpForLevel(level) <= xp < XpForLevel(level + 1)
    ensures CalculateLevel(xp) == level
  {
    var c := CalculateLevel(xp);
    if c < level {
      if c + 1 < level { XpForLevelIncreasing(c + 1, level); }
      assert false;
    } else if level < c {
      if level + 1 < c { XpForLevelIncreasing(level + 1, c); }
      assert false;
    }
  }

  /** Reaching a level is reaching its XP: for xp ≥ -25 and L ≥ -5,
      calculate_level(xp) ≥ L exactly when xp ≥ xp_for_level(L). */
  lemma {:induction false} LevelReachedIff(xp: int, level: int)
    requires xp >= -25 && level >= -5
    ensures CalculateLevel(xp) >= level <==> xp >= XpForLevel(level)
  {
    var c := CalculateLevel(xp);
    if c >= level {
      if c > level { XpForLevelIncreasing(level, c); }
    } else {
      if c + 1 < level { XpForLevelIncreasing(c + 1, level); }
    }
  }

  /** `calculate_level` is non-decreasing in xp from -25 on. */
  lemma {:induction false} CalculateLevelMonotone(x: int, y: int)
    requires -25 <= x <= y
    ensures CalculateLevel(x) <= CalculateLevel(y)
  {
    LevelReachedIff(y, CalculateLevel(x));
  }

  /** Below -25 the discriminant is negative and the level jumps back to 0,
      so the function is not monotone over all integers. */
  lemma NegativeDiscriminantBreaksMonotony()
    ensures CalculateLevel(-26) == 0 && CalculateLevel(-25) == -5
  {
    CalculateLevelUnique(-25, -5);
  }

  /** Levels are negative between -25 and 99 XP; level 0 starts at 100 XP,
      level 1 at 155 XP; and the documented values of the curve. */
  lemma {:induction false} LevelCurveLandmarks(xp: int)
    requires -25 <= xp
    ensures xp < 100 <==> CalculateLevel(xp) < 0
    ensures xp >= 155 <==> CalculateLevel(xp) >= 1
    ensures CalculateLevel(0) == -3
    ensures XpForLevel(10) == 1100 && XpForLevel(5) == 475
    ensures CalculateLevel(425) == 4
  {
    LevelReachedIff(xp, 0);
    LevelReachedIff(xp, 1);
    CalculateLevelUnique(0, -3);
    CalculateLevelUnique(425, 4);
  }

  // ---------------------------------------------------------------------
  // Tier roles
  // ---------------------------------------------------------------------

  /** The level thresholds of `LEVEL_ROLES`. */
  const Tiers: set<int> := {1, 5, 10, 20, 30}

  predicate IsTier(t: int)
  {
    t in Tiers
  }

  /** The role name `LEVEL_ROLES` attaches to each tier. */
  function TierRoleName(t: int): (name: string)
    requires IsTier(t)
  {
    if t == 1 then "Nini Nouveau"
    else if t == 5 then "Nini Curieux"
    else if t == 10 then "Nini Actif"
    else if t == 20 then "Nini Confirmé"
    else "Nini Légende"
  }

  /** The names of all five tier roles. */
  predicate IsLevelRoleName(name: string)
  {
    exists t :: t in Tiers && TierRoleName(t) == name
  }

  lemma TierRoleNamesDistinct(t: int, u: int)
    requires IsTier(t) && IsTier(u) && t != u
    ensures TierRoleName(t) != TierRoleName(u)
  {
    var a, b := TierRoleName(t), TierRoleName(u);
    assert a[5] != b[5] || |a| != |b|;
  }

  /** The highest tier not above `level`, 0 when there is none
      (`highest_role_level` in update_level_role, `current_role_level` in rank). */
  function TierFor(level: int): (t: int)
    ensures t == 0 <==> level < 1
    ensures t != 0 ==> IsTier(t) && t <= level
    ensures forall u :: IsTier(u) && u <= level ==> u <= t
  {
    if level >= 30 then 30
    else if level >= 20 then 20
    else if level >= 10 then 10
    else if level >= 5 then 5
    else if level >= 1 then 1
    else 0
  }

  /** The lowest tier strictly above `level` (`next_role_level` in rank). */
  function NextTier(level: int): (t: Option<int>)
    ensures t.Some? ==> IsTier(t.value) && t.value > level
    ensures t.Some? ==> forall u :: IsTier(u) && u > level ==> t.value <= u
    ensures t.None? <==> level >= 30
  {
    if level < 1 then Some(1)
    else if level < 5 then Some(5)
    else if level < 10 then Some(10)
    else if level < 20 then Some(20)
    else if level < 30 then Some(30)
    else None
  }

  /** `update_level_role`: given the member's role names and the guild's
      role names, the member's role names afterwards. */
  function UpdateLevelRole(memberRoles: set<string>, guildRoles: set<string>, newLevel: int): (r: set<string>)
    ensures TierFor(newLevel) == 0 ==> r == memberRoles
    ensures TierFor(newLevel) != 0 && TierRoleName(TierFor(newLevel)) !in guildRoles ==> r == memberRoles
    ensures TierFor(newLevel) != 0 && TierRoleName(TierFor(newLevel)) in guildRoles ==>
              TierRoleName(TierFor(newLevel)) in r
              && (forall t :: IsTier(t) && t != TierFor(newLevel) && TierRoleName(t) in guildRoles ==>
                    TierRoleName(t) !in r)
    ensures forall name :: !IsLevelRoleName(name) ==> (name in r <==> name in memberRoles)
  {
    var tier := TierFor(newLevel);
    if tier == 0 then memberRoles
    else
      var target := TierRoleName(tier);
      if target !in guildRoles then memberRoles
      else
        var stale := set t | t in Tiers && t != tier && TierRoleName(t) in guildRoles :: TierRoleName(t);
        forall t | IsTier(t) && t != tier
          ensures TierRoleName(t) != target
        {
          TierRoleNamesDistinct(t, tier);
        }
        (memberRoles - stale) + {target}
  }

  // ---------------------------------------------------------------------
  // Per-guild records
  // ---------------------------------------------------------------------

  /** One member's record: `{"xp": int, "level": int}`. */
  datatype Record = Record(xp: int, level: int)

  /** A guild's records, in insertion order. */
  type Records = Dict<UserId, Record>

  /** The record a new member starts with. */
  const Fresh: Record := Record(0, 0)

  // ---------------------------------------------------------------------
  // XP award (Levels.on_message)
  // ---------------------------------------------------------------------

  datatype LevelState = LevelState(data: map<GuildId, Records>, cooldowns: map<(GuildId, UserId), int>)

  datatype Message = Message(author: UserId, authorIsBot: bool, content: string, guild: Option<GuildId>)

  datatype Award =
    | Ignored
    | OnCooldown
    | Awarded(newXp: int, levelUp: Option<int>)

  /** The guild's records (none when the guild has no entry yet). */
  function RecordsOf(data: map<GuildId, Records>, g: GuildId): Records
  {
    if g in data then data[g] else []
  }

  /** The member's record before the message, or the fresh record the
      handler creates (before it looks at the cooldown). */
  function RecordBefore(data: map<GuildId, Records>, g: GuildId, u: UserId): Record
  {
    Get(RecordsOf(data, g), u).GetOr(Fresh)
  }

  /** Messages that earn nothing: from bots, commands, and direct messages. */
  predicate NotEligible(msg: Message)
  {
    msg.authorIsBot || StartsWith(msg.content, CommandPrefix) || msg.guild.None?
  }

  /** The member's record in `st`, if any. */
  function UserRecord(st: LevelState, g: GuildId, u: UserId): Option<Record>
  {
    if g in st.data then Get(st.data[g], u) else None
  }

  /** The last award to `(g, u)` was less than a minute before `now`. */
  predicate CooledDown(st: LevelState, g: GuildId, u: UserId, now: int)
  {
    (g, u) in st.cooldowns && now - st.cooldowns[(g, u)] < CooldownSeconds
  }

  /** Nothing but the member's record in `g` and the member's cooldown
      differs between `st` and `st'`; `g` gains an entry if it had none. */
  ghost predicate OnlyMemberChanged(st: LevelState, st': LevelState, g: GuildId, u: UserId)
  {
    st'.data.Keys == st.data.Keys + {g}
    && (forall h :: h in st.data && h != g ==> st'.data[h] == st.data[h])
    && (forall v :: v != u ==> Get(st'.data[g], v) == Get(RecordsOf(st.data, g), v))
    && (forall k :: k in st.cooldowns && k != (g, u) ==> k in st'.cooldowns && st'.cooldowns[k] == st.cooldowns[k])
  }

  /** The award of `gain` XP to a member whose record was `prev`: the XP
      grows by `gain`, and the stored level moves to the new level exactly
      when the level computed from the XP went up. */
  predicate AwardFits(prev: Record, gain: int, stored: Option<Record>, award: Award)
  {
    award.Awarded? && stored.Some?
    && stored.value.xp == prev.xp + gain
    && award.newXp == prev.xp + gain
    && (award.levelUp.Some? <==> CalculateLevel(prev.xp + gain) > CalculateLevel(prev.xp))
    && (award.levelUp.Some? ==>
          award.levelUp.value == CalculateLevel(prev.xp + gain) && stored.value.level == award.levelUp.value)
    && (award.levelUp.None? ==> stored.value.level == prev.level)
  }

  /** `on_message` of the level system at time `now`; `gain` is the value
      `random.randint(15, 25)` produced. On a level-up the source also
      updates the member's tier role, which is `UpdateLevelRole` applied to
      the `levelUp` level; the two are stated separately here. */
  function OnMessage(st: LevelState, msg: Message, now: int, gain: int): (r: (LevelState, Award))
    requires MinGain <= gain <= MaxGain
    ensures NotEligible(msg) ==> r == (st, Ignored)
    ensures !NotEligible(msg) ==> OnlyMemberChanged(st, r.0, msg.guild.value, msg.author)
    ensures !NotEligible(msg) && CooledDown(st, msg.guild.value, msg.author, now) ==>
              r.1 == OnCooldown && r.0.cooldowns == st.cooldowns
              && UserRecord(r.0, msg.guild.value, msg.author) == Some(RecordBefore(st.data, msg.guild.value, msg.author))
    ensures !NotEligible(msg) && !CooledDown(st, msg.guild.value, msg.author, now) ==>
              r.0.cooldowns == st.cooldowns[(msg.guild.value, msg.author) := now]
              && AwardFits(RecordBefore(st.data, msg.guild.value, msg.author), gain,
                           UserRecord(r.0, msg.guild.value, msg.author), r.1)
  {
    if NotEligible(msg) then (st, Ignored)
    else
      var g, u := msg.guild.value, msg.author;
      var prev := RecordBefore(st.data, g, u);
      var records := Put(RecordsOf(st.data, g), u, prev);
      var key := (g, u);
      if key in st.cooldowns && now - st.cooldowns[key] < CooldownSeconds then
        (LevelState(st.data[g := records], st.cooldowns), OnCooldown)
      else
        var (updated, award) := Grant(prev, gain);
        (LevelState(st.data[g := Put(records, u, updated)], st.cooldowns[key := now]), award)
  }

  /** The XP and level change of one award. */
  function Grant(prev: Record, gain: int): (r: (Record, Award))
    ensures AwardFits(prev, gain, Some(r.0), r.1)
  {
    var newXp := prev.xp + gain;
    var oldLevel, newLevel := CalculateLevel(prev.xp), CalculateLevel(newXp);
    var updated := if newLevel > oldLevel then Record(newXp, newLevel) else Record(newXp, prev.level);
    (updated, Awarded(newXp, if newLevel > oldLevel then Some(newLevel) else None))
  }

  /** Two eligible messages less than 60 s apart: the second earns nothing. */
  lemma {:induction false} CooldownBlocksSecondAward(st: LevelState, msg: Message, t1: int, t2: int, gain1: int, gain2: int)
    requires MinGain <= gain1 <= MaxGain && MinGain <= gain2 <= MaxGain
    requires !NotEligible(msg)
    requires OnMessage(st, msg, t1, gain1).1.Awarded?
    requires t1 <= t2 < t1 + CooldownSeconds
    ensures OnMessage(OnMessage(st, msg, t1, gain1).0, msg, t2, gain2).1 == OnCooldown
  {
  }

  /** A gain of 15..25 XP never lowers the level and never skips one, as
      long as the member's XP is not negative: from level -3 on, every level
      is at least 25 XP wide. */
  lemma {:induction false} AwardRaisesLevelByAtMostOne(oldXp: int, gain: int)
    requires oldXp >= 0 && MinGain <= gain <= MaxGain
    ensures CalculateLevel(oldXp) <= CalculateLevel(oldXp + gain) <= CalculateLevel(oldXp) + 1
  {
    var l := CalculateLevel(oldXp);
    CalculateLevelMonotone(oldXp, oldXp + gain);
    CalculateLevelUnique(0, -3);
    CalculateLevelMonotone(0, oldXp);
    XpStep(l + 1);
    LevelReachedIff(oldXp + gain, l + 2);
  }

  // ---------------------------------------------------------------------
  // rank
  // ---------------------------------------------------------------------

  /** The figures `rank` shows for `xp`: the level, the XP gained inside the
      level and the width of the level. */
  datatype Progress = Progress(level: int, gained: int, required: int)

  function RankProgress(xp: int): (p: Progress)
    ensures p.level == CalculateLevel(xp)
    ensures p.required == 10 * p.level + 55 && p.required > 0
    ensures xp >= -25 ==> 0 <= p.gained < p.required
    ensures xp == XpForLevel(p.level) + p.gained
  {
    var level := CalculateLevel(xp);
    XpStep(level);
    Progress(level, xp - XpForLevel(level), XpForLevel(level + 1) - XpForLevel(level))
  }

  /** The ranking key: a record's XP. */
  function Xp(p: (UserId, Record)): int
  {
    p.1.xp
  }

  /** The records ranked by XP, highest first, ties in insertion order. */
  function Ranked(records: Records): (r: seq<(UserId, Record)>)
    ensures |r| == |records|
    ensures SortedDesc(r, Xp)
    ensures forall p :: p in r <==> p in records
  {
    SortKeepsItems(records, Xp);
    SortDesc(records, Xp)
  }

  /** 0-based index of `u`'s pair in `s`. */
  function PositionOf(s: seq<(UserId, Record)>, u: UserId): (r: Option<nat>)
    ensures r.Some? ==> r.value < |s| && s[r.value].0 == u
    ensures r.Some? ==> forall i :: 0 <= i < r.value ==> s[i].0 != u
    ensures r.None? <==> forall p :: p in s ==> p.0 != u
  {
    if |s| == 0 then None
    else if s[0].0 == u then Some(0)
    else
      var t := PositionOf(s[1..], u);
      assert forall p :: p in s <==> p == s[0] || p in s[1..];
      if t.Some? then Some(t.value + 1) else None
  }

  /** `user_rank`: the 1-based position of `u` in the XP ranking, 0 when
      `u` has no record. Everyone ahead has at least `u`'s XP, everyone
      behind at most. */
  function UserRank(records: Records, u: UserId): (rank: nat)
    ensures rank == 0 <==> Get(records, u).None?
    ensures rank != 0 ==> rank <= |records| && Ranked(records)[rank - 1].0 == u
    ensures rank != 0 ==> forall i :: 0 <= i < rank - 1 ==> Ranked(records)[i].1.xp >= Ranked(records)[rank - 1].1.xp
    ensures rank != 0 ==> forall i :: rank - 1 < i < |records| ==> Ranked(records)[i].1.xp <= Ranked(records)[rank - 1].1.xp
  {
    var p := PositionOf(Ranked(records), u);
    if p.Some? then p.value + 1 else 0
  }

  // ---------------------------------------------------------------------
  // leaderboard, dashboard, reset_xp
  // ---------------------------------------------------------------------

  /** One line of a ranking: its 1-based position in the top ten, the member
      and the record. */
  datatype Line = Line(position: nat, user: UserId, record: Record)

  /** The first records of the ranking with their 1-based positions
      (`enumerate(top_users)`). */
  function Numbered(top: seq<(UserId, Record)>): (r: seq<Line>)
    ensures |r| == |top|
    ensures forall k :: 0 <= k < |r| ==> r[k] == Line(k + 1, top[k].0, top[k].1)
  {
    seq(|top|, k requires 0 <= k < |top| => Line(k + 1, top[k].0, top[k].1))
  }

  predicate PositionsIncrease(lines: seq<Line>)
  {
    forall k, l :: 0 <= k < l < |lines| ==> lines[k].position < lines[l].position
  }

  /** The lines whose member is still on the server (`if not member: continue`);
      a skipped member keeps its position, so positions may have gaps. */
  function KeepPresent(lines: seq<Line>, present: set<UserId>): (r: seq<Line>)
    ensures forall x :: x in r <==> x in lines && x.user in present
    ensures |r| <= |lines|
  {
    if |lines| == 0 then []
    else
      var rest := KeepPresent(lines[1..], present);
      assert forall x :: x in lines <==> x == lines[0] || x in lines[1..];
      if lines[0].user in present then [lines[0]] + rest else rest
  }

  lemma HeadBelowTail(lines: seq<Line>)
    requires |lines| > 0 && PositionsIncrease(lines)
    ensures PositionsIncrease(lines[1..])
    ensures forall x :: x in lines[1..] ==> lines[0].position < x.position
  {
    forall x | x in lines[1..] ensures lines[0].position < x.position {
      var m :| 0 <= m < |lines[1..]| && lines[1..][m] == x;
      assert lines[m + 1] == x;
    }
  }

  /** Skipping lines keeps the positions increasing. */
  lemma {:induction false} KeepPresentIncreasing(lines: seq<Line>, present: set<UserId>)
    requires PositionsIncrease(lines)
    ensures PositionsIncrease(KeepPresent(lines, present))
  {
    if |lines| > 0 {
      var rest := KeepPresent(lines[1..], present);
      HeadBelowTail(lines);
      KeepPresentIncreasing(lines[1..], present);
      if lines[0].user in present {
        ConsIncreasing(lines[0], rest);
      }
    }
  }

  lemma ConsIncreasing(x: Line, rest: seq<Line>)
    requires PositionsIncrease(rest)
    requires forall y :: y in rest ==> x.position < y.position
    ensures PositionsIncrease([x] + rest)
  {
    var r := [x] + rest;
    forall k, l | 0 <= k < l < |r| ensures r[k].position < r[l].position {
      assert r[l] == rest[l - 1];
      if k > 0 {
        assert r[k] == rest[k - 1];
      }
    }
  }

  /** The board of `leaderboard` and `dashboard`: the first ten records of
      the ranking, numbered, without the members who left the server. */
  function TopLines(records: Records, present: set<UserId>): (r: seq<Line>)
    ensures |r| <= TopCount
    ensures PositionsIncrease(r)
    ensures forall x :: x in r ==>
              1 <= x.position <= TopCount && x.position <= |records|
              && Ranked(records)[x.position - 1] == (x.user, x.record) && x.user in present
    ensures forall k :: 0 <= k < TopCount && k < |records| && Ranked(records)[k].0 in present ==>
              Line(k + 1, Ranked(records)[k].0, Ranked(records)[k].1) in r
  {
    var sorted := Ranked(records);
    var top := Top(records, Xp, TopCount);
    var lines := Numbered(top);
    var r := KeepPresent(lines, present);
    assert forall k :: 0 <= k < |top| ==> top[k] == sorted[k];
    forall x | x in r
      ensures 1 <= x.position <= |top| && sorted[x.position - 1] == (x.user, x.record)
    {
      var k :| 0 <= k < |lines| && lines[k] == x;
    }
    forall k | 0 <= k < TopCount && k < |records| && sorted[k].0 in present
      ensures Line(k + 1, sorted[k].0, sorted[k].1) in r
    {
      assert lines[k] == Line(k + 1, sorted[k].0, sorted[k].1);
    }
    KeepPresentIncreasing(lines, present);
    r
  }

  /** `leaderboard`: `None` stands for "no data for this server"; otherwise
      the lines of the first ten records of the ranking. */
  function Leaderboard(data: map<GuildId, Records>, g: GuildId, present: set<UserId>): (r: Option<seq<Line>>)
    ensures r.None? <==> g !in data || |data[g]| == 0
    ensures r.Some? ==> r.value == TopLines(data[g], present)
  {
    if g !in data || |data[g]| == 0 then None else Some(TopLines(data[g], present))
  }

  /** `dashboard`: the same top ten, refused only when the server has no
      entry at all (an empty entry gives an empty board). */
  function Dashboard(data: map<GuildId, Records>, g: GuildId, present: set<UserId>): (r: Option<seq<Line>>)
    ensures r.None? <==> g !in data
    ensures r.Some? ==> r.value == TopLines(data[g], present)
  {
    if g !in data then None else Some(TopLines(data[g], present))
  }

  /** A member on the board has at least the XP of every member ranked
      below the top ten. */
  lemma {:induction false} TopTenIsBest(records: Records, present: set<UserId>, x: Line, j: int)
    requires x in TopLines(records, present)
    requires TopCount <= j < |records|
    ensures x.record.xp >= Ranked(records)[j].1.xp
  {
    assert Ranked(records)[x.position - 1] == (x.user, x.record);
  }

  datatype ResetOutcome = NoMemberGiven | NoRecord | Reset

  /** `reset_xp`: with a member given and an existing record, the record
      becomes `{xp: 0, level: 0}` and the member loses every tier role. */
  function ResetXp(data: map<GuildId, Records>, g: GuildId, member: Option<UserId>, memberRoles: set<string>)
    : (r: (map<GuildId, Records>, set<string>, ResetOutcome))
    ensures member.None? ==> r == (data, memberRoles, NoMemberGiven)
    ensures member.Some? && Get(RecordsOf(data, g), member.value).None? ==> r == (data, memberRoles, NoRecord)
    ensures member.Some? && Get(RecordsOf(data, g), member.value).Some? ==>
              var (data', roles', outcome) := r;
              outcome == Reset
              && data'.Keys == data.Keys
              && (forall h :: h in data && h != g ==> data'[h] == data[h])
              && Get(data'[g], member.value) == Some(Fresh)
              && (forall v :: v != member.value ==> Get(data'[g], v) == Get(data[g], v))
              && |data'[g]| == |data[g]|
              && (forall name :: name in roles' <==> name in memberRoles && !IsLevelRoleName(name))
  {
    if member.None? then (data, memberRoles, NoMemberGiven)
    else if Get(RecordsOf(data, g), member.value).None? then (data, memberRoles, NoRecord)
    else
      var kept := set name | name in memberRoles && !IsLevelRoleName(name);
      (data[g := Put(data[g], member.value, Fresh)], kept, Reset)
  }

  // ---------------------------------------------------------------------
  // The help text's example
  // ---------------------------------------------------------------------

  /** The XP the help text gives as an example for a level, as written:
      "Niveau 5 = 425 XP, Niveau 10 = 1100 XP". */
  function HelpExampleXp(level: int): (xp: Option<int>)
    ensures xp.Some? <==> level == 5 || level == 10
  {
    if level == 5 then Some(425) else if level == 10 then Some(1100) else None
  }

  /** The example for level 5 is wrong: 425 XP is still level 4, and level 5
      needs 475 XP. The level-10 example agrees with the formula. */
  lemma HelpExampleDisagreesWithCurve()
    ensures HelpExampleXp(5) == Some(425) && CalculateLevel(425) == 4 && XpForLevel(5) == 475
    ensures HelpExampleXp(10) == Some(XpForLevel(10))
  {
    CalculateLevelUnique(425, 4);
  }

  /** The example the help text evidently intends: the first XP total at
      which a level is reached. */
  function CorrectedHelpExampleXp(level: int): (xp: int)
    requires level >= -5
    ensures CalculateLevel(xp) == level
    ensures xp - 1 >= -25 ==> CalculateLevel(xp - 1) < level
  {
    FirstXpOfLevel(level);
    XpForLevel(level)
  }

  lemma FirstXpOfLevel(level: int)
    requires level >= -5
    ensures CalculateLevel(XpForLevel(level)) == level
    ensures XpForLevel(level) - 1 >= -25 ==> CalculateLevel(XpForLevel(level) - 1) < level
  {
    var xp := XpForLevel(level);
    XpForLevelIncreasing(level, level + 1);
    CalculateLevelUnique(xp, level);
    if xp - 1 >= -25 {
      LevelReachedIff(xp - 1, level);
    }
  }
}

=== FILE: moderation.dfy ===
/** The moderation commands of moderation.py: the bounds of `clear`, the
    role-hierarchy guards shared by `kick`, `ban` and `mute`, the default
    reason and the fixed mute length. A member's top role is represented by
    its rank, higher meaning above. */
module Moderation {
  import opened Wrappers
  import opened Text

  const DefaultClearAmount: int := 5
  const MaxClear: int := 100
  const MuteMinutes: nat := 60

  datatype ClearOutcome = ClearRefused | Cleared(purged: nat, reported: int)

  /** `clear`: 1..100 messages, purging one more for the command itself;
      `inChannel` is how many messages the channel holds. The reply counts
      the purged messages minus the command. */
  function Clear(amount: int, inChannel: nat): (r: ClearOutcome)
    ensures r == ClearRefused <==> amount <= 0 || amount > MaxClear
    ensures r.Cleared? ==> r.purged <= amount + 1 && r.purged <= inChannel
    ensures r.Cleared? ==> (r.purged == amount + 1 || r.purged == inChannel)
    ensures r.Cleared? ==> r.reported == r.purged - 1 && r.reported <= amount
    ensures r.Cleared? && inChannel > 0 ==> r.reported >= 0
  {
    if amount <= 0 || amount > MaxClear then ClearRefused
    else
      var purged := if amount + 1 <= inChannel then amount + 1 else inChannel;
      Cleared(purged, purged - 1)
  }

  /** A bare `clear` uses the default of five: it is accepted, purges up to
      six messages and reports up to five. */
  lemma DefaultClear(inChannel: nat)
    ensures Clear(DefaultClearAmount, inChannel).Cleared?
    ensures inChannel >= DefaultClearAmount + 1 ==> Clear(DefaultClearAmount, inChannel).reported == DefaultClearAmount
    ensures inChannel <= DefaultClearAmount ==> Clear(DefaultClearAmount, inChannel).reported == inChannel - 1
  {
  }

  datatype Action = Kick | Ban | Mute

  datatype Verdict = BotTooLow | AuthorTooLow | Allowed(reason: string)

  /** The guard of `kick`, `ban` and `mute`: the bot must rank strictly above
      the target, and so must the author unless the author owns the guild;
      an empty or missing reason becomes the default one. */
  function Guard(botTop: int, authorTop: int, targetTop: int, authorIsOwner: bool, reason: Option<string>): (r: Verdict)
    ensures r == BotTooLow <==> botTop <= targetTop
    ensures r == AuthorTooLow <==> botTop > targetTop && authorTop <= targetTop && !authorIsOwner
    ensures r.Allowed? <==> botTop > targetTop && (authorTop > targetTop || authorIsOwner)
    ensures r.Allowed? ==> r.reason == OrElse(reason, DefaultReason) && r.reason != []
  {
    if !(botTop > targetTop) then BotTooLow
    else if !(authorTop > targetTop) && !authorIsOwner then AuthorTooLow
    else Allowed(OrElse(reason, DefaultReason))
  }

  /** Nobody can act on a member ranked at or above the bot, not even the
      owner; and a member can never act on an equal. */
  lemma NoActionUpward(botTop: int, authorTop: int, targetTop: int, owner: bool, reason: Option<string>)
    ensures targetTop >= botTop ==> !Guard(botTop, authorTop, targetTop, owner, reason).Allowed?
    ensures authorTop == targetTop && !owner ==> !Guard(botTop, authorTop, targetTop, owner, reason).Allowed?
  {
  }

  datatype Sanction = Sanction(action: Action, reason: string, minutes: Option<nat>)

  /** What a permitted command does: a mute always lasts sixty minutes; kick
      and ban have no duration. */
  function Apply(action: Action, botTop: int, authorTop: int, targetTop: int, authorIsOwner: bool,
                 reason: Option<string>): (r: Option<Sanction>)
    ensures r.Some? <==> Guard(botTop, authorTop, targetTop, authorIsOwner, reason).Allowed?
    ensures r.Some? ==> r.value.action == action && r.value.reason == Guard(botTop, authorTop, targetTop, authorIsOwner, reason).reason
    ensures r.Some? ==> (r.value.minutes.Some? <==> action == Mute)
    ensures r.Some? && action == Mute ==> r.value.minutes == Some(MuteMinutes)
  {
    match Guard(botTop, authorTop, targetTop, authorIsOwner, reason)
    case Allowed(why) => Some(Sanction(action, why, if action == Mute then Some(MuteMinutes) else None))
    case _ => None
  }

  /** `unmute` and `unban` check no hierarchy: only the reason is settled. */
  function Lift(reason: Option<string>): (r: string)
    ensures r != []
    ensures reason.Some? && reason.value != [] ==> r == reason.value
  {
    OrElse(reason, DefaultReason)
  }
}

=== FILE: music.dfy ===
/** The music queue of main/music.py: query normalisation, the track record
    built from an extraction result, and the queue / current-track state
    machine driven by `play`, the end-of-track callback, `stop` and
    `leave`, plus the `volume` bounds and the queue listing. Audio
    extraction and playback are outside the model: their results are
    parameters. */
module Music {
  import opened Wrappers
  import opened Text

  const SearchPrefix: string := "ytsearch:"
  const UnknownTitle: string := "Titre inconnu"
  const UnknownUploader: string := "Inconnu"
  /** The listing is cut once it passes this many characters. */
  const ListingBudget: nat := 900

  predicate IsUrl(q: string)
  {
    StartsWith(q, "http://") || StartsWith(q, "https://")
  }

  /** `play`'s query: URLs as given, anything else becomes a search. */
  function NormalizeQuery(q: string): (r: string)
    ensures IsUrl(q) ==> r == q
    ensures !IsUrl(q) ==> StartsWith(r, SearchPrefix) && r[|SearchPrefix|..] == q
    ensures IsUrl(r) <==> IsUrl(q)
  {
    if IsUrl(q) then q
    else
      var r := SearchPrefix + q;
      assert r[0] == 'y';
      r
  }

  /** The fields of one extraction result; `None` stands for a missing key. */
  datatype Info = Info(
    webpageUrl: Option<string>, title: Option<string>, thumbnail: Option<string>,
    duration: Option<int>, uploader: Option<string>, streamUrl: Option<string>)

  /** What extraction returns: one video, or a list of entries (a search or
      a playlist). */
  datatype Extracted = Single(info: Info) | Entries(entries: seq<Info>)

  datatype Track = Track(
    url: string, title: string, thumbnail: Option<string>, duration: int,
    uploader: string, streamUrl: Option<string>, requester: string)

  /** `create_source`: `None` when extraction fails (`extracted` is `None`)
      or returns no entry; otherwise the first entry with each missing
      field replaced by its default (an empty page URL falls back to the
      query). */
  function CreateSource(query: string, extracted: Option<Extracted>, requester: string): (r: Option<Track>)
    ensures extracted.None? ==> r.None?
    ensures extracted.Some? && extracted.value.Entries? ==> (r.None? <==> |extracted.value.entries| == 0)
    ensures extracted.Some? && extracted.value.Single? ==> r.Some?
    ensures r.Some? ==> r.value.requester == requester
    ensures r.Some? ==>
              var info := if extracted.value.Single? then extracted.value.info else extracted.value.entries[0];
              (r.value.title == UnknownTitle <==> info.title.None? || info.title == Some(UnknownTitle))
              && (r.value.url == query <==> info.webpageUrl.None? || info.webpageUrl.value == [] || info.webpageUrl.value == query)
              && (info.duration.None? ==> r.value.duration == 0)
              && r.value.streamUrl == info.streamUrl
    // each field is the entry's value, or its default when the key is missing
    ensures r.Some? ==>
              var info := if extracted.value.Single? then extracted.value.info else extracted.value.entries[0];
              r.value.title == info.title.GetOr(UnknownTitle)
              && r.value.url == (if info.webpageUrl.Some? && info.webpageUrl.value != [] then info.webpageUrl.value else query)
              && r.value.thumbnail == info.thumbnail
              && r.value.duration == info.duration.GetOr(0)
              && r.value.uploader == info.uploader.GetOr(UnknownUploader)
  {
    if extracted.None? then None
    else
      var info :=
        match extracted.value
        case Single(i) => Some(i)
        case Entries(es) => if |es| == 0 then None else Some(es[0]);
      if info.None? then None
      else
        var d := info.value;
        var url := if d.webpageUrl.Some? && d.webpageUrl.value != [] then d.webpageUrl.value else query;
        Some(Track(url, d.title.GetOr(UnknownTitle), d.thumbnail, d.duration.GetOr(0),
                   d.uploader.GetOr(UnknownUploader), d.streamUrl, requester))
  }

  datatype MusicState = MusicState(queue: seq<Track>, current: Option<Track>)

  datatype PlayOutcome = NotInVoice | NotFound | Queued(position: nat) | PlayingNow

  /** `play`, once the author is known to be in a voice channel: while
      something plays or waits, the track joins the tail of the queue and
      its position is the new queue length; otherwise it becomes the current
      track at once. */
  function Play(st: MusicState, authorInVoice: bool, track: Option<Track>, playing: bool): (r: (MusicState, PlayOutcome))
    ensures !authorInVoice ==> r == (st, NotInVoice)
    ensures authorInVoice && track.None? ==> r == (st, NotFound)
    ensures authorInVoice && track.Some? && (playing || |st.queue| > 0) ==>
              r.0 == MusicState(st.queue + [track.value], st.current)
              && r.1 == Queued(|r.0.queue|) && r.0.queue[r.1.position - 1] == track.value
    ensures authorInVoice && track.Some? && !playing && |st.queue| == 0 ==>
              r == (MusicState(st.queue, Some(track.value)), PlayingNow)
  {
    if !authorInVoice then (st, NotInVoice)
    else if track.None? then (st, NotFound)
    else if playing || |st.queue| > 0 then
      var q := st.queue + [track.value];
      (MusicState(q, st.current), Queued(|q|))
    else (MusicState(st.queue, Some(track.value)), PlayingNow)
  }

  /** `_song_finished`: the head of the queue becomes current (first in,
      first out); with an empty queue nothing is current any more. */
  function SongFinished(st: MusicState): (r: MusicState)
    ensures |st.queue| > 0 ==> r.current == Some(st.queue[0]) && [st.queue[0]] + r.queue == st.queue
    ensures |st.queue| == 0 ==> r == MusicState([], None)
  {
    if |st.queue| > 0 then MusicState(st.queue[1..], Some(st.queue[0]))
    else MusicState([], None)
  }

  /** Tracks queued while something plays come out in the order they went in. */
  lemma {:induction false} QueueIsFifo(st: MusicState, tracks: seq<Track>)
    ensures Drain(Enqueue(st, tracks)) == Drain(st) + tracks
    decreases |st.queue| + |tracks|
  {
    if |st.queue| > 0 {
      assert SongFinished(Enqueue(st, tracks)) == Enqueue(SongFinished(st), tracks) by {
        assert (st.queue + tracks)[1..] == st.queue[1..] + tracks;
      }
      QueueIsFifo(SongFinished(st), tracks);
      assert Drain(Enqueue(st, tracks)) == [st.queue[0]] + Drain(Enqueue(SongFinished(st), tracks));
    } else if |tracks| > 0 {
      assert st.queue + tracks == tracks;
      assert SongFinished(st).queue + tracks[1..] == tracks[1..];
      DrainIgnoresCurrent(tracks[1..], Some(tracks[0]), None);
      QueueIsFifo(SongFinished(st), tracks[1..]);
      assert Drain(Enqueue(st, tracks)) == [tracks[0]] + Drain(Enqueue(SongFinished(st), tracks[1..]));
    }
  }

  /** What is drained depends on the queue alone. */
  lemma {:induction false} DrainIgnoresCurrent(q: seq<Track>, a: Option<Track>, b: Option<Track>)
    ensures Drain(MusicState(q, a)) == Drain(MusicState(q, b))
    decreases |q|
  {
    if |q| > 0 {
      DrainIgnoresCurrent(q[1..], Some(q[0]), Some(q[0]));
    }
  }

  /** Appends tracks to the queue, as `play` does while something plays. */
  function Enqueue(st: MusicState, tracks: seq<Track>): (r: MusicState)
    ensures r.queue == st.queue + tracks && r.current == st.current
  {
    MusicState(st.queue + tracks, st.current)
  }

  /** The tracks that become current, in order, as each one finishes. */
  function Drain(st: MusicState): (r: seq<Track>)
    ensures |r| == |st.queue|
    decreases |st.queue|
  {
    if |st.queue| == 0 then [] else [st.queue[0]] + Drain(SongFinished(st))
  }

  /** `stop` and `leave`: with a voice connection, the queue is emptied and
      nothing is current; without one, nothing changes. */
  function Stop(st: MusicState, connected: bool): (r: MusicState)
    ensures connected ==> r.queue == [] && r.current.None?
    ensures !connected ==> r == st
  {
    if connected then MusicState([], None) else st
  }

  datatype VolumeOutcome = NotConnected | ShowVolume | OutOfRange | VolumeSet(percent: int)

  /** `volume`: a level is accepted only in 0..100. */
  function Volume(connected: bool, level: Option<int>): (r: VolumeOutcome)
    ensures !connected <==> r == NotConnected
    ensures connected && level.None? ==> r == ShowVolume
    ensures r.VolumeSet? <==> connected && level.Some? && 0 <= level.value <= 100
    ensures r.VolumeSet? ==> r.percent == level.value
  {
    if !connected then NotConnected
    else if level.None? then ShowVolume
    else if 0 <= level.value <= 100 then VolumeSet(level.value)
    else OutOfRange
  }

  /** `f"{minutes}:{seconds:02d}"` of `divmod(duration, 60)`; Python's
      `divmod` floors, which agrees with Dafny's division by a positive
      number. */
  function FormatDuration(duration: int): (r: string)
    ensures |r| >= 4 && r[|r| - 3] == ':'
    ensures AllDigits(r[|r| - 2..]) && DigitsValue(r[|r| - 2..]) == duration % 60
    ensures ParseInt(r[..|r| - 3]) == Some(duration / 60)
    ensures duration == (duration / 60) * 60 + DigitsValue(r[|r| - 2..])
  {
    var minutes := IntToString(duration / 60);
    var seconds := Pad2(duration % 60);
    var r := minutes + ":" + seconds;
    assert r[..|r| - 3] == minutes && r[|r| - 2..] == seconds;
    IntToStringRoundTrip(duration / 60);
    r
  }

  /** One line of the queue listing, numbered from 1. */
  function EntryLine(position: nat, t: Track): string
  {
    IntToString(position) + ". [" + t.title + "](" + t.url + ") | Demandé par " + t.requester + "\n"
  }

  /** One line per queued track, numbered from 1. */
  function EntryLines(queue: seq<Track>): (r: seq<string>)
    ensures |r| == |queue|
    ensures forall i :: 0 <= i < |r| ==> r[i] == EntryLine(i + 1, queue[i])
  {
    seq(|queue|, i requires 0 <= i < |queue| => EntryLine(i + 1, queue[i]))
  }

  /** The first `n` lines, one after the other. */
  function Joined(lines: seq<string>, n: nat): string
    requires n <= |lines|
  {
    if n == 0 then "" else Joined(lines, n - 1) + lines[n - 1]
  }

  lemma {:induction false} JoinedGrows(lines: seq<string>, a: nat, b: nat)
    requires a <= b <= |lines|
    ensures |Joined(lines, a)| <= |Joined(lines, b)|
    decreases b
  {
    if a < b {
      JoinedGrows(lines, a, b - 1);
    }
  }

  /** Every shorter prefix fits when the one just below `n` does. */
  lemma PrefixesFit(lines: seq<string>, n: nat)
    requires n <= |lines|
    requires 1 < n ==> |Joined(lines, n - 1)| <= ListingBudget
    ensures forall k :: 0 < k < n ==> |Joined(lines, k)| <= ListingBudget
  {
    forall k | 0 < k < n
      ensures |Joined(lines, k)| <= ListingBudget
    {
      JoinedGrows(lines, k, n - 1);
    }
  }

  function MoreNote(remaining: nat): string
  {
    "... et " + IntToString(remaining) + " autres musiques."
  }

  /** The "next tracks" field of `queue`: lines are added one by one; the
      first line that takes the text past 900 characters while tracks remain
      is followed by a note counting those tracks, and the listing stops. */
  method QueueListing(queue: seq<Track>) returns (text: string, shown: nat)
    ensures 0 < |queue| ==> 0 < shown
    ensures shown <= |queue|
    ensures shown == |queue| ==> text == Joined(EntryLines(queue), |queue|)
    ensures shown < |queue| ==> text == Joined(EntryLines(queue), shown) + MoreNote(|queue| - shown)
    ensures shown < |queue| ==> |Joined(EntryLines(queue), shown)| > ListingBudget
    ensures forall k :: 0 < k < shown ==> |Joined(EntryLines(queue), k)| <= ListingBudget
  {
    var lines := EntryLines(queue);
    text := "";
    shown := 0;
    while shown < |queue|
      invariant shown <= |queue|
      invariant text == Joined(lines, shown)
      invariant 1 < shown ==> |Joined(lines, shown - 1)| <= ListingBudget
      invariant 0 < shown < |queue| ==> |text| <= ListingBudget
    {
      text := text + lines[shown];
      shown := shown + 1;
      if |text| > ListingBudget && shown < |queue| {
        PrefixesFit(lines, shown);
        text := text + MoreNote(|queue| - shown);
        return;
      }
    }
    PrefixesFit(lines, shown);
  }

  datatype QueueView = EmptyQueue | Listing(current: Option<Track>, upcoming: Option<(string, nat)>)

  /** `queue`: nothing to show when no track plays or waits. */
  method ShowQueue(st: MusicState) returns (r: QueueView)
    ensures r == EmptyQueue <==> |st.queue| == 0 && st.current.None?
    ensures r.Listing? ==> r.current == st.current && (r.upcoming.None? <==> |st.queue| == 0)
    ensures r.Listing? && r.upcoming.Some? ==> 0 < r.upcoming.value.1 <= |st.queue|
  {
    if |st.queue| == 0 && st.current.None? {
      return EmptyQueue;
    }
    if |st.queue| == 0 {
      return Listing(st.current, None);
    }
    var text, shown := QueueListing(st.queue);
    return Listing(st.current, Some((text, shown)));
  }
}

=== FILE: ordered_dict.dfy ===
/** Python dictionaries whose iteration order matters (the ranking commands
    sort their items with a stable sort, and handlers take "the first entry
    that matches"), modelled as sequences of key/value pairs in insertion
    order. */
module OrderedDict {
  import opened Wrappers

  type Dict<K, V> = seq<(K, V)>

  /** Each key appears at most once. */
  predicate DistinctKeys<K(==,!new), V>(d: Dict<K, V>)
  {
    forall i, j :: 0 <= i < j < |d| ==> d[i].0 != d[j].0
  }

  /** `d.get(k)`. */
  function Get<K(==,!new), V>(d: Dict<K, V>, k: K): (r: Option<V>)
    ensures r.Some? ==> (k, r.value) in d
    ensures r.None? <==> forall p :: p in d ==> p.0 != k
  {
    if |d| == 0 then None
    else if d[0].0 == k then Some(d[0].1)
    else Get(d[1..], k)
  }

  /** `k in d`. */
  predicate HasKey<K(==,!new), V>(d: Dict<K, V>, k: K)
  {
    Get(d, k).Some?
  }

  /** `d[k] = v`: replaces the value in place, or appends the pair. */
  function Put<K(==,!new), V>(d: Dict<K, V>, k: K, v: V): (r: Dict<K, V>)
    ensures Get(r, k) == Some(v)
    ensures forall j :: j != k ==> Get(r, j) == Get(d, j)
    ensures forall p :: p in r ==> p == (k, v) || p in d
    ensures HasKey(d, k) ==> |r| == |d|
    ensures !HasKey(d, k) ==> r == d + [(k, v)]
  {
    if |d| == 0 then [(k, v)]
    else if d[0].0 == k then
      var r := [(k, v)] + d[1..];
      GetCons((k, v), d[1..]);
      assert d == [d[0]] + d[1..];
      GetCons(d[0], d[1..]);
      r
    else
      var t := Put(d[1..], k, v);
      var r := [d[0]] + t;
      GetCons(d[0], t);
      assert d == [d[0]] + d[1..];
      GetCons(d[0], d[1..]);
      r
  }

  /** Looking up in a dictionary whose first pair is `x`. */
  lemma GetCons<K(!new), V>(x: (K, V), t: Dict<K, V>)
    ensures forall j :: Get([x] + t, j) == if x.0 == j then Some(x.1) else Get(t, j)
    ensures forall p :: p in [x] + t <==> p == x || p in t
  {
    assert ([x] + t)[1..] == t;
  }

  /** Assigning to a present key keeps every key in its place. */
  lemma {:induction false} PutKeepsKeys<K(!new), V>(d: Dict<K, V>, k: K, v: V)
    requires HasKey(d, k)
    ensures |Put(d, k, v)| == |d|
    ensures forall i :: 0 <= i < |d| ==> Put(d, k, v)[i].0 == d[i].0
  {
    var r := Put(d, k, v);
    if d[0].0 == k {
      assert r == [(k, v)] + d[1..];
    } else {
      var t := Put(d[1..], k, v);
      assert r == [d[0]] + t;
      PutKeepsKeys(d[1..], k, v);
      assert forall i :: 1 <= i < |d| ==> r[i] == t[i - 1] && d[i] == d[1..][i - 1];
    }
  }

  /** Assignment keeps the keys distinct. */
  lemma PutDistinct<K(!new), V>(d: Dict<K, V>, k: K, v: V)
    requires DistinctKeys(d)
    ensures DistinctKeys(Put(d, k, v))
  {
    if HasKey(d, k) {
      PutKeepsKeys(d, k, v);
    } else {
      var r := Put(d, k, v);
      assert r == d + [(k, v)];
      forall i, j | 0 <= i < j < |r| ensures r[i].0 != r[j].0 {
        if j == |d| {
          assert r[i] == d[i] && d[i] in d;
        } else {
          assert r[i] == d[i] && r[j] == d[j];
        }
      }
    }
  }

  /** `del d[k]` when `k` is present; nothing otherwise. */
  function Remove<K(==,!new), V>(d: Dict<K, V>, k: K): (r: Dict<K, V>)
    ensures !HasKey(r, k)
    ensures DistinctKeys(d) ==> forall j :: j != k ==> Get(r, j) == Get(d, j)
    ensures forall p :: p in r ==> p in d
    ensures !HasKey(d, k) ==> r == d
  {
    if |d| == 0 then []
    else
      var t := Remove(d[1..], k);
      assert forall p :: p in d[1..] ==> p in d;
      if d[0].0 == k then
        assert DistinctKeys(d) ==> DistinctKeys(d[1..]);
        t
      else
        var r := [d[0]] + t;
        assert r[1..] == t;
        assert DistinctKeys(d) ==> DistinctKeys(d[1..]);
        r
  }
}

=== FILE: ranking.dfy ===
/** The ranking step shared by `rank`, `leaderboard`, `dashboard` and
    `topinvites`: Python's `sorted(items, key=score, reverse=True)`, a stable
    sort with the highest score first, and the slice of its first entries. */
module Ranking {

  /** Highest score first. */
  predicate SortedDesc<T>(s: seq<T>, score: T -> int)
  {
    forall i, j :: 0 <= i < j < |s| ==> score(s[i]) >= score(s[j])
  }

  /** Inserts `e` before the first entry scoring no more than it does, so
      that `e`, which came first in the input, stays ahead of its ties. */
  function Insert<T(==,!new)>(e: T, s: seq<T>, score: T -> int): (r: seq<T>)
    ensures multiset(r) == multiset(s) + multiset{e}
    ensures forall x :: x in r <==> x == e || x in s
    ensures |r| == |s| + 1
  {
    if |s| == 0 || score(s[0]) <= score(e) then [e] + s
    else
      assert s == [s[0]] + s[1..];
      [s[0]] + Insert(e, s[1..], score)
  }

  /** Inserting into a ranking keeps it a ranking. */
  lemma {:induction false} InsertSorted<T(!new)>(e: T, s: seq<T>, score: T -> int)
    requires SortedDesc(s, score)
    ensures SortedDesc(Insert(e, s, score), score)
  {
    var r := Insert(e, s, score);
    if |s| == 0 || score(s[0]) <= score(e) {
      forall i, j | 0 <= i < j < |r| ensures score(r[i]) >= score(r[j]) {
        if i == 0 { assert r[j] == s[j - 1]; }
        else { assert r[i] == s[i - 1] && r[j] == s[j - 1]; }
      }
    } else {
      var tail := Insert(e, s[1..], score);
      assert r == [s[0]] + tail;
      InsertSorted(e, s[1..], score);
      forall i, j | 0 <= i < j < |r| ensures score(r[i]) >= score(r[j]) {
        if i == 0 {
          assert r[j] in tail;
          if r[j] != e {
            assert r[j] in s[1..];
            var k :| 0 <= k < |s[1..]| && s[1..][k] == r[j];
            assert s[k + 1] == r[j];
          }
        } else {
          assert r[i] == tail[i - 1] && r[j] == tail[j - 1];
        }
      }
    }
  }

  /** `sorted(s, key=score, reverse=True)`. */
  function SortDesc<T(==,!new)>(s: seq<T>, score: T -> int): (r: seq<T>)
    ensures multiset(r) == multiset(s)
    ensures SortedDesc(r, score)
    ensures |r| == |s|
  {
    if |s| == 0 then []
    else
      assert s == [s[0]] + s[1..];
      InsertSorted(s[0], SortDesc(s[1..], score), score);
      Insert(s[0], SortDesc(s[1..], score), score)
  }

  /** The same items, in ranking order. */
  lemma SortKeepsItems<T(!new)>(s: seq<T>, score: T -> int)
    ensures forall x :: x in SortDesc(s, score) <==> x in s
  {
    var r := SortDesc(s, score);
    forall x ensures x in r <==> x in s {
      assert x in r <==> x in multiset(r);
      assert x in s <==> x in multiset(s);
    }
  }

  /** `sorted(...)[:n]`: the first `n` entries of the ranking. */
  function Top<T(==,!new)>(s: seq<T>, score: T -> int, n: nat): (r: seq<T>)
    ensures |r| == if |s| <= n then |s| else n
    ensures SortedDesc(r, score)
    ensures forall x :: x in r ==> x in s
    ensures forall i, j :: 0 <= i < |r| && |r| <= j < |s| ==> score(r[i]) >= score(SortDesc(s, score)[j])
    ensures r <= SortDesc(s, score)
  {
    var sorted := SortDesc(s, score);
    SortKeepsItems(s, score);
    if |sorted| <= n then sorted else sorted[..n]
  }
}

=== FILE: reaction_roles.dfy ===
/** The exclusive reaction-role menus of main/roles.py: one menu message per
    category, one role per emoji, and at most one role of a category per
    member. Guild roles are looked up by name, as `discord.utils.get` does,
    so a guild's roles are a map from name to colour and a member's roles a
    set of names. */
module ReactionRoles {
  import opened Wrappers
  import opened Text

  type UserId = nat
  type MessageId = nat

  /** One entry of a category: the emoji and the role it grants. */
  datatype RoleOption = RoleOption(emoji: string, name: string, color: nat)

  datatype Category = Category(name: string, options: seq<RoleOption>)

  /** `REACTION_ROLES`. */
  const Categories: seq<Category> := [
    Category("Sexe", [RoleOption("👦", "Garçon", 0x3498DB), RoleOption("👧", "Fille", 0xFF69B4)]),
    Category("Âge", [RoleOption("🔞", "Majeur", 0x9B59B6), RoleOption("🧸", "Mineur", 0x2ECC71)])
  ]

  /** The category called `name`, if it is configured. */
  function CategoryNamed(name: string): (c: Option<Category>)
    ensures c.Some? ==> c.value in Categories && c.value.name == name
    ensures c.None? ==> forall k :: 0 <= k < |Categories| ==> Categories[k].name != name
  {
    if name == "Sexe" then Some(Categories[0])
    else if name == "Âge" then Some(Categories[1])
    else None
  }

  /** The option of `cat` reached by `emoji`. */
  function OptionFor(cat: Category, emoji: string): (o: Option<RoleOption>)
    ensures o.Some? ==> o.value in cat.options && o.value.emoji == emoji
    ensures o.None? ==> forall k :: 0 <= k < |cat.options| ==> cat.options[k].emoji != emoji
  {
    OptionFrom(cat.options, emoji)
  }

  function OptionFrom(options: seq<RoleOption>, emoji: string): (o: Option<RoleOption>)
    ensures o.Some? ==> o.value in options && o.value.emoji == emoji
    ensures o.None? ==> forall k :: 0 <= k < |options| ==> options[k].emoji != emoji
  {
    if |options| == 0 then None
    else if options[0].emoji == emoji then Some(options[0])
    else OptionFrom(options[1..], emoji)
  }

  /** The role names of a category. */
  predicate InCategory(cat: Category, roleName: string)
  {
    exists k :: 0 <= k < |cat.options| && cat.options[k].name == roleName
  }

  // ---------------------------------------------------------------------
  // Menu bookkeeping (`role_message_ids`)
  // ---------------------------------------------------------------------

  /** `role_message_ids[category]`: the stored message id, as a string,
      if the entry has one. */
  datatype MenuEntry = MenuEntry(category: string, messageId: Option<string>)

  /** The category of the first entry whose stored id equals `id`. */
  function FindCategory(store: seq<MenuEntry>, id: string): (r: Option<string>)
    ensures r.Some? ==> exists k :: 0 <= k < |store| && store[k].messageId == Some(id) && store[k].category == r.value
                          && forall j :: 0 <= j < k ==> store[j].messageId != Some(id)
    ensures r.None? <==> forall k :: 0 <= k < |store| ==> store[k].messageId != Some(id)
  {
    if |store| == 0 then None
    else if store[0].messageId == Some(id) then Some(store[0].category)
    else
      var r := FindCategory(store[1..], id);
      if r.Some? then
        assert exists k :: 0 <= k < |store| && store[k].messageId == Some(id) && store[k].category == r.value
                          && forall j :: 0 <= j < k ==> store[j].messageId != Some(id) by {
          var k :| 0 <= k < |store[1..]| && store[1..][k].messageId == Some(id) && store[1..][k].category == r.value
                   && forall j :: 0 <= j < k ==> store[1..][j].messageId != Some(id);
          assert forall j :: 1 <= j < k + 1 ==> store[j] == store[1..][j - 1];
        }
        r
      else
        assert forall k :: 1 <= k < |store| ==> store[k] == store[1..][k - 1];
        r
  }

  /** `role_message_ids[category]['message_id'] = str(message.id)`: the entry
      is updated in place, or added at the end. */
  function StoreMessageId(store: seq<MenuEntry>, category: string, id: MessageId): (r: seq<MenuEntry>)
    ensures StoredId(r, category) == Some(NatToString(id))
    ensures |store| <= |r| <= |store| + 1
    ensures forall k :: 0 <= k < |store| ==> r[k].category == store[k].category
    ensures forall k :: 0 <= k < |store| && store[k].category != category ==> r[k] == store[k]
    ensures forall k :: |store| <= k < |r| ==> r[k] == MenuEntry(category, Some(NatToString(id)))
    ensures forall c :: c != category ==> StoredId(r, c) == StoredId(store, c)
  {
    if |store| == 0 then [MenuEntry(category, Some(NatToString(id)))]
    else if store[0].category == category then
      var r := [MenuEntry(category, Some(NatToString(id)))] + store[1..];
      assert r[1..] == store[1..];
      r
    else
      var rest := StoreMessageId(store[1..], category, id);
      var r := [store[0]] + rest;
      assert r[1..] == rest;
      r
  }

  /** Distinct message ids are stored as distinct strings, so the string
      lookup of the handler tells menu messages apart. */
  lemma StoredIdsDistinct(a: MessageId, b: MessageId)
    requires a != b
    ensures NatToString(a) != NatToString(b)
  {
    NatToStringRoundTrip(a);
    NatToStringRoundTrip(b);
  }

  /** After the menu of `category` is stored under message `id`, a reaction on
      message `id` is routed to `category`, provided no other category's
      entry holds the same id. */
  lemma {:induction false} StoredMenuIsFound(store: seq<MenuEntry>, category: string, id: MessageId)
    requires forall k :: 0 <= k < |store| && store[k].category != category ==> store[k].messageId != Some(NatToString(id))
    ensures FindCategory(StoreMessageId(store, category, id), NatToString(id)) == Some(category)
  {
    if |store| > 0 && store[0].category != category {
      var rest := StoreMessageId(store[1..], category, id);
      assert StoreMessageId(store, category, id)[1..] == rest;
      assert forall k :: 1 <= k < |store| ==> store[k] == store[1..][k - 1];
      StoredMenuIsFound(store[1..], category, id);
    }
  }

  /** One category of `setup_role_reactions`: an existing menu message that
      could be fetched (`reusable`) is kept; otherwise a new message `newId`
      is sent and its id stored. An empty stored id counts as none. */
  function SetupCategory(store: seq<MenuEntry>, category: string, reusable: bool, newId: MessageId): (r: seq<MenuEntry>)
    ensures StoredId(r, category).Some? && StoredId(r, category).value != ""
    ensures !(reusable && StoredId(store, category).Some? && StoredId(store, category).value != "") ==>
              StoredId(r, category) == Some(NatToString(newId))
    ensures |store| <= |r|
    ensures forall k :: 0 <= k < |store| && store[k].category != category ==> r[k] == store[k]
    ensures forall c :: c != category ==> StoredId(r, c) == StoredId(store, c)
  {
    var existing := StoredId(store, category);
    if existing.Some? && existing.value != "" && reusable then store
    else StoreMessageId(store, category, newId)
  }

  /** The menu loop of `setup_role_reactions` over `cats`, with, for each
      category, whether its stored message could be fetched and the id a
      new message would get. */
  function SetupMenus(store: seq<MenuEntry>, cats: seq<Category>, reusable: seq<bool>, newIds: seq<MessageId>): (r: seq<MenuEntry>)
    requires |reusable| == |cats| == |newIds|
    ensures forall k :: 0 <= k < |cats| ==> StoredId(r, cats[k].name).Some? && StoredId(r, cats[k].name).value != ""
    ensures forall c :: (forall k :: 0 <= k < |cats| ==> cats[k].name != c) ==> StoredId(r, c) == StoredId(store, c)
    decreases |cats|
  {
    if |cats| == 0 then store
    else
      var first := SetupCategory(store, cats[0].name, reusable[0], newIds[0]);
      var r := SetupMenus(first, cats[1..], reusable[1..], newIds[1..]);
      assert forall k :: 1 <= k < |cats| ==> cats[k] == cats[1..][k - 1];
      r
  }

  /** `role_message_ids.get(category, {}).get('message_id')`: the stored id
      of the first entry of `category`. */
  function StoredId(store: seq<MenuEntry>, category: string): (r: Option<string>)
    ensures r.Some? ==> exists k :: 0 <= k < |store| && store[k].category == category && store[k].messageId == r
  {
    if |store| == 0 then None
    else if store[0].category == category then store[0].messageId
    else
      var r := StoredId(store[1..], category);
      assert forall k :: 1 <= k < |store| ==> store[k] == store[1..][k - 1];
      r
  }

  // ---------------------------------------------------------------------
  // Role creation and assignment
  // ---------------------------------------------------------------------

  /** Creates every configured role whose name is missing from the guild;
      existing roles keep their colour. */
  function EnsureRoles(guildRoles: map<string, nat>, options: seq<RoleOption>): (r: map<string, nat>)
    ensures forall name :: name in guildRoles ==> name in r && r[name] == guildRoles[name]
    ensures forall k :: 0 <= k < |options| ==> options[k].name in r
    ensures forall name :: name in r && name !in guildRoles ==>
              exists k :: 0 <= k < |options| && options[k].name == name && r[name] == options[k].color
    decreases |options|
  {
    if |options| == 0 then guildRoles
    else
      var o := options[0];
      var g := if o.name in guildRoles then guildRoles else guildRoles[o.name := o.color];
      var r := EnsureRoles(g, options[1..]);
      assert forall k :: 1 <= k < |options| ==> options[k] == options[1..][k - 1];
      r
  }

  /** The roles change of one mapped reaction: nothing when the member already
      holds the chosen role, otherwise the category's other existing roles are
      removed and the chosen one added. */
  function Choose(memberRoles: set<string>, guildRoles: map<string, nat>, cat: Category, chosen: string): (r: set<string>)
    ensures chosen in memberRoles ==> r == memberRoles
    ensures chosen in r
    ensures chosen !in memberRoles ==>
              forall name :: InCategory(cat, name) && name != chosen && name in guildRoles ==> name !in r
    ensures forall name :: !InCategory(cat, name) && name != chosen ==> (name in r <==> name in memberRoles)
  {
    if chosen in memberRoles then memberRoles
    else
      var others := set k | 0 <= k < |cat.options| && cat.options[k].name != chosen && cat.options[k].name in guildRoles
                      :: cat.options[k].name;
      (memberRoles - others) + {chosen}
  }

  /** What a reaction event carries, with the platform lookups resolved:
      whether the guild, the member and the channel were found. */
  datatype Reaction = Reaction(
    user: UserId,
    messageId: MessageId,
    emoji: string,
    guildFound: bool,
    memberFound: bool,
    channelFound: bool)

  datatype ReactionResult = ReactionResult(
    guildRoles: map<string, nat>,
    memberRoles: set<string>,
    reactionStripped: bool)

  /** `on_raw_reaction_add`. A category name that is empty is falsy in the
      handler and treated as "no menu". */
  function OnReactionAdd(store: seq<MenuEntry>, botUser: UserId, guildRoles: map<string, nat>,
                         memberRoles: set<string>, p: Reaction): (r: ReactionResult)
    ensures p.user == botUser ==> r == ReactionResult(guildRoles, memberRoles, false)
    ensures var c := FindCategory(store, NatToString(p.messageId));
            c.None? || c.value == "" ==> r == ReactionResult(guildRoles, memberRoles, false)
    ensures !p.guildFound || !p.memberFound ==> r == ReactionResult(guildRoles, memberRoles, false)
    ensures var c := FindCategory(store, NatToString(p.messageId));
            p.user != botUser && c.Some? && c.value != "" && p.guildFound && p.memberFound ==>
              r.reactionStripped == p.channelFound
              && var cat := CategoryNamed(c.value);
                 if cat.Some? && OptionFor(cat.value, p.emoji).Some? then
                   var o := OptionFor(cat.value, p.emoji).value;
                   (o.name in guildRoles ==> r.guildRoles == guildRoles)
                   && (o.name !in guildRoles ==> r.guildRoles == guildRoles[o.name := o.color])
                   && r.memberRoles == Choose(memberRoles, r.guildRoles, cat.value, o.name)
                 else
                   r.guildRoles == guildRoles && r.memberRoles == memberRoles
  {
    if p.user == botUser then ReactionResult(guildRoles, memberRoles, false)
    else
      var c := FindCategory(store, NatToString(p.messageId));
      if c.None? || c.value == "" || !p.guildFound || !p.memberFound then ReactionResult(guildRoles, memberRoles, false)
      else
        var cat := CategoryNamed(c.value);
        if cat.Some? && OptionFor(cat.value, p.emoji).Some? then
          var o := OptionFor(cat.value, p.emoji).value;
          var g := if o.name in guildRoles then guildRoles else guildRoles[o.name := o.color];
          ReactionResult(g, Choose(memberRoles, g, cat.value, o.name), p.channelFound)
        else ReactionResult(guildRoles, memberRoles, p.channelFound)
  }

  /** `on_raw_reaction_remove` does nothing: removing a reaction never
      removes a role. */
  function OnReactionRemove(memberRoles: set<string>): (r: set<string>)
    ensures r == memberRoles
  {
    memberRoles
  }

  /** Reacting twice with the same emoji changes nothing the second time. */
  lemma ReactionIdempotent(store: seq<MenuEntry>, botUser: UserId, guildRoles: map<string, nat>,
                           memberRoles: set<string>, p: Reaction)
    ensures var once := OnReactionAdd(store, botUser, guildRoles, memberRoles, p);
            var twice := OnReactionAdd(store, botUser, once.guildRoles, once.memberRoles, p);
            twice.guildRoles == once.guildRoles && twice.memberRoles == once.memberRoles
  {
  }

  /** If a member holds at most one role of a category, then after a mapped
      reaction they hold exactly the chosen role of that category. */
  lemma ChoiceIsExclusive(memberRoles: set<string>, guildRoles: map<string, nat>, cat: Category, chosen: string)
    requires InCategory(cat, chosen)
    requires memberRoles <= guildRoles.Keys
    requires forall a, b :: a in memberRoles && b in memberRoles && InCategory(cat, a) && InCategory(cat, b) ==> a == b
    ensures var r := Choose(memberRoles, guildRoles, cat, chosen);
            forall name :: InCategory(cat, name) ==> (name in r <==> name == chosen)
  {

  }
}

=== FILE: server_log.dfy ===
/** The server log of logging.py: which events are written to the log
    channel, how that channel is found, the role diff of a member update,
    field truncation, and the small arithmetic of the join and leave
    entries. Embeds themselves are presentation and are not modelled. */
module ServerLog {
  import opened Wrappers
  import opened Text

  type GuildId = nat
  type ChannelId = nat
  type RoleId = nat

  const LogChannelName: string := "logs-serveur"
  /** An embed field holds at most this many characters. */
  const FieldLimit: nat := 1024
  const MaxPreviousNames: nat := 10
  const SecondsPerDay: nat := 86400

  /** A text field of an entry: longer text keeps its first 1021 characters
      and gains "...", so it is exactly 1024 characters long. */
  function LogField(text: string): (r: string)
    ensures |r| <= FieldLimit
    ensures |text| <= FieldLimit ==> r == text
    ensures |text| > FieldLimit ==> |r| == FieldLimit && r[..FieldLimit - 3] == text[..FieldLimit - 3]
    ensures |text| > FieldLimit ==> r[FieldLimit - 3..] == "..."
  {
    Ellipsize(text, FieldLimit, FieldLimit - 3)
  }

  /** Truncation is needed at most once. */
  lemma LogFieldIdempotent(text: string)
    ensures LogField(LogField(text)) == LogField(text)
  {
  }

  /** The optional content field of a deleted or edited message: empty
      content gives no field. */
  function ContentField(content: string): (r: Option<string>)
    ensures r.None? <==> content == []
    ensures r.Some? ==> r.value == LogField(content)
  {
    if content == [] then None else Some(LogField(content))
  }

  // ---------------------------------------------------------------------
  // The log channel
  // ---------------------------------------------------------------------

  datatype Channel = Channel(id: ChannelId, name: string)

  function FirstNamed(channels: seq<Channel>, name: string): (r: Option<nat>)
    ensures r.Some? ==> r.value < |channels| && channels[r.value].name == name
    ensures r.Some? ==> forall k :: 0 <= k < r.value ==> channels[k].name != name
    ensures r.None? ==> forall k :: 0 <= k < |channels| ==> channels[k].name != name
  {
    if |channels| == 0 then None
    else if channels[0].name == name then Some(0)
    else
      var t := FirstNamed(channels[1..], name);
      assert forall k :: 1 <= k < |channels| ==> channels[k] == channels[1..][k - 1];
      if t.Some? then Some(t.value + 1) else None
  }

  /** `get_logs_channel`: the cached channel while it exists, else the first
      text channel named "logs-serveur", which is then cached, else none. A
      stale cache entry is left in place when nothing is found. */
  function LogsChannel(cache: map<GuildId, ChannelId>, g: GuildId, channelIds: set<ChannelId>, text: seq<Channel>)
    : (r: (map<GuildId, ChannelId>, Option<ChannelId>))
    ensures g in cache && cache[g] in channelIds ==> r == (cache, Some(cache[g]))
    ensures !(g in cache && cache[g] in channelIds) ==>
              match FirstNamed(text, LogChannelName)
              case Some(k) => r == (cache[g := text[k].id], Some(text[k].id))
              case None => r == (cache, None)
    ensures r.1.Some? ==> g in r.0 && r.0[g] == r.1.value
    ensures forall h :: h != g ==> (h in r.0 <==> h in cache) && (h in cache ==> r.0[h] == cache[h])
  {
    if g in cache && cache[g] in channelIds then (cache, Some(cache[g]))
    else
      match FirstNamed(text, LogChannelName)
      case Some(k) => (cache[g := text[k].id], Some(text[k].id))
      case None => (cache, None)
  }

  /** A channel found by name is used from the cache afterwards. */
  lemma LogsChannelIsCached(cache: map<GuildId, ChannelId>, g: GuildId, channelIds: set<ChannelId>, text: seq<Channel>)
    requires LogsChannel(cache, g, channelIds, text).1.Some?
    requires LogsChannel(cache, g, channelIds, text).1.value in channelIds
    ensures var once := LogsChannel(cache, g, channelIds, text);
            LogsChannel(once.0, g, channelIds, text) == once
  {
  }

  // ---------------------------------------------------------------------
  // Which events are logged
  // ---------------------------------------------------------------------

  /** Channel creation and deletion: not without a log channel, not for the
      log channel itself. */
  function ChannelEventLogged(logs: Option<ChannelId>, channel: ChannelId): (r: bool)
    ensures logs.None? ==> !r
    ensures logs.Some? ==> (r <==> channel != logs.value)
  {
    logs.Some? && channel != logs.value
  }

  /** `on_message_delete`: not for bots, not outside guilds, not without a
      log channel, not in the log channel itself; a deletion is logged
      only where a channel event would be. */
  function DeletionLogged(authorIsBot: bool, inGuild: bool, logs: Option<ChannelId>, channel: ChannelId): (r: bool)
    ensures r <==> !authorIsBot && inGuild && ChannelEventLogged(logs, channel)
  {
    !authorIsBot && inGuild && logs.Some? && channel != logs.value
  }

  /** `on_message_edit`: as for deletions, and only when the content
      actually changed. */
  function EditLogged(authorIsBot: bool, before: string, after: string, inGuild: bool,
                      logs: Option<ChannelId>, channel: ChannelId): (r: bool)
    ensures r <==> before != after && DeletionLogged(authorIsBot, inGuild, logs, channel)
    ensures before == after ==> !r
  {
    !authorIsBot && before != after && inGuild && logs.Some? && channel != logs.value
  }

  /** Nothing that happens in the log channel is ever logged, so logging
      cannot feed on itself. */
  lemma LogChannelIsNeverLogged(authorIsBot: bool, before: string, after: string, inGuild: bool, logs: ChannelId)
    ensures !DeletionLogged(authorIsBot, inGuild, Some(logs), logs)
    ensures !EditLogged(authorIsBot, before, after, inGuild, Some(logs), logs)
    ensures !ChannelEventLogged(Some(logs), logs)
  {
  }

  // ---------------------------------------------------------------------
  // Role diff of on_member_update
  // ---------------------------------------------------------------------

  /** The entries of `xs` absent from `ys`, in `xs`'s order. */
  function Without(xs: seq<RoleId>, ys: seq<RoleId>): (r: seq<RoleId>)
    ensures forall x :: x in r <==> x in xs && x !in ys
    ensures |r| <= |xs|
  {
    if |xs| == 0 then []
    else if xs[0] in ys then Without(xs[1..], ys)
    else [xs[0]] + Without(xs[1..], ys)
  }

  /** The filter keeps order: it distributes over concatenation. */
  lemma {:induction false} WithoutKeepsOrder(a: seq<RoleId>, b: seq<RoleId>, ys: seq<RoleId>)
    ensures Without(a + b, ys) == Without(a, ys) + Without(b, ys)
    decreases |a|
  {
    if |a| > 0 {
      assert (a + b)[1..] == a[1..] + b;
      WithoutKeepsOrder(a[1..], b, ys);
    } else {
      assert a + b == b;
    }
  }

  datatype RoleChange = RoleChange(added: seq<RoleId>, removed: seq<RoleId>)

  /** The role entry of `on_member_update`, if any: added roles are those of
      `after` missing from `before`, removed roles the converse; an entry is
      written only when one of the two is non-empty. */
  function RoleDiff(before: seq<RoleId>, after: seq<RoleId>): (r: Option<RoleChange>)
    ensures r.Some? ==> r.value.added == Without(after, before) && r.value.removed == Without(before, after)
    ensures r.Some? ==> |r.value.added| > 0 || |r.value.removed| > 0
    ensures r.None? <==> (set x | x in before) == (set x | x in after)
    ensures r.Some? ==> forall x :: !(x in r.value.added && x in r.value.removed)
  {
    if before == after then None
    else
      var added := Without(after, before);
      var removed := Without(before, after);
      if |added| > 0 || |removed| > 0 then
        SetsDiffer(before, after, if |added| > 0 then added[0] else removed[0]);
        Some(RoleChange(added, removed))
      else
        assert (set x | x in before) == (set x | x in after) by {
          forall x ensures x in before <==> x in after {
          }
        }
        None
  }

  lemma SetsDiffer(a: seq<RoleId>, b: seq<RoleId>, w: RoleId)
    requires (w in a) != (w in b)
    ensures (set x | x in a) != (set x | x in b)
  {
    var sa := set x | x in a;
    var sb := set x | x in b;
    assert (w in sa) != (w in sb);
  }

  /** Applying the diff to the roles before gives the roles after, as sets. */
  lemma RoleDiffIsComplete(before: seq<RoleId>, after: seq<RoleId>)
    requires RoleDiff(before, after).Some?
    ensures var c := RoleDiff(before, after).value;
            (set x | x in after) == (set x | x in before) - (set x | x in c.removed) + (set x | x in c.added)
  {
  }

  datatype MemberUpdate = MemberUpdate(roles: Option<RoleChange>, nickChanged: bool)

  /** `on_member_update`: bots and guilds without a log channel produce no
      entry; otherwise a role entry and a nickname entry independently. */
  function MemberUpdateEntries(isBot: bool, logs: Option<ChannelId>, rolesBefore: seq<RoleId>, rolesAfter: seq<RoleId>,
                               nickBefore: Option<string>, nickAfter: Option<string>): (r: MemberUpdate)
    ensures (isBot || logs.None?) ==> r == MemberUpdate(None, false)
    ensures !isBot && logs.Some? ==> r.roles == RoleDiff(rolesBefore, rolesAfter) && (r.nickChanged <==> nickBefore != nickAfter)
  {
    if isBot || logs.None? then MemberUpdate(None, false)
    else MemberUpdate(RoleDiff(rolesBefore, rolesAfter), nickBefore != nickAfter)
  }

  // ---------------------------------------------------------------------
  // Join and leave entries
  // ---------------------------------------------------------------------

  /** `on_member_join`: an account younger than seven whole days is flagged;
      the age is counted in whole days, as a time delta's `days` is. */
  function AccountAgeDays(ageSeconds: int): (days: int)
    ensures days * SecondsPerDay <= ageSeconds < (days + 1) * SecondsPerDay
  {
    ageSeconds / SecondsPerDay
  }

  /** The flag is raised exactly below seven days of age in seconds. */
  function RecentAccount(ageSeconds: int): (r: bool)
    ensures r <==> ageSeconds < 7 * SecondsPerDay
  {
    AccountAgeDays(ageSeconds) < 7
  }

  /** The previous names listed on joining: the first ten the profile
      returns, or none at all. */
  function PreviousNames(names: seq<string>): (r: Option<seq<string>>)
    ensures r.None? <==> |names| == 0
    ensures r.Some? ==> |r.value| <= MaxPreviousNames && r.value <= names
    ensures r.Some? && |names| <= MaxPreviousNames ==> r.value == names
  {
    if |names| == 0 then None
    else if |names| <= MaxPreviousNames then Some(names)
    else Some(names[..MaxPreviousNames])
  }

  datatype Stay = Stay(days: int, hours: nat, minutes: nat)

  /** `on_member_remove`: the time spent in the guild as whole days, hours
      and minutes; a time delta keeps 0 <= seconds < 86400 beside its days,
      which is floor division. */
  function StayDuration(seconds: int): (r: Stay)
    ensures r.hours < 24 && r.minutes < 60
    ensures r.days * SecondsPerDay + r.hours * 3600 + r.minutes * 60 <= seconds
    ensures seconds < r.days * SecondsPerDay + r.hours * 3600 + r.minutes * 60 + 60
  {
    var days := seconds / SecondsPerDay;
    var rest := seconds % SecondsPerDay;
    Stay(days, rest / 3600, (rest % 3600) / 60)
  }
}

=== FILE: setup.dfy ===
/** The server setup cog of setup.py: role creation, existing-channel
    detection, the rules-acceptance reaction that turns "Non vérifié" into
    "Membre", the emoji role menu, and the two confirmation dialogues. */
module Setup {
  import opened Wrappers
  import opened Text

  type RoleName = string

  const QueenRole: RoleName := "✦ ꒰ Nini Queen ꒱"
  const UnverifiedRole: RoleName := "Non vérifié"
  const MemberRole: RoleName := "Membre"
  const RulesChannel: string := "📖・règlement"
  const Accept: string := "✅"

  // ---------------------------------------------------------------------
  // Roles
  // ---------------------------------------------------------------------

  datatype Permissions = Permissions(
    kick: bool, ban: bool, manageMessages: bool, mute: bool, deafen: bool,
    move: bool, manageNicknames: bool, manageChannels: bool, administrator: bool)

  const NoPermissions := Permissions(false, false, false, false, false, false, false, false, false)

  /** The permissions a configured role is created with: none for ordinary
      roles, the moderation set for staff roles, and channel management
      plus administrator only for the queen role. */
  function RolePermissions(name: RoleName, staff: bool): (p: Permissions)
    ensures !staff ==> p == NoPermissions
    ensures staff ==> p.kick && p.ban && p.manageMessages && p.mute && p.deafen && p.move && p.manageNicknames
    ensures p.manageChannels <==> staff && name == QueenRole
    ensures p.administrator <==> staff && name == QueenRole
  {
    if !staff then NoPermissions
    else Permissions(true, true, true, true, true, true, true, name == QueenRole, name == QueenRole)
  }

  /** A configured role: its name and whether it is a staff role. */
  datatype RoleSpec = RoleSpec(name: RoleName, staff: bool)

  predicate DistinctNames(config: seq<RoleSpec>)
  {
    forall i, j :: 0 <= i < j < |config| ==> config[i].name != config[j].name
  }

  /** `_create_roles`: every configured role whose name is not already on
      the server is created, in configuration order, with its permissions. */
  function CreateRoles(existing: set<RoleName>, config: seq<RoleSpec>): (r: seq<(RoleName, Permissions)>)
    ensures forall x :: x in r ==> x.0 !in existing
    ensures forall s :: s in config && s.name !in existing ==> (s.name, RolePermissions(s.name, s.staff)) in r
    ensures forall x :: x in r ==> exists s :: s in config && x == (s.name, RolePermissions(s.name, s.staff))
  {
    if |config| == 0 then []
    else
      var rest := CreateRoles(existing, config[1..]);
      assert forall s :: s in config[1..] ==> s in config;
      var s := config[0];
      if s.name in existing then rest else [(s.name, RolePermissions(s.name, s.staff))] + rest
  }

  function CreatedNames(created: seq<(RoleName, Permissions)>): (r: set<RoleName>)
    ensures forall n :: n in r <==> exists x :: x in created && x.0 == n
  {
    set x | x in created :: x.0
  }

  /** Running the setup again creates nothing new. */
  lemma SetupIsIdempotent(existing: set<RoleName>, config: seq<RoleSpec>)
    ensures CreateRoles(existing + CreatedNames(CreateRoles(existing, config)), config) == []
  {
    var after := existing + CreatedNames(CreateRoles(existing, config));
    forall s | s in config ensures s.name in after {
      if s.name !in existing {
        assert (s.name, RolePermissions(s.name, s.staff)) in CreateRoles(existing, config);
      }
    }
    NothingLeftToCreate(after, config);
  }

  /** A server that already has every configured role gets none created. */
  lemma {:induction false} NothingLeftToCreate(existing: set<RoleName>, config: seq<RoleSpec>)
    requires forall s :: s in config ==> s.name in existing
    ensures CreateRoles(existing, config) == []
  {
    if |config| > 0 {
      assert forall s :: s in config[1..] ==> s in config;
      NothingLeftToCreate(existing, config[1..]);
    }
  }

  // ---------------------------------------------------------------------
  // Channels
  // ---------------------------------------------------------------------

  /** Discord shows "・" as "-" in channel names. */
  function Normalize(name: string): (r: string)
    ensures |r| == |name|
    ensures forall i :: 0 <= i < |name| ==> r[i] == (if name[i] == '・' then '-' else name[i])
  {
    if |name| == 0 then [] else [if name[0] == '・' then '-' else name[0]] + Normalize(name[1..])
  }

  lemma NormalizeIsIdempotent(name: string)
    ensures Normalize(Normalize(name)) == Normalize(name)
  {
  }

  /** A configured channel is skipped when its normalised name is already in
      the category. */
  function ChannelExists(category: seq<string>, name: string): (r: bool)
    ensures r <==> exists i :: 0 <= i < |category| && category[i] == Normalize(name)
  {
    Normalize(name) in category
  }

  /** When the configured name contains "・" the lookup searches for a name
      different from the configured one: a channel kept under the configured
      spelling is not recognised. */
  lemma DottedNameIsNeverFoundVerbatim(name: string, i: nat)
    requires i < |name| && name[i] == '・'
    ensures Normalize(name) != name
  {
    assert Normalize(name)[i] == '-';
  }

  // ---------------------------------------------------------------------
  // Reactions
  // ---------------------------------------------------------------------

  /** The emoji menu: 🌸 ✨ ☁ ⋆ and nothing else. */
  function MenuRole(emoji: string): (r: Option<RoleName>)
    ensures r.Some? <==> emoji in {"🌸", "✨", "☁", "⋆"}
  {
    if emoji == "🌸" then Some("🌸 Créatif.ve")
    else if emoji == "✨" then Some("✨ Gamer")
    else if emoji == "☁" then Some("☁ Chillax")
    else if emoji == "⋆" then Some("⋆ Baby Nini")
    else None
  }

  lemma MenuRolesAreDistinct(a: string, b: string)
    requires MenuRole(a).Some? && MenuRole(b).Some? && a != b
    ensures MenuRole(a) != MenuRole(b)
  {
  }

  datatype Reaction = Reaction(user: nat, channelName: string, emoji: string)

  /** What the guild and the reacting member hold. The member is `None` when
      the guild no longer knows them. */
  datatype GuildRoles = GuildRoles(roles: set<RoleName>, member: Option<set<RoleName>>)

  predicate IsRulesAcceptance(ev: Reaction)
  {
    ev.channelName == RulesChannel && ev.emoji == Accept
  }

  /** `on_raw_reaction_add`. The bot's own reactions are ignored. A ✅ in
      the rules channel drops "Non vérifié" and grants "Membre", creating
      that role if needed; any other channel uses the emoji menu, on any
      message, when the role exists. */
  function OnReactionAdd(g: GuildRoles, ev: Reaction, botId: nat): (r: GuildRoles)
    ensures ev.user == botId || g.member.None? ==> r == g
    ensures ev.user != botId && g.member.Some? && IsRulesAcceptance(ev) ==>
              r.roles == g.roles + {MemberRole} && r.member.Some?
              && MemberRole in r.member.value
              && (UnverifiedRole in g.roles ==> UnverifiedRole !in r.member.value)
              && (forall x :: x in g.member.value && x != UnverifiedRole ==> x in r.member.value)
              && r.member.value <= g.member.value + {MemberRole}
    ensures ev.user != botId && !IsRulesAcceptance(ev) ==>
              r.roles == g.roles
              && (MenuRole(ev.emoji).Some? && MenuRole(ev.emoji).value in g.roles && g.member.Some? ==>
                    r.member == Some(g.member.value + {MenuRole(ev.emoji).value}))
              && (MenuRole(ev.emoji).None? || MenuRole(ev.emoji).value !in g.roles ==> r == g)
  {
    if ev.user == botId || g.member.None? then g
    else if IsRulesAcceptance(ev) then
      var held := g.member.value;
      var kept := if UnverifiedRole in g.roles && UnverifiedRole in held then held - {UnverifiedRole} else held;
      GuildRoles(g.roles + {MemberRole}, Some(kept + {MemberRole}))
    else
      match MenuRole(ev.emoji)
      case None => g
      case Some(role) =>
        if role !in g.roles then g
        else GuildRoles(g.roles, Some(g.member.value + {role}))
  }

  /** `on_raw_reaction_remove`: withdrawing the rules ✅ changes nothing,
      and a menu emoji revokes its role. */
  function OnReactionRemove(g: GuildRoles, ev: Reaction, botId: nat): (r: GuildRoles)
    ensures ev.user == botId || g.member.None? || IsRulesAcceptance(ev) ==> r == g
    ensures r.roles == g.roles
    ensures ev.user != botId && g.member.Some? && !IsRulesAcceptance(ev)
              && MenuRole(ev.emoji).Some? && MenuRole(ev.emoji).value in g.roles ==>
              r.member == Some(g.member.value - {MenuRole(ev.emoji).value})
    ensures MenuRole(ev.emoji).None? ==> r == g
  {
    if ev.user == botId || g.member.None? || IsRulesAcceptance(ev) then g
    else
      match MenuRole(ev.emoji)
      case None => g
      case Some(role) =>
        if role !in g.roles then g
        else GuildRoles(g.roles, Some(g.member.value - {role}))
  }

  /** Accepting the rules and then withdrawing the ✅ keeps "Membre". */
  lemma AcceptanceIsNotRevoked(g: GuildRoles, ev: Reaction, botId: nat)
    requires ev.user != botId && g.member.Some? && IsRulesAcceptance(ev)
    ensures var after := OnReactionRemove(OnReactionAdd(g, ev, botId), ev, botId);
            after.member.Some? && MemberRole in after.member.value
            && (UnverifiedRole in g.roles ==> UnverifiedRole !in after.member.value)
  {
  }

  /** Adding and then removing a menu reaction gives back the member's roles
      when they did not hold that role before. */
  lemma MenuReactionRoundTrip(g: GuildRoles, ev: Reaction, botId: nat)
    requires ev.user != botId && g.member.Some? && !IsRulesAcceptance(ev)
    requires MenuRole(ev.emoji).Some? ==> MenuRole(ev.emoji).value !in g.member.value
    ensures OnReactionRemove(OnReactionAdd(g, ev, botId), ev, botId) == g
  {
    if MenuRole(ev.emoji).Some? && MenuRole(ev.emoji).value in g.roles {
      var role := MenuRole(ev.emoji).value;
      assert g.member.value + {role} - {role} == g.member.value;
    }
  }

  // ---------------------------------------------------------------------
  // Confirmations
  // ---------------------------------------------------------------------

  datatype Answer = Proceed | Cancel | Timeout

  /** A reply the confirmation wait accepts. */
  predicate Decisive(reply: string)
  {
    Lower(reply) == "oui" || Lower(reply) == "non"
  }

  /** The position of the first accepted reply. */
  function FirstDecisive(replies: seq<string>): (r: Option<nat>)
    ensures r.None? <==> forall i :: 0 <= i < |replies| ==> !Decisive(replies[i])
    ensures r.Some? ==> r.value < |replies| && Decisive(replies[r.value])
                        && forall j :: 0 <= j < r.value ==> !Decisive(replies[j])
  {
    if |replies| == 0 then None
    else if Decisive(replies[0]) then Some(0)
    else
      var t := FirstDecisive(replies[1..]);
      assert forall i :: 1 <= i < |replies| ==> replies[i] == replies[1..][i - 1];
      if t.Some? then Some(t.value + 1) else None
  }

  /** `setup_ninis`' confirmation: only the author's "oui" or "non" in the
      same channel counts, in any case; the first such reply decides and no
      reply within the wait times out. `replies` are the author's messages
      in that channel before the deadline. */
  function Confirm(replies: seq<string>): (r: Answer)
    ensures r == Timeout <==> forall i :: 0 <= i < |replies| ==> !Decisive(replies[i])
    ensures r == Proceed <==> exists i :: 0 <= i < |replies| && Lower(replies[i]) == "oui"
                                        && forall j :: 0 <= j < i ==> !Decisive(replies[j])
  {
    var k := FirstDecisive(replies);
    if k.None? then Timeout
    else
      assert forall i :: 0 <= i < |replies| && Lower(replies[i]) == "oui" && (forall j :: 0 <= j < i ==> !Decisive(replies[j]))
                         ==> i == k.value;
      if Lower(replies[k.value]) == "oui" then Proceed else Cancel
  }

  const CodeAlphabet: string := "ABCDEFGHIJKLMNOPQRSTUVWXYZ0123456789"
  const CodeLength: nat := 6

  /** `random.choices(ascii_uppercase + digits, k=6)`; each pick selects one
      character of the alphabet. */
  function ResetCode(picks: seq<nat>): (code: string)
    requires |picks| == CodeLength
    ensures |code| == CodeLength
    ensures forall i :: 0 <= i < |code| ==> code[i] in CodeAlphabet
  {
    seq(CodeLength, i requires 0 <= i < CodeLength => CodeAlphabet[picks[i] % |CodeAlphabet|])
  }

  datatype ResetAnswer = ResetCancelled | ResetTimedOut | ResetConfirmed

  /** A reply `reset_server`'s wait accepts: the exact code, or "annuler"
      in any case. */
  predicate ResetDecisive(code: string, reply: string)
  {
    reply == code || Lower(reply) == "annuler"
  }

  /** The position of the first reply the reset wait accepts. */
  function FirstResetDecisive(code: string, replies: seq<string>): (r: Option<nat>)
    ensures r.None? <==> forall i :: 0 <= i < |replies| ==> !ResetDecisive(code, replies[i])
    ensures r.Some? ==> r.value < |replies| && ResetDecisive(code, replies[r.value])
                        && forall j :: 0 <= j < r.value ==> !ResetDecisive(code, replies[j])
  {
    if |replies| == 0 then None
    else if ResetDecisive(code, replies[0]) then Some(0)
    else
      var t := FirstResetDecisive(code, replies[1..]);
      assert forall i :: 1 <= i < |replies| ==> replies[i] == replies[1..][i - 1];
      if t.Some? then Some(t.value + 1) else None
  }

  /** `reset_server`'s dialogue: the first reply that is the code or
      "annuler" (in any case) decides, "annuler" being tested first; no such
      reply within the wait times out. */
  function ResetDialogue(code: string, replies: seq<string>): (r: ResetAnswer)
    ensures r == ResetTimedOut <==> forall i :: 0 <= i < |replies| ==> replies[i] != code && Lower(replies[i]) != "annuler"
    ensures r == ResetCancelled <==> exists i :: 0 <= i < |replies| && Lower(replies[i]) == "annuler"
                                               && forall j :: 0 <= j < i ==> !ResetDecisive(code, replies[j])
    ensures r == ResetConfirmed <==> exists i :: 0 <= i < |replies| && replies[i] == code && Lower(replies[i]) != "annuler"
                                               && forall j :: 0 <= j < i ==> !ResetDecisive(code, replies[j])
  {
    var k := FirstResetDecisive(code, replies);
    if k.None? then ResetTimedOut
    else
      assert forall i :: (0 <= i < |replies| && ResetDecisive(code, replies[i])
                          && (forall j :: 0 <= j < i ==> !ResetDecisive(code, replies[j]))) ==> i == k.value;
      if Lower(replies[k.value]) == "annuler" then ResetCancelled else ResetConfirmed
  }

  /** The server after `reset_server`: whatever the answer, no channel and
      no role is deleted. */
  function ResetServer(channels: set<string>, roles: set<RoleName>, code: string, replies: seq<string>): (r: (ResetAnswer, set<string>, set<RoleName>))
    ensures r.0 == ResetDialogue(code, replies)
    ensures r.1 == channels && r.2 == roles
  {
    (ResetDialogue(code, replies), channels, roles)
  }
}

=== FILE: text.dfy ===
/** String helpers shared by the handlers: substring search, prefix tests,
    lower-casing, decimal rendering and the "cut and add an ellipsis" rule
    that several embeds apply to long fields. Strings are `seq<char>`. */
module Text {
  import opened Wrappers

  /** `pat` occurs in `s` starting at index `i`. */
  predicate OccursAt(s: string, pat: string, i: nat)
  {
    i + |pat| <= |s| && s[i..i + |pat|] == pat
  }

  /** Python's `pat in s`. */
  predicate Contains(s: string, pat: string)
  {
    exists i: nat :: i <= |s| && OccursAt(s, pat, i)
  }

  /** Python's `s.startswith(p)`. */
  predicate StartsWith(s: string, p: string)
  {
    |p| <= |s| && s[..|p|] == p
  }

  /** Index of the first occurrence of `pat` in `s` at or after `from`. */
  function FindFrom(s: string, pat: string, from: nat): (r: Option<nat>)
    requires from <= |s|
    ensures r.Some? ==> from <= r.value <= |s| && OccursAt(s, pat, r.value)
    ensures r.Some? ==> forall j: nat :: from <= j < r.value ==> !OccursAt(s, pat, j)
    ensures r.None? ==> forall j: nat :: from <= j <= |s| ==> !OccursAt(s, pat, j)
    decreases |s| - from
  {
    if OccursAt(s, pat, from) then Some(from)
    else if from == |s| then None
    else FindFrom(s, pat, from + 1)
  }

  /** Python's `s.find(pat)`, with `None` in place of -1. */
  function Find(s: string, pat: string): (r: Option<nat>)
    ensures r.Some? <==> Contains(s, pat)
    ensures r.Some? ==> OccursAt(s, pat, r.value)
    ensures r.Some? ==> forall j: nat :: j < r.value ==> !OccursAt(s, pat, j)
  {
    FindFrom(s, pat, 0)
  }

  /** Python's `str.lower` on one character, for ASCII and the Latin-1
      capitals (À..Þ except ×); every other character is left alone. */
  function LowerChar(c: char): (r: char)
    ensures 'A' <= c <= 'Z' ==> r as int == c as int + 32
    ensures !('A' <= c <= 'Z') && !('À' <= c <= 'Þ') ==> r == c
  {
    if 'A' <= c <= 'Z' || ('À' <= c <= 'Þ' && c != '×') then (c as int + 32) as char else c
  }

  /** Python's `str.lower`, character by character. */
  function Lower(s: string): (r: string)
    ensures |r| == |s|
    ensures forall i :: 0 <= i < |s| ==> r[i] == LowerChar(s[i])
  {
    if |s| == 0 then [] else [LowerChar(s[0])] + Lower(s[1..])
  }

  predicate IsDigit(c: char)
  {
    '0' <= c <= '9'
  }

  predicate AllDigits(s: string)
  {
    forall i :: 0 <= i < |s| ==> IsDigit(s[i])
  }

  function DigitChar(d: nat): (c: char)
    requires d < 10
    ensures IsDigit(c) && c as int - '0' as int == d
  {
    ('0' as int + d) as char
  }

  /** The decimal value of a string of digits (most significant first). */
  function DigitsValue(s: string): nat
    requires AllDigits(s)
  {
    if |s| == 0 then 0 else DigitsValue(s[..|s| - 1]) * 10 + (s[|s| - 1] as int - '0' as int)
  }

  /** Python's `str(n)` for a natural number. */
  function NatToString(n: nat): (s: string)
    ensures 1 <= |s|
    ensures AllDigits(s)
    ensures |s| > 1 ==> s[0] != '0'
    decreases n
  {
    if n < 10 then [DigitChar(n)] else NatToString(n / 10) + [DigitChar(n % 10)]
  }

  /** Rendering a number and reading it back gives the number. */
  lemma {:induction false} NatToStringRoundTrip(n: nat)
    ensures DigitsValue(NatToString(n)) == n
    decreases n
  {
    if n >= 10 {
      var s := NatToString(n);
      assert s[..|s| - 1] == NatToString(n / 10);
      NatToStringRoundTrip(n / 10);
    }
  }

  /** The length of the run of digits `s` starts with. */
  function LeadingDigits(s: string): (n: nat)
    ensures n <= |s| && AllDigits(s[..n])
    ensures n < |s| ==> !IsDigit(s[n])
  {
    if |s| == 0 || !IsDigit(s[0]) then 0
    else
      var t := LeadingDigits(s[1..]);
      assert s[..t + 1] == [s[0]] + s[1..][..t];
      t + 1
  }

  /** Digits followed by a non-digit: the run is exactly the digits. */
  lemma {:induction false} LeadingDigitsOf(d: string, rest: string)
    requires AllDigits(d)
    requires |rest| > 0 && !IsDigit(rest[0])
    ensures LeadingDigits(d + rest) == |d|
    decreases |d|
  {
    if |d| > 0 {
      assert (d + rest)[1..] == d[1..] + rest;
      LeadingDigitsOf(d[1..], rest);
    } else {
      assert d + rest == rest;
    }
  }

  /** A number followed by `unit`: the number and what comes after the unit;
      `None` when there are no digits or the unit does not follow them. */
  function ReadNumber(s: string, unit: string): (r: Option<(nat, string)>)
    ensures r.Some? ==> |r.value.1| < |s|
  {
    var n := LeadingDigits(s);
    if n == 0 || !StartsWith(s[n..], unit) then None
    else Some((DigitsValue(s[..n]), s[n + |unit|..]))
  }

  /** Reading back a rendered number and its unit. */
  lemma ReadNumberOf(n: nat, unit: string, rest: string)
    requires |unit| > 0 && !IsDigit(unit[0])
    ensures ReadNumber(NatToString(n) + (unit + rest), unit) == Some((n, rest))
  {
    var d := NatToString(n);
    var s := d + (unit + rest);
    LeadingDigitsOf(d, unit + rest);
    assert s[..|d|] == d && s[|d|..] == unit + rest;
    assert (unit + rest)[..|unit|] == unit;
    assert s[|d| + |unit|..] == rest;
    NatToStringRoundTrip(n);
  }

  /** Python's `str(i)` for any integer. */
  function IntToString(i: int): (s: string)
    ensures i >= 0 ==> s == NatToString(i)
    ensures i < 0 ==> s == "-" + NatToString(-i)
  {
    if i >= 0 then NatToString(i) else "-" + NatToString(-i)
  }

  /** An optional sign followed by at least one digit. */
  predicate IntLiteral(s: string)
  {
    (|s| > 0 && AllDigits(s))
    || (|s| > 1 && (s[0] == '-' || s[0] == '+') && AllDigits(s[1..]))
  }

  /** Python's `int(s)` on a decimal literal; `None` where it raises
      `ValueError`. */
  function ParseInt(s: string): (r: Option<int>)
    ensures r.Some? <==> IntLiteral(s)
    ensures r.Some? && s[0] == '-' ==> r.value <= 0
    ensures r.Some? && s[0] != '-' ==> r.value >= 0
  {
    if |s| > 0 && AllDigits(s) then Some(DigitsValue(s))
    else if |s| > 1 && (s[0] == '-' || s[0] == '+') && AllDigits(s[1..]) then
      var v: int := DigitsValue(s[1..]);
      if s[0] == '-' then Some(-v) else Some(v)
    else None
  }

  /** Reading back a rendered integer gives the integer. */
  lemma IntToStringRoundTrip(i: int)
    ensures ParseInt(IntToString(i)) == Some(i)
  {
    if i >= 0 {
      NatToStringRoundTrip(i);
    } else {
      var s := IntToString(i);
      assert s[1..] == NatToString(-i);
      assert !IsDigit(s[0]);
      NatToStringRoundTrip(-i);
    }
  }

  /** Python's `f"{n:02d}"` for a natural number. */
  function Pad2(n: nat): (s: string)
    ensures AllDigits(s)
    ensures n < 100 ==> |s| == 2 && DigitsValue(s) == n
  {
    if n < 100 then
      var s := [DigitChar(n / 10), DigitChar(n % 10)];
      assert s[..1] == [DigitChar(n / 10)] && s[..0] == [];
      assert DigitsValue(s[..1]) == n / 10;
      s
    else NatToString(n)
  }

  /** The rule `text[:keep] + "..." if len(text) > limit else text`. */
  function Ellipsize(text: string, limit: nat, keep: nat): (r: string)
    requires keep <= limit
    ensures |text| <= limit ==> r == text
    ensures |text| > limit ==> |r| == keep + 3 && StartsWith(r, text[..keep]) && r[keep..] == "..."
  {
    if |text| > limit then text[..keep] + "..." else text
  }

  /** Python's `s or fallback` for an optional string: a missing or empty
      string gives the fallback. */
  function OrElse(s: Option<string>, fallback: string): (r: string)
    ensures s.Some? && s.value != [] ==> r == s.value
    ensures s.None? || s.value == [] ==> r == fallback
  {
    if s.Some? && s.value != [] then s.value else fallback
  }

  /** The reason recorded when a moderator gives none. */
  const DefaultReason: string := "Aucune raison spécifiée"

  /** The plural suffix used in counters: "s" exactly when the count exceeds one. */
  function PluralS(count: int): (r: string)
    ensures r == "s" <==> count > 1
    ensures r == "" <==> count <= 1
  {
    if count > 1 then "s" else ""
  }
}

=== FILE: tiktok.dfy ===
/** TikTok notifications of tiktok.py: the registry of followed members,
    the simulated account check with its baseline timestamps and one-time
    live demonstration, the check interval, and the choice of channel a
    notification goes to. Keys are member ids as strings, as in the
    source's maps. The clock is a parameter. */
module TikTok {
  import opened Wrappers
  import opened Text
  import opened OrderedDict

  type MemberId = nat

  /** The only account the registry ever records. */
  const FixedAccount: string := "yannlln"
  const DefaultInterval: nat := 300
  const NotificationChannel: string := "📱・notifications-tiktok"

  datatype TikTokState = TikTokState(
    usernames: Dict<string, string>,
    lastVideo: map<string, int>,
    live: map<string, bool>,
    interval: nat)

  /** The notifications a check sends. */
  datatype Notices = Notices(newVideo: bool, liveDemo: bool)

  /** `check_account` for the member keyed `key` at time `now`. */
  function CheckAccount(st: TikTokState, key: string, verbose: bool, now: int): (r: (TikTokState, Notices))
    // first check: the current time becomes the baseline
    ensures key !in st.lastVideo ==> r.0.lastVideo == st.lastVideo[key := now] && !r.1.newVideo
    // later checks never touch the baseline
    ensures key in st.lastVideo ==> r.0.lastVideo == st.lastVideo
    ensures r.1.newVideo <==> verbose && key in st.lastVideo && st.lastVideo[key] == now
    // the live demonstration fires once, in verbose mode, and leaves the flag false
    ensures r.1.liveDemo <==> verbose && key !in st.live
    ensures r.1.liveDemo ==> r.0.live == st.live[key := false]
    ensures !r.1.liveDemo ==> r.0.live == st.live
    ensures r.0.usernames == st.usernames && r.0.interval == st.interval
  {
    var firstCheck := key !in st.lastVideo;
    var lastVideo := if firstCheck then st.lastVideo[key := now] else st.lastVideo;
    var newVideo := !firstCheck && verbose && st.lastVideo[key] == now;
    var liveDemo := verbose && key !in st.live;
    var live := if liveDemo then st.live[key := false] else st.live;
    (TikTokState(st.usernames, lastVideo, live, st.interval), Notices(newVideo, liveDemo))
  }

  /** Without verbose mode a check never notifies. */
  lemma QuietChecksNeverNotify(st: TikTokState, key: string, now: int)
    ensures CheckAccount(st, key, false, now).1 == Notices(false, false)
  {
  }

  /** The live demonstration fires at most once per account. */
  lemma LiveDemoOnce(st: TikTokState, key: string, v1: bool, v2: bool, t1: int, t2: int)
    ensures CheckAccount(CheckAccount(st, key, v1, t1).0, key, v2, t2).1.liveDemo ==> !CheckAccount(st, key, v1, t1).1.liveDemo
    ensures key in CheckAccount(st, key, true, t1).0.live
  {
  }

  /** A new-video notice needs a baseline already stored that equals the
      current time: the first check never announces, and a second one does
      only within the same second. */
  lemma NewVideoNeedsSameSecond(st: TikTokState, key: string, t1: int, t2: int)
    requires key !in st.lastVideo
    ensures !CheckAccount(st, key, true, t1).1.newVideo
    ensures CheckAccount(CheckAccount(st, key, true, t1).0, key, true, t2).1.newVideo <==> t1 == t2
  {
  }

  /** `set_tiktok`: records the fixed account for the member, whatever was
      asked, then checks it at once in verbose mode. */
  function SetTikTok(st: TikTokState, member: MemberId, now: int): (r: (TikTokState, Notices))
    ensures Get(r.0.usernames, NatToString(member)) == Some(FixedAccount)
    ensures forall k :: k != NatToString(member) ==> Get(r.0.usernames, k) == Get(st.usernames, k)
    ensures NatToString(member) in r.0.lastVideo
    ensures r.1.liveDemo <==> NatToString(member) !in st.live
  {
    var key := NatToString(member);
    CheckAccount(TikTokState(Put(st.usernames, key, FixedAccount), st.lastVideo, st.live, st.interval), key, true, now)
  }

  datatype RemoveOutcome = Removed(account: string) | NotRegistered

  /** `remove_tiktok`: forgets the member in all three maps; an unregistered
      member changes nothing. */
  function RemoveTikTok(st: TikTokState, member: MemberId): (r: (TikTokState, RemoveOutcome))
    ensures !HasKey(st.usernames, NatToString(member)) <==> r.1 == NotRegistered
    ensures r.1 == NotRegistered ==> r.0 == st
    ensures r.1.Removed? ==>
              Get(st.usernames, NatToString(member)) == Some(r.1.account)
              && !HasKey(r.0.usernames, NatToString(member))
              && r.0.lastVideo == st.lastVideo - {NatToString(member)}
              && r.0.live == st.live - {NatToString(member)}
    ensures DistinctKeys(st.usernames) ==>
              forall k :: k != NatToString(member) ==> Get(r.0.usernames, k) == Get(st.usernames, k)
  {
    var key := NatToString(member);
    match Get(st.usernames, key)
    case None => (st, NotRegistered)
    case Some(account) =>
      (TikTokState(Remove(st.usernames, key), st.lastVideo - {key}, st.live - {key}, st.interval), Removed(account))
  }

  /** `set_tiktok_interval`: at least one minute, stored in seconds. */
  function SetInterval(st: TikTokState, minutes: int): (r: Option<TikTokState>)
    ensures r.None? <==> minutes < 1
    ensures r.Some? ==> r.value.interval == minutes * 60 && r.value.interval >= 60
    ensures r.Some? ==> r.value.usernames == st.usernames && r.value.lastVideo == st.lastVideo && r.value.live == st.live
  {
    if minutes < 1 then None else Some(TikTokState(st.usernames, st.lastVideo, st.live, minutes * 60))
  }

  /** `check_all_accounts`: every registered member in registration order,
      each at its own time. */
  function CheckAll(st: TikTokState, keys: seq<string>, verbose: bool, times: seq<int>): (r: TikTokState)
    requires |times| == |keys|
    ensures r.usernames == st.usernames && r.interval == st.interval
    ensures forall k :: k in st.lastVideo ==> k in r.lastVideo && r.lastVideo[k] == st.lastVideo[k]
    ensures forall i :: 0 <= i < |keys| ==> keys[i] in r.lastVideo
    ensures !verbose ==> r.live == st.live
    decreases |keys|
  {
    if |keys| == 0 then st
    else
      var r := CheckAll(CheckAccount(st, keys[0], verbose, times[0]).0, keys[1..], verbose, times[1..]);
      assert forall i :: 1 <= i < |keys| ==> keys[i] == keys[1..][i - 1];
      r
  }

  /** The registered keys, in the registry's order. */
  function Keys(d: Dict<string, string>): (r: seq<string>)
    ensures |r| == |d|
    ensures forall i :: 0 <= i < |d| ==> r[i] == d[i].0
  {
    if |d| == 0 then [] else [d[0].0] + Keys(d[1..])
  }

  /** A periodic check leaves every registered account with a baseline. */
  lemma PeriodicCheckSetsBaselines(st: TikTokState, verbose: bool, times: seq<int>)
    requires |times| == |st.usernames|
    ensures forall k :: HasKey(st.usernames, k) ==> k in CheckAll(st, Keys(st.usernames), verbose, times).lastVideo
  {
    var r := CheckAll(st, Keys(st.usernames), verbose, times);
    forall k | HasKey(st.usernames, k) ensures k in r.lastVideo {
      var i :| 0 <= i < |st.usernames| && st.usernames[i].0 == k;
      assert Keys(st.usernames)[i] == k;
    }
  }

  /** A text channel, as the notifier sees it. */
  predicate FallbackChannel(name: string)
  {
    Contains(name, "notif") || Contains(name, "tiktok")
  }

  function FirstNamed(names: seq<string>, wanted: string): (r: Option<nat>)
    ensures r.Some? ==> r.value < |names| && names[r.value] == wanted
    ensures r.None? <==> wanted !in names
    ensures r.Some? ==> forall k :: 0 <= k < r.value ==> names[k] != wanted
  {
    if |names| == 0 then None
    else if names[0] == wanted then Some(0)
    else
      var t := FirstNamed(names[1..], wanted);
      assert forall k :: 1 <= k < |names| ==> names[k] == names[1..][k - 1];
      if t.Some? then Some(t.value + 1) else None
  }

  function FirstFallback(names: seq<string>): (r: Option<nat>)
    ensures r.Some? ==> r.value < |names| && FallbackChannel(names[r.value])
    ensures r.Some? ==> forall k :: 0 <= k < r.value ==> !FallbackChannel(names[k])
    ensures r.None? ==> forall k :: 0 <= k < |names| ==> !FallbackChannel(names[k])
  {
    if |names| == 0 then None
    else if FallbackChannel(names[0]) then Some(0)
    else
      var t := FirstFallback(names[1..]);
      assert forall k :: 1 <= k < |names| ==> names[k] == names[1..][k - 1];
      if t.Some? then Some(t.value + 1) else None
  }

  /** The channel of a guild a notification goes to: the dedicated channel
      by exact name, else the first text channel whose name mentions
      "notif" or "tiktok" (case sensitive); `None` skips the guild. */
  function NotificationTarget(names: seq<string>): (r: Option<nat>)
    ensures r.Some? ==> r.value < |names|
    ensures NotificationChannel in names ==> r.Some? && names[r.value] == NotificationChannel
    ensures NotificationChannel !in names ==> r == FirstFallback(names)
    ensures r.None? <==> forall k :: 0 <= k < |names| ==> !FallbackChannel(names[k])
  {
    var exact := FirstNamed(names, NotificationChannel);
    if exact.Some? then
      assert FallbackChannel(names[exact.value]) by {
        assert OccursAt(NotificationChannel, "notif", 2);
      }
      exact
    else FirstFallback(names)
  }

  /** The guilds a notification reaches, from index `from` on: those where
      the member is present and a channel qualifies, with that channel. */
  function NotifiedGuilds(guilds: seq<(bool, seq<string>)>, from: nat): (r: seq<(nat, nat)>)
    ensures forall p :: p in r ==> from <= p.0 < |guilds| && guilds[p.0].0 && NotificationTarget(guilds[p.0].1) == Some(p.1)
    ensures forall i :: from <= i < |guilds| && guilds[i].0 && NotificationTarget(guilds[i].1).Some? ==>
              (i, NotificationTarget(guilds[i].1).value) in r
    decreases |guilds| - from
  {
    if from >= |guilds| then []
    else
      var target := NotificationTarget(guilds[from].1);
      var here := if guilds[from].0 && target.Some? then [(from, target.value)] else [];
      here + NotifiedGuilds(guilds, from + 1)
  }
}

=== FILE: wrappers.dfy ===
/** Failure-compatible wrapper used wherever the bot reads an optional value:
    a dictionary lookup that may miss, a channel that may no longer exist,
    a query that may find nothing. */
module Wrappers {

  /** A present value or nothing (Python's `None`). */
  datatype Option<+T> = None | Some(value: T) {

    /** Returns the wrapped value, or `default` when there is none
        (Python's `d.get(key, default)`). */
    function GetOr(default: T): (r: T)
      ensures Some? ==> r == value
      ensures None? ==> r == default
    {
      match this
      case Some(v) => v
      case None => default
    }
  }
}
